=== FILE: README.md ===
# MR Tracker: a Dafny model of sessions, role gating, the task lifecycle and the dashboards

MR Tracker is a field-force application with two roles:

- a medical representative (an MR) punches doctor visits and shop visits from a phone and completes the tasks assigned to them;
- an admin assigns those tasks and watches the dashboards.

This project models the parts of the system where behaviour is decided by logic rather than by layout:

- **Client session and request layer** (`frontend/src/lib/api.ts`):
  - the two local-storage keys and their getters, setters and clearing;
  - header construction with the bearer credential;
  - URL joining and body shaping;
  - the error-message precedence of `handleResponse`;
  - the `login` and `logout` transitions;
  - the paths and bodies of the calls whose shape depends on their arguments.
- **Server views** (Django REST Framework):
  - the role-specific login endpoints, logout and the MR list;
  - the task queryset, task creation and `complete`;
  - doctor, doctor-visit and shop-visit creation and their querysets;
  - the MR and admin dashboards, with every aggregation (counts, the week chart, the top doctor, the recent visits, the per-MR tracking lines, the task lists).
- **Pages and dialogs** that transform server data or gate a request:
  - the sign-in page and the MR's home;
  - the admin's tracking page, MR detail page, route map and analytics page;
  - the punch-visit, assign-task and add-doctor dialogs.

Each page or dialog is a pure function from its state and inputs to the next state, the request it sends and the toast it raises.

The database is a record of sequences, one per table. Every value that comes from outside is a parameter: the server's answer, the clock, the device position, each request's outcome.

The modules are:

- Helpers: `Wrappers`, `Text`, `Seqs`, `Json`, `Codec`, `Clock`.
- Data model: `Roles`, `Models`.
- Server views: `Users`, `Tasks`, `Visits`, `Dashboard`.
- Client layer: `Session`, `Gateway`, `Catalogue`, `Wire` (which connects the server's replies to the client's handling).
- Page transforms: `Records`, `Forms`, `Tracking`, `Detail`, `RouteMap`, `Analytics`.
- Pages and dialogs: `LoginPage`, `MRHome`, `PunchVisit`, `AssignTask`, `AddDoctorDialog`.

Where the code and its documentation disagree, the model follows the code:

- **Task time.** The assign-task dialog labels the time "Time (Optional)" (`frontend/src/components/admin/AssignTaskModal.tsx` around line 227). Its guard refuses an empty time all the same, and the server's `due_time` is a required field. The model requires the time (`AssignTask.Filled`).
- **Completing another MR's task.** `complete` on the task view answers 404 to an MR who asks to complete another MR's task. The task is not in that MR's queryset, so the permission check after `get_object` is reached only by admins (`Tasks.OtherMRsTaskIsNotFound`).
- **Zone figures.** The analytics page describes its zone figures as an estimate. They are an even split of the total with a floor of one visit per zone, so below six visits the map shows six (`Analytics.ShownZonesSum`).

White space is trimmed in two dialects. The browser trims with JavaScript's `trim()` and the server strips with Python's `str.strip()`. These remove different characters. Python also removes U+001C to U+001F and the next-line character U+0085. JavaScript also removes the byte-order mark U+FEFF. The model keeps both sets (`Text.JsTrim`, `Text.PyStrip`). It proves where the add-doctor dialog and the server disagree (`AddDoctorDialog.NextLineNameIsSentAndRefused`, `AddDoctorDialog.ByteOrderMarkNameIsStored`).

Every text field of the server refuses the null character U+0000, which neither dialect strips. The model runs the length check and the null-character check in that order and keeps every message, so a field can report both (`Models.ValidatorErrors`, `AddDoctorDialog.NullCharacterNameIsSentAndRefused`).

## Model

| member | source | states |
|---|---|---|
| Roles.ParseRole | backend/mr_tracker/mr_tracker/users/models.py:10-16 | only the two role choices are read as roles, and a parsed role reads back as the text it came from |
| Roles.ParseRoleName | backend/mr_tracker/mr_tracker/users/models.py:10-12 | every role round-trips through its stored text |
| Models.Lookup | backend/mr_tracker/mr_tracker/tasks/api/views.py:40 | a row is found exactly when its key is in the table, and the row found carries that key |
| Models.UserOf | backend/mr_tracker/mr_tracker/dashboard/api/views.py:50 | the user behind an existing foreign key is a stored row with that id |
| Models.DoctorOf | backend/mr_tracker/mr_tracker/dashboard/api/views.py:51 | the doctor behind an existing foreign key is a stored row with that id |
| Models.NewTask | backend/mr_tracker/mr_tracker/tasks/models.py:6-26 | a created task starts not completed and without a visit link, with the given assignee, assigner, doctor and due date and time |
| Models.MarkCompleted | backend/mr_tracker/mr_tracker/tasks/models.py:28-31 | marking a task completed sets the flag and the link and changes no other field |
| Models.MarkCompletedRepoints | backend/mr_tracker/mr_tracker/tasks/models.py:28-31 | marking twice is marking with the second visit: the last link wins |
| Models.TextError | backend/mr_tracker/mr_tracker/users/api/serializers.py:17-19 | a required text field is refused as missing, then as blank after Python's strip; a non-blank value then collects every validator message that applies, too long and holding a null character; it passes exactly when none applies |
| Models.ValidatorErrors | backend/mr_tracker/mr_tracker/visits/models.py:5-6 | the validators of a non-blank value run in order and all report: the length message exactly when a limit is set and exceeded, the null-character message exactly when U+0000 occurs, and nothing else |
| Models.OptionalTextError | backend/mr_tracker/mr_tracker/visits/models.py:42-43 | an optional text field passes when absent or blank; otherwise it collects the length message when its stripped value is too long and the null-character message when that value holds U+0000, and passes exactly when neither applies |
| Models.Authenticated | backend/mr_tracker/mr_tracker/tasks/api/views.py:24 | `IsAuthenticated` admits exactly the signed-in requesters, and refuses the rest with 401 |
| Models.ErrorJson | backend/mr_tracker/mr_tracker/users/api/views.py:57 | a detail refusal is the object `{"detail": m}`; a validation refusal has as keys exactly the names of the fields that carry an error |
| Models.FieldNames | backend/mr_tracker/mr_tracker/users/api/views.py:49 | a name is in the set exactly when some validation error is for that field |
| Models.FieldMap | backend/mr_tracker/mr_tracker/users/api/views.py:49 | the keys are exactly the fields that failed, and each field's list holds all of that field's messages, one per error, in the order they were found |
| Users.AccountNamed | backend/mr_tracker/mr_tracker/users/api/views.py:54 | the account found carries the username asked for; when none is found, no account has it |
| Users.Authenticate | backend/mr_tracker/mr_tracker/users/api/views.py:54 | authentication yields a user only for an existing active account whose password matches, and the user is that account's |
| Users.LoginFieldErrors | backend/mr_tracker/mr_tracker/users/api/serializers.py:17-19 | the login body is valid exactly when both username and password are present, not blank after Python's strip, and free of null characters |
| Users.WrongRole | backend/mr_tracker/mr_tracker/users/api/views.py:59-60 | the wrong-role refusal names the role the endpoint requires |
| Users.RoleLogin | backend/mr_tracker/mr_tracker/users/api/views.py:47-72 | field errors give 400; bad credentials give 401; the wrong role gives 403; success issues the token pair for a user of the endpoint's role |
| Users.BadPasswordIsNeverForbidden | backend/mr_tracker/mr_tracker/users/api/views.py:54-60 | the credential check precedes the role check, so a wrong password is 401 at both endpoints, never 403 |
| Users.LoginEndpointsExclusive | backend/mr_tracker/mr_tracker/users/api/views.py:59-60 | no user can sign in at both login endpoints; a valid user signs in at exactly one |
| Users.UserJson | backend/mr_tracker/mr_tracker/users/api/serializers.py:6-15 | the user serializer writes exactly id, username, email, name and role |
| Users.LoginJson | backend/mr_tracker/mr_tracker/users/api/views.py:64-72 | a successful login body holds exactly the refresh token, the access token and the serialized user |
| Users.Logout | backend/mr_tracker/mr_tracker/users/api/views.py:118-126 | logout answers 205 and blacklists exactly when the refresh token is a live issued token; otherwise 400 and nothing changes |
| Users.LogoutTwiceRefused | backend/mr_tracker/mr_tracker/users/api/views.py:118-126 | a refresh token can log out only once |
| Users.MRList | backend/mr_tracker/mr_tracker/users/api/views.py:129-137 | only admins list MRs; the list has one summary per MR user and nothing else |
| Users.UserQueryset | backend/mr_tracker/mr_tracker/users/api/views.py:27-29 | the user endpoints see only rows with the requester's id |
| Users.UserQuerysetIsSelf | backend/mr_tracker/mr_tracker/users/api/views.py:27-29 | with unique ids, a stored requester sees exactly their own row |
| Tasks.TaskQueryset | backend/mr_tracker/mr_tracker/tasks/api/views.py:26-32 | an MR sees exactly the tasks assigned to them, each as often as it is stored; any other role sees every task |
| Tasks.TaskFieldErrors | backend/mr_tracker/mr_tracker/tasks/api/serializers.py:9-18 | a task request is valid exactly when the assignee is an MR user, the doctor exists, the due date and time are given, and the notes, if any, hold no null character |
| Tasks.CreateTask | backend/mr_tracker/mr_tracker/tasks/api/views.py:34-35 | creation needs authentication, valid fields and an assignee other than the requester; the new task is assigned by the requester, open and unlinked |
| Tasks.CreateIgnoresReadOnlyFields | backend/mr_tracker/mr_tracker/tasks/api/serializers.py:12-38 | what a client sends for the assigner, assigned date, completed flag or visit link cannot change the result |
| Tasks.AdminNeverSelfAssigns | backend/mr_tracker/mr_tracker/tasks/api/serializers.py:40-44 | the self-assignment check never refuses an admin, because an admin is not an MR user |
| Tasks.CreatePreservesValid | backend/mr_tracker/mr_tracker/tasks/models.py:6-26 | creating a task keeps keys unique and every foreign key resolving |
| Tasks.VisibleTask | backend/mr_tracker/mr_tracker/tasks/api/views.py:40 | a task is found exactly when the requester's queryset holds a task with that id, so a miss is the 404 |
| Tasks.TaskVisit | backend/mr_tracker/mr_tracker/tasks/api/views.py:45-58 | the visit recorded by `complete` is new, by the requester, at the task's doctor, completed, with the sent position and notes ("" when absent) |
| Tasks.MarkTaskCompleted | backend/mr_tracker/mr_tracker/tasks/api/views.py:60-62 | only the task with that id is marked; every other row is unchanged |
| Tasks.CompleteGuard | backend/mr_tracker/mr_tracker/tasks/api/views.py:40-43 | `complete` refuses anonymous requests (401), unknown or invisible tasks (404), and a requester who is not the assignee (403) |
| Tasks.Complete | backend/mr_tracker/mr_tracker/tasks/api/views.py:37-68 | intended `complete`: succeeds exactly past the guard, adds one visit linked to the task, marks it completed, and changes nothing else |
| Tasks.CompleteAsWritten | backend/mr_tracker/mr_tracker/tasks/api/views.py:50-58 | `complete` as written: past the guard it always fails with a server error, because the visit is created with an unknown `visit_type` argument |
| Tasks.CompleteAsWrittenFailsWhereCorrectSucceeds | backend/mr_tracker/mr_tracker/tasks/api/views.py:50-58 | the written and intended forms refuse the same requests, and the written one fails exactly where the intended one succeeds |
| Tasks.CompleteAsWrittenExample | backend/mr_tracker/mr_tracker/tasks/api/views.py:50-58 | for a concrete task and its assignee, the written form answers 500 and the intended one succeeds |
| Tasks.OtherMRsTaskIsNotFound | backend/mr_tracker/mr_tracker/tasks/api/views.py:26-32 | an MR asking for another MR's task gets 404, not 403 |
| Tasks.MarkTaskCompletedKeepsKeys | backend/mr_tracker/mr_tracker/tasks/api/views.py:60-62 | marking a task keeps the task keys unique and the same |
| Tasks.MarkTaskCompletedKeepsLinks | backend/mr_tracker/mr_tracker/tasks/models.py:18-24 | linking an unlinked visit keeps `visit_record` one-to-one |
| Tasks.MarkTaskCompletedKeepsReferences | backend/mr_tracker/mr_tracker/tasks/models.py:6-24 | linking a newly stored visit keeps every task reference resolving |
| Tasks.LinkVisitKeepsValid | backend/mr_tracker/mr_tracker/tasks/api/views.py:50-62 | adding a visit with a fresh key by a stored user at a stored doctor, and pointing a task's visit_record at it, keeps keys unique, references resolving and visit links one-to-one |
| Tasks.CompletePreservesValid | backend/mr_tracker/mr_tracker/tasks/api/views.py:50-62 | a successful completion keeps the database consistent |
| Tasks.CompletedTaskRow | backend/mr_tracker/mr_tracker/tasks/api/views.py:60-62 | the completed task stays at its position, marked completed with the new visit |
| Tasks.AssigneePassesGuard | backend/mr_tracker/mr_tracker/tasks/api/views.py:26-43 | with unique task ids, the assignee of any stored task gets past the 401, 404 and 403 refusals of `complete`, whatever their role |
| Tasks.CompletedTaskStaysVisible | backend/mr_tracker/mr_tracker/tasks/api/views.py:26-43 | nothing prevents the assignee from completing the same task again |
| Tasks.CompleteTwiceRepoints | backend/mr_tracker/mr_tracker/tasks/api/views.py:50-62 | a second completion records a second visit and repoints the link to it; the first visit remains |
| Visits.DoctorFieldErrors | backend/mr_tracker/mr_tracker/visits/models.py:4-6 | a doctor is valid exactly when name and specialization are non-blank after Python's strip, within 255 characters, and free of null characters |
| Visits.CreateDoctor | backend/mr_tracker/mr_tracker/visits/api/views.py:26-32 | any signed-in user can create a valid doctor; the creator is the requester and the names are stored as Python strips them |
| Visits.StrippedDoctorIsCreated | backend/mr_tracker/mr_tracker/visits/api/views.py:26-32 | names that Python's strip leaves unchanged, non-empty, within 255 characters and free of null characters are created exactly as sent |
| Visits.NullCharacterNameIsRefused | backend/mr_tracker/mr_tracker/visits/models.py:5 | a name holding U+0000 anywhere is refused with 400, and the name's errors include the null-character message |
| Visits.AddDoctorKeepsValid | backend/mr_tracker/mr_tracker/visits/models.py:4-13 | appending a doctor with a fresh key whose creator, if any, is a stored user keeps keys unique and references resolving |
| Visits.CreateDoctorIgnoresCreator | backend/mr_tracker/mr_tracker/visits/api/views.py:31-32 | a creator sent by the client makes no difference |
| Visits.CreateDoctorPreservesValid | backend/mr_tracker/mr_tracker/visits/models.py:4-13 | creating a doctor keeps the database consistent |
| Visits.LexLePair | backend/mr_tracker/mr_tracker/visits/models.py:35-36 | the two-key ordering is "earlier date, or the same date and no later time" |
| Visits.DoctorVisitQueryset | backend/mr_tracker/mr_tracker/visits/api/views.py:39-43 | an MR sees exactly their own doctor visits, anyone else all of them, each as often as it is stored, newest first |
| Visits.ShopVisitQueryset | backend/mr_tracker/mr_tracker/visits/api/views.py:53-57 | an MR sees exactly their own shop visits, anyone else all of them, each as often as it is stored, newest first |
| Visits.DoctorVisitsNewestFirst | backend/mr_tracker/mr_tracker/visits/models.py:35-36 | a doctor visit listed earlier is never older, by date then time |
| Visits.ShopVisitsNewestFirst | backend/mr_tracker/mr_tracker/visits/models.py:53-54 | a shop visit listed earlier is never older, by date then time |
| Visits.CreateDoctorVisit | backend/mr_tracker/mr_tracker/visits/api/views.py:45-46 | a signed-in user records a visit exactly when the doctor exists and the notes hold no null character; the visit is owned by them and stamped with the current date and time; otherwise the field errors come back with 400 |
| Visits.DoctorVisitFieldErrors | backend/mr_tracker/mr_tracker/visits/models.py:19-25 | a doctor-visit body is valid exactly when it names a stored doctor and its notes, if any, hold no null character |
| Visits.CreateDoctorVisitIgnoresClientStamp | backend/mr_tracker/mr_tracker/visits/api/views.py:45-46 | the owner, date and time a client sends make no difference |
| Visits.CreateDoctorVisitPreservesValid | backend/mr_tracker/mr_tracker/visits/models.py:19-31 | recording a doctor visit keeps the database consistent |
| Visits.ShopFieldErrors | backend/mr_tracker/mr_tracker/visits/models.py:38-44 | a shop visit is valid exactly when the shop name is non-blank, every text field is within its limit, and no text field, notes included, holds a null character |
| Visits.CreateShopVisit | backend/mr_tracker/mr_tracker/visits/api/views.py:59-60 | a signed-in user records a valid shop visit, owned by them and stamped now, with the shop name, location and contact stored as Python strips them and absent ones null |
| Visits.CreateShopVisitIgnoresClientStamp | backend/mr_tracker/mr_tracker/visits/api/views.py:59-60 | the owner, date and time a client sends make no difference |
| Visits.CreateShopVisitPreservesValid | backend/mr_tracker/mr_tracker/visits/models.py:38-54 | recording a shop visit keeps the database consistent |
| Visits.AppendShopVisitKeepsValid | backend/mr_tracker/mr_tracker/visits/models.py:38-39 | a shop visit under a fresh key owned by a stored user keeps the database consistent |
| Clock.Clock12 | backend/mr_tracker/mr_tracker/dashboard/api/views.py:64 | `%I:%M %p` gives eight characters, a colon and a space in place, and AM exactly before noon |
| Clock.ParseClock12OfClock12 | backend/mr_tracker/mr_tracker/dashboard/api/views.py:64 | the 12-hour text reads back as the minute of the day |
| Clock.Clock12SameMinute | backend/mr_tracker/mr_tracker/dashboard/api/views.py:64 | two times print alike exactly when they fall in the same minute |
| Dashboard.RoleGate | backend/mr_tracker/mr_tracker/dashboard/api/views.py:18-24 | anonymous gets 401, the other role gets 403, and exactly the named role passes |
| Dashboard.UsernameOf | backend/mr_tracker/mr_tracker/dashboard/api/views.py:50 | a row's MR column is the username of the user behind the key |
| Dashboard.DoctorNameOf | backend/mr_tracker/mr_tracker/dashboard/api/views.py:51 | a row's doctor column is the name of the doctor behind the key |
| Dashboard.TaskRowOf | backend/mr_tracker/mr_tracker/dashboard/api/views.py:48-58 | a task row shows its assignee's username, its doctor's name, its due date and time, its notes, and "completed" exactly when completed |
| Dashboard.VisitRowOf | backend/mr_tracker/mr_tracker/dashboard/api/views.py:60-68 | a visit row shows the MR's username, the doctor's name, the notes, and a time that reads back as the visit's minute |
| Dashboard.ShopRowOf | backend/mr_tracker/mr_tracker/dashboard/api/views.py:74-82 | a shop row carries the shop's name, location and notes, and a time that reads back as the visit's minute |
| Dashboard.DayDoctorVisits | backend/mr_tracker/mr_tracker/dashboard/api/views.py:36-39 | exactly the MR's doctor visits of the day, each as often as it is stored, latest first |
| Dashboard.DayShopVisits | backend/mr_tracker/mr_tracker/dashboard/api/views.py:41-44 | exactly the MR's shop visits of the day, each as often as it is stored, latest first |
| Dashboard.TasksOf | backend/mr_tracker/mr_tracker/dashboard/api/views.py:46-58 | one row per task assigned to the MR, in table order |
| Dashboard.TasksOfCovers | backend/mr_tracker/mr_tracker/dashboard/api/views.py:46-58 | no task assigned to the MR is missing from their list |
| Dashboard.DayVisitRows | backend/mr_tracker/mr_tracker/dashboard/api/views.py:60-68 | one row per doctor visit of the MR that day, in the order of the day's visits, so their clock times read latest first |
| Dashboard.DayVisitRowsCover | backend/mr_tracker/mr_tracker/dashboard/api/views.py:60-68 | no doctor visit the MR logged that day is missing from the rows |
| Dashboard.MRDashboard | backend/mr_tracker/mr_tracker/dashboard/api/views.py:28-86 | only MRs get it; the count is the day's doctor plus shop visits; the task list is exactly the MR's tasks, and the two visit lists are the day's doctor and shop visits row by row, latest first |
| Dashboard.DailyVisits | backend/mr_tracker/mr_tracker/dashboard/api/views.py:130-138 | seven days, oldest first, ending today, each with that day's doctor plus shop visits |
| Dashboard.DoctorNamesOn | backend/mr_tracker/mr_tracker/dashboard/api/views.py:109-112 | one doctor name per doctor visit of the day |
| Dashboard.Busiest | backend/mr_tracker/mr_tracker/dashboard/api/views.py:109-115 | no top doctor exactly when there were no visits; otherwise a visited name with the largest count |
| Dashboard.SummaryOf | backend/mr_tracker/mr_tracker/dashboard/api/views.py:96-128 | today's total, the number of MR users, and a top doctor exactly when someone was visited today: a name visited today that no other name of the day outnumbers |
| Dashboard.RecentDoctorVisits | backend/mr_tracker/mr_tracker/dashboard/api/views.py:140-142 | at most ten doctor visits, none more often than it is stored, newest first by date then time |
| Dashboard.RecentAreNewest | backend/mr_tracker/mr_tracker/dashboard/api/views.py:140-142 | no visit left out of the recent list is newer than one in it |
| Dashboard.Punches | backend/mr_tracker/mr_tracker/dashboard/api/views.py:156-159 | first and last punch exist exactly when the MR has doctor visits today, and each is the time of one of them |
| Dashboard.TrackingRowAsWritten | backend/mr_tracker/mr_tracker/dashboard/api/views.py:161-166 | the tracking line as written: username and today's count, with no MR id |
| Dashboard.TrackingRowOf | backend/mr_tracker/mr_tracker/dashboard/api/serializers.py:16-21 | the corrected line carries the MR's id, and punches exactly when the MR has visits today |
| Dashboard.MRTrackingAsWritten | backend/mr_tracker/mr_tracker/dashboard/api/views.py:154-166 | one line per MR user, none of them identified |
| Dashboard.MRTracking | backend/mr_tracker/mr_tracker/dashboard/api/views.py:154-166 | one identified line per MR user, in table order |
| Dashboard.MRTrackingCovers | backend/mr_tracker/mr_tracker/dashboard/api/views.py:154-166 | every MR user has a line |
| Dashboard.FirstPunchNotAfterLast | backend/mr_tracker/mr_tracker/dashboard/api/views.py:158-159 | the first punch is never later than the last |
| Dashboard.AllTasksByDueDate | backend/mr_tracker/mr_tracker/dashboard/api/views.py:168 | every task exactly once, latest due date first |
| Dashboard.AdminDashboard | backend/mr_tracker/mr_tracker/dashboard/api/views.py:89-189 | the corrected view: only admins get it; it holds the summary, the week chart, the ten newest visits row by row, one identified tracking line per MR, and every task row by row by due date, latest first |
| Dashboard.AdminDashboardAsWritten | backend/mr_tracker/mr_tracker/dashboard/api/views.py:89-189 | the view as written: the same gate and the same answer as the corrected view, except that no tracking line carries an MR id |
| Dashboard.AdminDashboardAsWrittenDiffers | backend/mr_tracker/mr_tracker/dashboard/api/views.py:154-166 | with at least one MR user, the view as written and the corrected view differ, and only in the tracking lines |
| Dashboard.ChartEndsWithSummary | backend/mr_tracker/mr_tracker/dashboard/api/views.py:96-138 | the week chart's last bar equals the summary's count for today |
| Dashboard.TrackingAgreesWithMRDashboard | backend/mr_tracker/mr_tracker/dashboard/api/views.py:156-163 | an MR's tracking count is the length of the visit list on their own dashboard |
| Dashboard.MRTodayWithinTotal | backend/mr_tracker/mr_tracker/dashboard/api/views.py:71 | an MR's count for today never exceeds the summary's total for today |
| Session.EncodeTokens | frontend/src/lib/api.ts:44-47 | a stored token record is never empty text |
| Session.DecodeEncodeTokens | frontend/src/lib/api.ts:29-32 | the stored token pair reads back unchanged |
| Session.EncodeUser | frontend/src/lib/api.ts:44-47 | a stored user record is never empty text |
| Session.DecodeEncodeUser | frontend/src/lib/api.ts:34-37 | the stored user reads back unchanged |
| Session.GetStoredTokens | frontend/src/lib/api.ts:29-32 | a missing or empty key means no tokens; the only failure is the parse error of a corrupt record |
| Session.GetStoredUser | frontend/src/lib/api.ts:34-37 | a missing or empty key means no user; the only failure is the parse error of a corrupt record |
| Session.ClearAuthStorage | frontend/src/lib/api.ts:39-42 | both session keys go and every other key stays as it was |
| Session.WriteTokens | frontend/src/lib/api.ts:45 | after writing, the getter returns exactly the pair written, and other keys are untouched |
| Session.WriteUser | frontend/src/lib/api.ts:46 | after writing, the getter returns exactly the user written, and other keys are untouched |
| Session.StoreAuth | frontend/src/lib/api.ts:44-47 | after storing, both getters return what was stored, and no other key changes |
| Session.KeysIndependent | frontend/src/lib/api.ts:29-37 | each getter reads only its own key |
| Session.ClearedHasNoSession | frontend/src/lib/api.ts:39-42 | after clearing, both getters report no session |
| Session.ClearIdempotent | frontend/src/lib/api.ts:39-42 | clearing twice is clearing once |
| Session.ClearUndoesStore | frontend/src/lib/api.ts:39-47 | storing and then clearing leaves what clearing alone would |
| Gateway.BaseUrl | frontend/src/lib/api.ts:1-3 | the base is never empty: the configured value less one trailing slash, or the local default |
| Gateway.BuildHeaders | frontend/src/lib/api.ts:49-62 | JSON content type always; a bearer header exactly when auth is not skipped and an access token is stored; a corrupt record fails |
| Gateway.JoinUrl | frontend/src/lib/api.ts:83 | the URL is the base, one slash unless the path brings its own, then the path |
| Gateway.LeadingSlashOptional | frontend/src/lib/api.ts:83 | a path with or without its leading slash gives the same URL |
| Gateway.ShapeBody | frontend/src/lib/api.ts:90-92 | null and undefined bodies are omitted, form data passes unchanged, anything else is serialized |
| Gateway.ResponseData | frontend/src/lib/api.ts:64-67 | a non-JSON response gives null; unparsable JSON gives `{}`; otherwise the parsed body |
| Gateway.HandleResponse | frontend/src/lib/api.ts:64-77 | a response succeeds exactly when it is ok, with its data; a failure carries the derived message |
| Gateway.ErrorMessagePrecedence | frontend/src/lib/api.ts:69-73 | the error message is a truthy `detail`, else a truthy `message`, else the status text |
| Gateway.DetailBecomesMessage | frontend/src/lib/api.ts:69-73 | a failed `{"detail": X}` response fails with exactly X |
| Gateway.UnreadableBodyGivesStatusMessage | frontend/src/lib/api.ts:64-73 | a failed response without a readable JSON body fails with the status text |
| Gateway.PrepareRequest | frontend/src/lib/api.ts:79-92 | the request carries the joined URL, the verb, the headers and the shaped body; it fails only when the headers fail |
| Gateway.ApiFetch | frontend/src/lib/api.ts:79-96 | nothing is sent when the headers fail; otherwise the prepared request is sent, and a network error or the response decides the outcome |
| Catalogue.LoginPath | frontend/src/lib/api.ts:99-106 | each role has its own login endpoint |
| Catalogue.Login | frontend/src/lib/api.ts:99-122 | login posts the credentials without a bearer header; a failure keeps the store, and a success stores the tokens and user it returns |
| Catalogue.FailedLoginKeepsStorage | frontend/src/lib/api.ts:99-122 | a failed login leaves storage exactly as it was |
| Catalogue.Logout | frontend/src/lib/api.ts:124-139 | the refresh token is sent only when one is stored; the session is cleared whatever the server answers |
| Catalogue.LogoutEndsSession | frontend/src/lib/api.ts:124-139 | after logout no session is stored |
| Catalogue.LoginThenLogoutEndsSession | frontend/src/lib/api.ts:99-139 | logging in and then out leaves no session, whatever either server answered |
| Catalogue.CompleteTaskPath | frontend/src/lib/api.ts:294-301 | the complete path is the task collection, the id in decimal, then the complete action |
| Catalogue.CompleteTaskPathInjective | frontend/src/lib/api.ts:294-301 | distinct tasks are completed through distinct paths |
| Catalogue.MRDetailQuery | frontend/src/lib/api.ts:309-313 | only non-empty dates appear, start first, and "?" only when at least one does |
| Catalogue.MRDetailPath | frontend/src/lib/api.ts:304-364 | the detail path names the MR's id, then carries exactly the date query |
| Catalogue.AnalyticsPath | frontend/src/lib/api.ts:367-401 | the analytics path carries exactly the chosen period |
| Catalogue.AnalyticsPathInjective | frontend/src/lib/api.ts:367 | distinct periods give distinct paths |
| Catalogue.CompleteTaskBody | frontend/src/lib/api.ts:294-301 | coordinates are sent only when both are defined, and notes only when given, each with its value |
| Wire.ToResponse | backend/mr_tracker/mr_tracker/users/api/views.py:56-72 | a reply is ok exactly when the view succeeded; a refusal carries its status, and only an unhandled exception is not JSON |
| Wire.DetailRefusalReachesClient | backend/mr_tracker/mr_tracker/users/api/views.py:56-60 | the server's detail message reaches the caller unchanged |
| Wire.FieldErrorsReachClientAsStatus | backend/mr_tracker/mr_tracker/users/api/views.py:48-49 | field-level validation errors reach the caller only as the status text |
| Wire.ServerErrorReachesClientAsStatus | backend/mr_tracker/mr_tracker/tasks/api/views.py:50-58 | an unhandled server exception reaches the caller as the status text |
| Wire.SessionUser | frontend/src/lib/api.ts:13-19 | the client's user keeps the server user's id, username, name, role and email |
| Wire.LoginJsonDecodes | frontend/src/lib/api.ts:112-121 | every successful login body the server writes is read back as its tokens and user |
| Wire.AcceptedLoginStoresSession | frontend/src/lib/api.ts:112-121 | an accepted login leaves the client holding the issued tokens and the signed-in user |
| Wire.RefusedLoginKeepsStorage | frontend/src/lib/api.ts:99-122 | a refused login leaves storage unchanged, and a detail reason reaches the caller |
| Records.OrElse | frontend/src/pages/mr/MRDashboard.tsx:75-76 | `a \|\| b` on text: a unless a is empty |
| Records.OptOrElse | frontend/src/pages/mr/MRDashboard.tsx:101 | `a \|\| b` on nullable text: a unless missing or empty |
| Records.NumberOf | frontend/src/pages/admin/MRDetail.tsx:87-91 | `Number` on an id string: blank after JavaScript's trim is 0, a run of digits is its value, anything else is not a number |
| Records.NumberOfNatToString | frontend/src/pages/mr/MRDashboard.tsx:74 | an id printed in decimal reads back as that id |
| Records.FindDoctor | frontend/src/pages/admin/MRTracking.tsx:165 | a doctor is found exactly when one has the id, and the found entry is the first with it |
| Records.FindMR | frontend/src/pages/admin/MRTracking.tsx:161 | an MR is found exactly when one has the id, and the found entry is the first with it |
| Records.StatusText | frontend/src/pages/admin/MRTracking.tsx:172 | "completed" exactly for completed tasks, "pending" exactly for the others |
| Tracking.RowOf | frontend/src/pages/admin/MRTracking.tsx:107-115 | the row keeps the name and count, has the dash territory, is "Working" exactly with visits, and shows each punch as sent unless it is missing or empty, which shows "-" |
| Tracking.MRData | frontend/src/pages/admin/MRTracking.tsx:103-117 | one row per identified tracking line, in order |
| Tracking.MRDataCovers | frontend/src/pages/admin/MRTracking.tsx:103-117 | every identified line has its row |
| Tracking.FilteredMRs | frontend/src/pages/admin/MRTracking.tsx:119-128 | a row is kept exactly when its name contains the search, ignoring case, and it matches the territory and status filters; a kept row appears as often as in the table |
| Tracking.FilteredMRsKeepsOrder | frontend/src/pages/admin/MRTracking.tsx:119-128 | filtering a table is filtering its parts in turn, and one row is kept exactly when it passes, so the kept rows stay in table order |
| Tracking.NoFilterKeepsAll | frontend/src/pages/admin/MRTracking.tsx:119-128 | with no search and both filters at "all", every row is kept in order |
| Tracking.NamedTerritoryShowsNone | frontend/src/pages/admin/MRTracking.tsx:110 | choosing a named territory always empties the table |
| Tracking.UnreachableStatusShowsNone | frontend/src/pages/admin/MRTracking.tsx:111 | a status other than Working or Off, such as Leave, always empties the table |
| Tracking.AsWrittenTrackingShowsNoMRs | frontend/src/pages/admin/MRTracking.tsx:106 | with the server's lines as written, the table is always empty |
| Tracking.CorrectedTrackingShowsEveryMR | frontend/src/pages/admin/MRTracking.tsx:106 | with the id sent, the table has one row per MR and a row for each MR user |
| Tracking.CorrectedTrackingRow | frontend/src/pages/admin/MRTracking.tsx:107-115 | each corrected row is an MR, shown as Working exactly when they have visits today |
| Tracking.VisitLogs | frontend/src/pages/admin/MRTracking.tsx:130-143 | the log keeps the order received, numbering from 1 with increasing ids |
| Tracking.MRName | frontend/src/pages/admin/MRTracking.tsx:160-163 | the MR's name, else their username, else "MR" |
| Tracking.DoctorName | frontend/src/pages/admin/MRTracking.tsx:164-166 | the doctor's name when found and non-empty, else "Doctor" |
| Tracking.DoctorSpecialty | frontend/src/pages/admin/MRTracking.tsx:167-169 | the specialization when found and non-empty, else the dash |
| Tracking.TaskViewOf | frontend/src/pages/admin/MRTracking.tsx:157-175 | the task view keeps dates, time and notes, and is "completed" exactly when the task is |
| Tracking.AssignedTaskViews | frontend/src/pages/admin/MRTracking.tsx:155-177 | one view per task, in order |
| Tracking.PendingCountsOpenTasks | frontend/src/pages/admin/MRTracking.tsx:155-177 | the pending badge counts exactly the tasks not completed |
| Tracking.CountOfViews | frontend/src/pages/admin/MRTracking.tsx:172 | counting pending views equals counting open tasks |
| Detail.ParseMrId | frontend/src/pages/admin/MRDetail.tsx:87-91 | no id for an absent or empty route id; otherwise `Number` of it, null when not a number |
| Detail.ParseMrIdOfNat | frontend/src/pages/admin/MRDetail.tsx:87-91 | a route built from an MR's id reads back as that id |
| Detail.DetailEnabled | frontend/src/pages/admin/MRDetail.tsx:142 | the detail request runs exactly for a positive id, so route id "0" never fetches |
| Detail.WindowDays | frontend/src/pages/admin/MRDetail.tsx:102-131 | the presets span today, yesterday, the last 7 days or the last 30 days, ending no later than today |
| Detail.DateWindow | frontend/src/pages/admin/MRDetail.tsx:97-134 | all time sends no dates, a custom range the typed dates, and a preset its ISO days |
| Detail.AllTimeSendsNoQuery | frontend/src/pages/admin/MRDetail.tsx:129-130 | for all time the request has no query string |
| Detail.PresetSendsBothDates | frontend/src/pages/admin/MRDetail.tsx:102-124 | a preset sends both dates, start first |
| Detail.TextOrNull | frontend/src/pages/admin/MRDetail.tsx:176-177 | `v \|\| null`: present exactly when non-empty, and then unchanged |
| Detail.DoctorItemOf | frontend/src/pages/admin/MRDetail.tsx:154-168 | a doctor entry has a prefixed id, the name or "Unknown", the notes or "", and the visit's stamp and coordinates |
| Detail.ShopItemOf | frontend/src/pages/admin/MRDetail.tsx:170-183 | a shop entry has a prefixed id, the name or "Unknown", and location and contact only when non-empty |
| Detail.CombinedVisits | frontend/src/pages/admin/MRDetail.tsx:185-191 | the merged list is a permutation of all doctor and shop entries, newest stamp first |
| Detail.PrefixedIdsDiffer | frontend/src/pages/admin/MRDetail.tsx:157 | doctor and shop entry ids never collide, and within a kind distinct visit ids stay distinct |
| Detail.CombinedIdsUnique | frontend/src/pages/admin/MRDetail.tsx:185-191 | with the server's unique ids, no two merged entries share an id |
| Detail.OffersMap | frontend/src/pages/admin/MRDetail.tsx:582 | the map action is offered exactly for doctor entries with both coordinates truthy |
| RouteMap.DateKey | frontend/src/components/admin/MRRouteMap.tsx:53 | the chosen date, or today when none is chosen |
| RouteMap.PlottedVisits | frontend/src/components/admin/MRRouteMap.tsx:54-56 | a visit is plotted exactly when it falls on the key date and both coordinates are truthy |
| RouteMap.PlottingKeepsOrder | frontend/src/components/admin/MRRouteMap.tsx:54-56 | plotting keeps input order: the plot of a concatenation is the concatenation of the plots, and a single visit is plotted exactly when it is on the chosen day with both coordinates |
| RouteMap.KindColor | frontend/src/components/admin/MRRouteMap.tsx:86 | blue exactly for doctor visits, purple for shops |
| RouteMap.BuildRoute | frontend/src/components/admin/MRRouteMap.tsx:58-149 | no map without plotted visits; otherwise centred on the first, one marker per visit numbered from 1, and a line through the visits in order only for two or more |
| RouteMap.Caption | frontend/src/components/admin/MRRouteMap.tsx:181-185 | "No visits recorded for" the chosen date, or the plotted count with the plural only when it is not 1 |
| Analytics.FirstRequestIsWeekly | frontend/src/pages/admin/Analytics.tsx:22 | the page first asks for a week, not the request helper's default of a day |
| Analytics.ChartData | frontend/src/pages/admin/Analytics.tsx:38-46 | one chart point per trend, with its counts carried over |
| Analytics.TopMRs | frontend/src/pages/admin/Analytics.tsx:50-53 | the first six performers as received, in order |
| Analytics.TopMRsIgnoreTail | frontend/src/pages/admin/Analytics.tsx:50 | entries after the sixth never reach the chart |
| Analytics.Split | frontend/src/pages/admin/Analytics.tsx:72-74 | each zone gets the quotient, and the first `r` zones one more |
| Analytics.SplitSum | frontend/src/pages/admin/Analytics.tsx:72-74 | the split adds up to `k * q` plus the zones that got the extra visit |
| Analytics.ZoneShares | frontend/src/pages/admin/Analytics.tsx:71-74 | six shares forming the even split of the total |
| Analytics.ZoneSharesSumToTotal | frontend/src/pages/admin/Analytics.tsx:72-74 | the shares account for every visit |
| Analytics.ZoneSharesBalanced | frontend/src/pages/admin/Analytics.tsx:72-74 | the shares never grow with the zone index and differ by at most one |
| Analytics.Territories | frontend/src/pages/admin/Analytics.tsx:61-83 | six named zones, each showing its share but at least one |
| Analytics.ShownZonesSum | frontend/src/pages/admin/Analytics.tsx:77 | the zones show the true total from six visits on; below that, six |
| Forms.IdJson | frontend/src/components/admin/AssignTaskModal.tsx:76-82 | `Number(id)` as sent: its value, or null when it is not a number |
| Forms.IdJsonOfNatToString | frontend/src/components/mr/PunchVisitModal.tsx:104 | an id picked from a list arrives as that id |
| Forms.Optional | frontend/src/components/mr/PunchVisitModal.tsx:107 | `text \|\| undefined`: present exactly when non-empty, and then unchanged |
| Forms.DoctorBody | frontend/src/components/admin/AddDoctorModal.tsx:47 | the new-doctor body holds exactly the name and the specialization |
| PunchVisit.Locate | frontend/src/components/mr/PunchVisitModal.tsx:36-68 | a reading stores the coordinates and raises no toast; no geolocation or a failed request marks the status, keeps the coordinates held before and raises its own destructive toast; save stays enabled unless a save is in flight |
| PunchVisit.SaveEnabled | frontend/src/components/mr/PunchVisitModal.tsx:264 | save is enabled exactly when the position is not pending and no save is in flight |
| PunchVisit.VisitBody | frontend/src/components/mr/PunchVisitModal.tsx:103-108 | the visit body names the doctor, sends coordinates only when held and notes only when non-empty |
| PunchVisit.SavedDoctorName | frontend/src/components/mr/PunchVisitModal.tsx:110-116 | the success view names the listed doctor whose id reads as the selection, else "Doctor", and is never empty |
| PunchVisit.SaveVisit | frontend/src/components/mr/PunchVisitModal.tsx:90-129 | nothing is sent without a selection; otherwise the body is sent, success shows the confirmation, and failure raises the error toast |
| PunchVisit.CreatedId | frontend/src/components/mr/PunchVisitModal.tsx:152 | the new selection is the created id when truthy, else empty |
| PunchVisit.AddDoctor | frontend/src/components/mr/PunchVisitModal.tsx:131-165 | the untrimmed presence check gates the request; success selects the new doctor and returns to the form |
| PunchVisit.AddedDoctorIsSaved | frontend/src/components/mr/PunchVisitModal.tsx:152 | a doctor the server creates is the one the next save sends |
| PunchVisit.Close | frontend/src/components/mr/PunchVisitModal.tsx:79-88 | closing returns to the form with selection, notes, position, success data and new-doctor fields cleared, and keeps the search |
| PunchVisit.CloseResets | frontend/src/components/mr/PunchVisitModal.tsx:79-88 | closing is the initial state up to the search and in-flight flags, and closing twice is closing once |
| PunchVisit.FilteredDoctors | frontend/src/components/mr/PunchVisitModal.tsx:167-174 | a doctor is kept exactly when the name or the specialization contains the query, ignoring case; a kept doctor appears as often as in the list |
| PunchVisit.FilteredDoctorsKeepsOrder | frontend/src/components/mr/PunchVisitModal.tsx:167-174 | searching a list is searching its parts in turn, and one doctor is kept exactly when it matches, so the matches stay in list order |
| PunchVisit.EmptySearchKeepsAll | frontend/src/components/mr/PunchVisitModal.tsx:167-174 | an empty search lists every doctor, in order |
| PunchVisit.SearchIgnoresCase | frontend/src/components/mr/PunchVisitModal.tsx:170-171 | a query and its lower-case form select the same doctors |
| AssignTask.TaskBody | frontend/src/components/admin/AssignTaskModal.tsx:76-82 | the task body has the four required keys, and notes exactly when non-empty |
| AssignTask.AssignedId | frontend/src/components/admin/AssignTaskModal.tsx:83-95 | the handed id is the server's id unless it is missing or null, else a timestamped fallback |
| AssignTask.Submit | frontend/src/components/admin/AssignTaskModal.tsx:64-116 | nothing is sent unless MR, doctor, date and time are chosen; success hands a pending task to the caller and failure raises the error toast |
| AssignTask.Reset | frontend/src/components/admin/AssignTaskModal.tsx:118-124 | the five fields are cleared and the flags untouched |
| AssignTask.ResetFormIsRefused | frontend/src/components/admin/AssignTaskModal.tsx:65-72 | a reset form sends nothing |
| AssignTask.Dismiss | frontend/src/components/admin/AssignTaskModal.tsx:126-129 | dismissing hides the success view and resets the form |
| AssignTask.Prefill | frontend/src/components/admin/AssignTaskModal.tsx:131-140 | while open, a truthy default fills a field only if it is still empty |
| AssignTask.PrefillKeepsChoices | frontend/src/components/admin/AssignTaskModal.tsx:131-140 | a chosen field is never overwritten by a default |
| AssignTask.PrefilledMRIsSent | frontend/src/components/admin/AssignTaskModal.tsx:131-140 | opened with an MR as the default, the form sends the task to that MR |
| AddDoctorDialog.Submit | frontend/src/components/admin/AddDoctorModal.tsx:35-57 | nothing is sent unless both fields are non-empty after JavaScript's trim; the body is trimmed; success shows the confirmation and failure raises the error toast |
| AddDoctorDialog.Reset | frontend/src/components/admin/AddDoctorModal.tsx:23-28 | reset clears both fields and both flags |
| AddDoctorDialog.ResetThenSubmitSendsNothing | frontend/src/components/admin/AddDoctorModal.tsx:23-43 | after a reset the next save sends nothing |
| AddDoctorDialog.SentDoctorIsAccepted | frontend/src/components/admin/AddDoctorModal.tsx:36-47 | what the dialog sends within the length limit, free of null characters, and which Python's strip leaves as it is, is accepted by the server with the names as trimmed |
| AddDoctorDialog.PlainNamesAreAccepted | frontend/src/components/admin/AddDoctorModal.tsx:36-47 | names without the separators only Python counts as white space, and without null characters, are always accepted as trimmed |
| AddDoctorDialog.NullCharacterNameIsSentAndRefused | frontend/src/components/admin/AddDoctorModal.tsx:36-47 | JavaScript's trim keeps a null character, so the dialog sends such a name, and the server refuses it with 400 and the null-character message for the name |
| AddDoctorDialog.NextLineNameIsSentAndRefused | frontend/src/components/admin/AddDoctorModal.tsx:36-47 | a name of U+0085 alone passes the dialog's trim and the server refuses it as blank |
| AddDoctorDialog.BlankNameFromPunchDialogIsRefused | frontend/src/components/mr/PunchVisitModal.tsx:132 | the punch dialog sends a name blank to Python, the server refuses it with 400, and this dialog would not send it when it is blank to JavaScript too |
| AddDoctorDialog.ByteOrderMarkNameIsStored | frontend/src/components/mr/PunchVisitModal.tsx:132 | a name of U+FEFF alone passes the punch dialog and is stored by the server, while this dialog refuses it |
| MRHome.Redirect | frontend/src/pages/mr/MRDashboard.tsx:40-46 | no stored user goes to login, a non-MR to the admin dashboard, and exactly an MR stays |
| MRHome.Greeting | frontend/src/pages/mr/MRDashboard.tsx:123-128 | morning exactly before 12, afternoon from 12 to before 17, evening from 17 on |
| MRHome.GreetingMovesForward | frontend/src/pages/mr/MRDashboard.tsx:123-128 | through the day the greeting only moves forward |
| MRHome.DoctorMap | frontend/src/pages/mr/MRDashboard.tsx:63-69 | each mapped id holds a listed doctor with that id |
| MRHome.DoctorMapLastWins | frontend/src/pages/mr/MRDashboard.tsx:63-69 | every listed id is mapped, and where ids repeat a later entry wins |
| MRHome.MRTaskViewOf | frontend/src/pages/mr/MRDashboard.tsx:73-81 | a task view shows the mapped doctor's name and specialization or their fallbacks, and its status by the flag |
| MRHome.AssignedTasks | frontend/src/pages/mr/MRDashboard.tsx:71-83 | one view per fetched task, in order; none before the tasks arrive |
| MRHome.ListedDoctorIsNamed | frontend/src/pages/mr/MRDashboard.tsx:63-83 | a task whose doctor is listed shows a name listed for that id |
| MRHome.TodaysVisits | frontend/src/pages/mr/MRDashboard.tsx:85-94 | one completed line per visit received, numbered from 1 |
| MRHome.TodaysVisitsCountTheDay | frontend/src/pages/mr/MRDashboard.tsx:85-94 | the page lists one line per doctor visit the MR logged today |
| MRHome.ShopLines | frontend/src/pages/mr/MRDashboard.tsx:96-107 | shop lines are numbered from 0, a missing location shows "NA", and each has today's date |
| MRHome.CompleteCallFor | frontend/src/pages/mr/MRDashboard.tsx:130-156 | completion is sent with the position when the device gives one, and otherwise with an empty body |
| MRHome.CompletionTargetsTheTask | frontend/src/pages/mr/MRDashboard.tsx:154-156 | completing a listed task targets that task's path |
| MRHome.Invalidated | frontend/src/pages/mr/MRDashboard.tsx:148-151 | both lists are refetched after a success and none after a failure |
| LoginPage.HomeRoute | frontend/src/pages/Login.tsx:22-29 | each role has its own dashboard route |
| LoginPage.MountRedirect | frontend/src/pages/Login.tsx:22-29 | a stored user goes to their role's dashboard; without one the page stays |
| LoginPage.RedirectsAgree | frontend/src/pages/Login.tsx:22-29 | the sign-in page and the MR's home send each stored user to the same page, so neither bounces a user back |
| LoginPage.SignIn | frontend/src/pages/Login.tsx:31-91 | nothing is sent without both credentials; success stores the session and navigates home; failure keeps storage and raises the toast |
| LoginPage.SignedInMRStaysHome | frontend/src/pages/Login.tsx:31-60 | an MR the server signs in lands on the MR's home, which keeps them there |
| LoginPage.BlankCredentialsFailAtServer | frontend/src/pages/Login.tsx:33 | credentials blank to Python pass the page's check and are refused by the server with only the status shown |

## Left out

- JSON text is not modelled as a byte format. `JSON.stringify`/`JSON.parse` of the stored tokens and user are replaced by a length-prefixed field codec (`Codec`), for which the round trip is proved. Response bodies are values of a small JSON datatype whose numbers are integers.
- Floating point is out. GPS coordinates are integers, so "truthy" means "present and non-zero". `coverage_rate`, the zone `intensity` and the zone coordinates are not modelled.
- Dashboard.SummaryOf: states nothing about `coverage_rate`, because that figure is a float formatted with `:.0f`.
- Percent-encoding of query values is out; the dates go into the query string as given. `toLowerCase` is ASCII-only, and `localeCompare` is code-unit order.
- Records.NumberOf: reads only blank strings and decimal digit runs. Signs, decimal points, hexadecimal and exponents all count as NaN, although JavaScript's `Number` accepts some of them. The ids the pages convert are always decimal digits.
- Timers, React Query caching and retries, toasts as UI, the Leaflet and recharts drawing, and the layout are out. Toasts are records; the map is the list of markers and the line handed to it.
- The remaining client calls are single `apiFetch` calls with a fixed path, so their behaviour is `Gateway.ApiFetch`'s: `fetchMRDashboard`, `fetchAdminDashboard`, `fetchDoctors`, `fetchMRs`, `fetchDoctorVisits`, `fetchShopVisits`, `createDoctor`, `createDoctorVisit`, `createShopVisit`, `fetchTasks` and `createTask`. Their bodies are modelled where the dialogs build them. The server's admin MR-detail and analytics views are not part of this model; their responses are inputs.
- `AssignedVisitViewSet` is out. The visit views import `AssignedVisit`, which the visit models file has commented out, so as written that module does not load at all. The doctor, doctor-visit and shop-visit views are modelled as though the import succeeded.
- The `...rest` of the `apiFetch` options, which can override the method or headers, is out; callers never pass it.
- Malformed login bodies are reduced to missing, blank or too-long fields. DRF's "Incorrect type" messages are out.
- Catalogue.Login: a successful response whose body does not decode to the token pair and a user is a failure with a fixed message. The client as written stores whatever members are present, or throws a `TypeError` on a null body. The server's login body always decodes (`Wire.LoginJsonDecodes`), so this difference is only reachable with another server.
- Token signing and expiry are abstracted as the set of issued tokens; password hashing is equality.
- Primary keys are one past the greatest key. Reuse of deleted keys and deletion cascades are out.
- The permissions of `UserViewSet` and `LogoutView` come from project settings, which are not part of this model. `UserQueryset` models only the queryset.
- Dashboard.UsernameOf: returns "" when the referenced row is missing, where Django would raise. This is reachable only in a database whose foreign keys do not resolve.
- Dashboard.DoctorNameOf: returns "" when the referenced doctor is missing, where Django would raise, for the same reason.
- Dashboard.Busiest: does not fix which name wins a tie for the top doctor. The database's tie order is unspecified, so the model promises only a name with the largest count. Equal sort keys in the other orderings are likewise left in unspecified order.
- Dashboard.RecentDoctorVisits: the `gps_lat`/`gps_long` members the recent-visit serializer declares are absent from the view's rows and are not modelled.
- Query data not yet fetched is an empty list, or `None` where the page distinguishes the two.
- A stored user that does not parse throws on the sign-in page and on the MR's home. The pages receive the stored user as an `Option`, so that throw is out.
- PunchVisit.CreatedId: `String(...)` on the created id is modelled through `Json.Show` for the JSON kinds the server can send. Other values are out.
- The shop-visit dialog, the visit map modal, the recent-visits table and the admin dashboard page are not part of this model.

## Findings

| source | as written | input that shows it | evidently intended | confidence | as-written member | corrected member |
|---|---|---|---|---|---|---|
| backend/mr_tracker/mr_tracker/tasks/api/views.py:50-58 | `complete` creates the doctor visit with `visit_type='task'`, but the `DoctorVisit` model has no such field, so `objects.create` raises and the request ends in a 500 | the assigned MR posting to `/api/tasks/doctor-tasks/1/complete/` for their open task 1 | record a completed visit at the task's doctor, link it to the task and mark the task completed | not executed | Tasks.CompleteAsWritten (counterexample Tasks.CompleteAsWrittenExample) | Tasks.Complete (with Tasks.CompletePreservesValid) |
| backend/mr_tracker/mr_tracker/dashboard/api/views.py:161-166 | the admin dashboard's tracking lines carry no `mr_id`; the tracking page keeps only lines whose `mr_id` is not null (frontend/src/pages/admin/MRTracking.tsx:106), so its table is always empty | any database with at least one MR user | each line carries the MR's id, which the tracking serializer declares, so every MR is listed | not executed | Dashboard.MRTrackingAsWritten and Dashboard.AdminDashboardAsWritten (with Tracking.AsWrittenTrackingShowsNoMRs and Dashboard.AdminDashboardAsWrittenDiffers) | Dashboard.MRTracking and Dashboard.AdminDashboard (with Tracking.CorrectedTrackingShowsEveryMR) |

=== FILE: add_doctor.dfy ===
/**
 * The admin's add-doctor dialog (frontend/src/components/admin/AddDoctorModal.tsx):
 * a trimmed presence check, a trimmed body, the success view and the
 * reset; and how its check and the punch dialog's untrimmed one compare
 * with the server's own validation of a new doctor.
 */
module AddDoctorDialog {
  import opened Wrappers
  import opened Text
  import opened Json
  import opened Models
  import opened Visits
  import opened Forms
  import PunchVisit

  /** The dialog's state variables. */
  datatype Dialog = Dialog(name: string, specialty: string, submitting: bool, showSuccess: bool)

  const Cleared: Dialog := Dialog("", "", false, false)

  /** The guard: both fields hold something other than (JavaScript's) white space. */
  predicate Ready(d: Dialog) {
    JsTrim(d.name) != "" && JsTrim(d.specialty) != ""
  }

  /** What one press of the save button does. */
  datatype SubmitStep = SubmitStep(dialog: Dialog, request: Option<Json>, toast: Option<Toast>, created: bool)

  const MissingFieldsToast: Toast := Toast("Missing fields", "Please enter doctor name and specialization.")

  /** `handleSubmit`, given the request's outcome. */
  function Submit(d: Dialog, outcome: Result<Json, string>): (s: SubmitStep)
    ensures !Ready(d) ==> s == SubmitStep(d, None, Some(MissingFieldsToast), false)
    ensures Ready(d) ==> s.request == Some(DoctorBody(JsTrim(d.name), JsTrim(d.specialty))) && !s.dialog.submitting
    ensures Ready(d) ==> s.dialog.name == d.name && s.dialog.specialty == d.specialty
    ensures Ready(d) && outcome.Success? ==> s.created && s.dialog.showSuccess && s.toast.None?
    ensures Ready(d) && outcome.Failure? ==>
              !s.created && s.dialog.showSuccess == d.showSuccess && s.toast == Some(Toast("Error", outcome.error))
    ensures s.created <==> Ready(d) && outcome.Success?
  {
    if !Ready(d) then SubmitStep(d, None, Some(MissingFieldsToast), false)
    else
      var body := DoctorBody(JsTrim(d.name), JsTrim(d.specialty));
      match outcome
      case Success(_) => SubmitStep(d.(showSuccess := true, submitting := false), Some(body), None, true)
      case Failure(message) => SubmitStep(d.(submitting := false), Some(body), Some(Toast("Error", message)), false)
  }

  /** `reset`, also run by closing and by the success view's timer. */
  function Reset(d: Dialog): (r: Dialog)
    ensures r.name == "" && r.specialty == "" && !r.submitting && !r.showSuccess
  {
    Cleared
  }

  /** After a reset the next save is refused before anything is sent. */
  lemma ResetThenSubmitSendsNothing(d: Dialog, outcome: Result<Json, string>)
    ensures Submit(Reset(d), outcome).request.None? && !Submit(Reset(d), outcome).created
  {
    assert JsTrim("") == "";
  }

  /** The doctor the server receives from a body. */
  function InputOf(body: Json): DoctorInput
    requires body.JObj? && "name" in body.fields && "specialization" in body.fields
    requires body.fields["name"].JStr? && body.fields["specialization"].JStr?
  {
    DoctorInput(Some(body.fields["name"].s), Some(body.fields["specialization"].s), None)
  }

  /** The server reads back exactly the two names a doctor body carries. */
  lemma BodyReadsBack(name: string, specialty: string)
    ensures InputOf(DoctorBody(name, specialty)) == DoctorInput(Some(name), Some(specialty), None)
  {
  }

  /**
   * Whatever this dialog sends with fields of a storable length, a signed-in
   * requester gets the doctor created with the names as typed, less the
   * surrounding white space, provided the server's strip finds nothing
   * more to remove at the ends of what JavaScript trimmed and the names
   * hold no null character.
   */
  lemma SentDoctorIsAccepted(db: Db, req: Requester, d: Dialog, outcome: Result<Json, string>)
    requires req.Authed? && Ready(d)
    requires PyStrip(JsTrim(d.name)) == JsTrim(d.name) && PyStrip(JsTrim(d.specialty)) == JsTrim(d.specialty)
    requires |JsTrim(d.name)| <= MaxTextLength && |JsTrim(d.specialty)| <= MaxTextLength
    requires '\0' !in d.name && '\0' !in d.specialty
    ensures var body := Submit(d, outcome).request.value;
            var r := CreateDoctor(db, req, InputOf(body));
            r.Ok? && r.value.1.name == JsTrim(d.name) && r.value.1.specialization == JsTrim(d.specialty)
  {
    var name, specialty := JsTrim(d.name), JsTrim(d.specialty);
    if '\0' in name {
      TrimKeepsOnlyInput(JavaScript, d.name, '\0');
    }
    if '\0' in specialty {
      TrimKeepsOnlyInput(JavaScript, d.specialty, '\0');
    }
    assert Submit(d, outcome).request == Some(DoctorBody(name, specialty));
    BodyReadsBack(name, specialty);
    StrippedDoctorIsCreated(db, req, name, specialty);
  }

  /**
   * A name holding a null character passes this dialog's trim, which keeps
   * it, and the server refuses the doctor with the null-character message
   * for the name.
   */
  lemma NullCharacterNameIsSentAndRefused(db: Db, req: Requester, d: Dialog, outcome: Result<Json, string>)
    requires req.Authed? && Ready(d)
    requires '\0' in d.name
    ensures Submit(d, outcome).request.Some?
    ensures var errs := DoctorFieldErrors(InputOf(Submit(d, outcome).request.value));
            && CreateDoctor(db, req, InputOf(Submit(d, outcome).request.value)) == Refused(400, FieldErrors(errs))
            && ("name", NullCharacters) in errs
  {
    var name, specialty := JsTrim(d.name), JsTrim(d.specialty);
    TrimKeepsNonSpace(JavaScript, d.name, '\0');
    assert Submit(d, outcome).request == Some(DoctorBody(name, specialty));
    BodyReadsBack(name, specialty);
    NullCharacterNameIsRefused(db, req, name, Some(specialty));
  }

  /** Names free of null characters and of the separators only Python counts as white space always meet the conditions above. */
  lemma PlainNamesAreAccepted(db: Db, req: Requester, d: Dialog, outcome: Result<Json, string>)
    requires req.Authed? && Ready(d)
    requires forall i :: 0 <= i < |d.name| ==> !PyOnlySpace(d.name[i])
    requires forall i :: 0 <= i < |d.specialty| ==> !PyOnlySpace(d.specialty[i])
    requires |JsTrim(d.name)| <= MaxTextLength && |JsTrim(d.specialty)| <= MaxTextLength
    requires '\0' !in d.name && '\0' !in d.specialty
    ensures var r := CreateDoctor(db, req, InputOf(Submit(d, outcome).request.value));
            r.Ok? && r.value.1.name == JsTrim(d.name) && r.value.1.specialization == JsTrim(d.specialty)
  {
    StripAfterTrim(d.name);
    StripAfterTrim(d.specialty);
    SentDoctorIsAccepted(db, req, d, outcome);
  }

  /**
   * A name of the next-line character U+0085 alone passes this dialog's
   * trim, which does not count it as white space, and the server strips
   * it to nothing and refuses the doctor.
   */
  lemma NextLineNameIsSentAndRefused(db: Db, req: Requester, specialty: string, outcome: Result<Json, string>)
    requires req.Authed?
    requires JsTrim(specialty) != "" && PyStrip(JsTrim(specialty)) != ""
    ensures var d := Dialog("\U{0085}", specialty, false, false);
            && Submit(d, outcome).request == Some(DoctorBody("\U{0085}", JsTrim(specialty)))
            && CreateDoctor(db, req, InputOf(Submit(d, outcome).request.value)) ==
               Refused(400, FieldErrors(DoctorFieldErrors(InputOf(DoctorBody("\U{0085}", JsTrim(specialty))))))
  {
    NextLineSeparates();
    var d := Dialog("\U{0085}", specialty, false, false);
    var body := DoctorBody("\U{0085}", JsTrim(specialty));
    assert Submit(d, outcome).request == Some(body);
    assert InputOf(body).name == Some("\U{0085}");
    assert DoctorFieldErrors(InputOf(body)) != [];
  }

  /**
   * The punch dialog checks presence without trimming: a name of white
   * space only is sent, and the server refuses it; this dialog, trimming
   * the other language's way, refuses it too unless the name is the
   * byte-order mark, which only JavaScript counts as white space.
   */
  lemma BlankNameFromPunchDialogIsRefused(db: Db, req: Requester, m: PunchVisit.Modal,
                                          outcome: Result<Json, string>)
    requires req.Authed?
    requires m.newName != "" && PyStrip(m.newName) == "" && m.newSpecialty != ""
    ensures PunchVisit.AddDoctor(m, outcome).request == Some(DoctorBody(m.newName, m.newSpecialty))
    ensures CreateDoctor(db, req, InputOf(DoctorBody(m.newName, m.newSpecialty))).Refused?
    ensures CreateDoctor(db, req, InputOf(DoctorBody(m.newName, m.newSpecialty))).status == 400
    ensures JsTrim(m.newName) == "" ==> Submit(Dialog(m.newName, m.newSpecialty, false, false), outcome).request.None?
  {
  }

  /**
   * A name of the byte-order mark U+FEFF alone passes the punch dialog and
   * the server, which keeps the character, so a doctor named by it is
   * stored; this dialog refuses the same name.
   */
  lemma ByteOrderMarkNameIsStored(db: Db, req: Requester, m: PunchVisit.Modal, outcome: Result<Json, string>)
    requires req.Authed?
    requires m.newName == "\U{FEFF}"
    requires PyStrip(m.newSpecialty) != "" && |PyStrip(m.newSpecialty)| <= MaxTextLength
    requires '\0' !in PyStrip(m.newSpecialty)
    ensures PunchVisit.AddDoctor(m, outcome).request == Some(DoctorBody(m.newName, m.newSpecialty))
    ensures var r := CreateDoctor(db, req, InputOf(DoctorBody(m.newName, m.newSpecialty)));
            r.Ok? && r.value.1.name == "\U{FEFF}"
    ensures Submit(Dialog(m.newName, m.newSpecialty, false, false), outcome).request.None?
  {
    ByteOrderMarkSeparates();
    var input := InputOf(DoctorBody(m.newName, m.newSpecialty));
    assert input.name == Some("\U{FEFF}");
    assert '\0' !in "\U{FEFF}";
    assert DoctorFieldErrors(input) == [];
  }
}

=== FILE: analytics.dfy ===
/**
 * The admin analytics page (frontend/src/pages/admin/Analytics.tsx): the
 * daily-trend chart, the top-MR bars and the six synthetic territory zones
 * over which the period's visit total is spread with integer arithmetic.
 * Date labels are a parameter; the zones' coordinates and intensities are
 * left out.
 */
module Analytics {
  import opened Text
  import opened Seqs
  import opened Catalogue

  /** The period the page selects before the user picks one. */
  const InitialPeriod: Period := Week

  /** The page's first request asks for a week, not the request helper's own default of a day. */
  lemma FirstRequestIsWeekly()
    ensures AnalyticsPath(InitialPeriod) == AnalyticsPrefix + "week"
    ensures AnalyticsPath(InitialPeriod) != AnalyticsPath(DefaultPeriod)
  {
    AnalyticsPathInjective(InitialPeriod, DefaultPeriod);
  }

  /** One entry of `daily_trends`. */
  datatype DailyTrend = DailyTrend(date: string, doctorVisits: int, shopVisits: int, total: int)

  /** A point of the area chart. */
  datatype ChartPoint = ChartPoint(name: string, doctorVisits: int, shopVisits: int, total: int)

  /** `chartData`: one point per trend, labelled by the date, counts carried over. */
  function ChartData(trends: seq<DailyTrend>, dateLabel: string -> string): (r: seq<ChartPoint>)
    ensures |r| == |trends|
    ensures forall i :: 0 <= i < |r| ==>
              && r[i].name == dateLabel(trends[i].date)
              && r[i].doctorVisits == trends[i].doctorVisits
              && r[i].shopVisits == trends[i].shopVisits
              && r[i].total == trends[i].total
  {
    Map(trends, (t: DailyTrend) => ChartPoint(dateLabel(t.date), t.doctorVisits, t.shopVisits, t.total))
  }

  /** One entry of `mr_performance`. */
  datatype MRPerformance = MRPerformance(mrName: string, totalVisits: int)

  /** A bar of the productivity chart. */
  datatype ProductivityBar = ProductivityBar(name: string, visits: int)

  const TopCount: nat := 6

  function BarOf(m: MRPerformance): ProductivityBar { ProductivityBar(m.mrName, m.totalVisits) }

  /** `topMRs`: the first six entries as received, in order. */
  function TopMRs(performance: seq<MRPerformance>): (r: seq<ProductivityBar>)
    ensures |r| == if |performance| < TopCount then |performance| else TopCount
    ensures forall i :: 0 <= i < |r| ==>
              r[i].name == performance[i].mrName && r[i].visits == performance[i].totalVisits
  {
    Map(Take(performance, TopCount), BarOf)
  }

  /** Entries after the sixth never reach the chart. */
  lemma TopMRsIgnoreTail(head: seq<MRPerformance>, tail: seq<MRPerformance>)
    requires |head| >= TopCount
    ensures TopMRs(head + tail) == TopMRs(head)
  {
    assert Take(head + tail, TopCount) == Take(head, TopCount);
  }

  const ZoneNames: seq<string> := ["Zone A", "Zone B", "Zone C", "Zone D", "Zone E", "Zone F"]

  /** The number of zones the total is spread over. */
  const Zones: nat := 6

  /**
   * `k` zones, each given `q` visits, the first `r` of them one more: the
   * shape of an even integer split.
   */
  function Split(q: nat, r: nat, k: nat): (s: seq<nat>)
    ensures |s| == k
    ensures forall i :: 0 <= i < k ==> s[i] == q + (if i < r then 1 else 0)
  {
    seq(k, i requires 0 <= i < k => q + (if i < r then 1 else 0))
  }

  function Sum(s: seq<nat>): nat {
    if |s| == 0 then 0 else Sum(s[..|s| - 1]) + s[|s| - 1]
  }

  function Min(a: nat, b: nat): nat { if a <= b then a else b }

  /** The split adds up to `k * q` plus the number of zones that got the extra visit. */
  lemma {:induction false} SplitSum(q: nat, r: nat, k: nat)
    ensures Sum(Split(q, r, k)) == k * q + Min(k, r)
  {
    if k > 0 {
      var s := Split(q, r, k);
      assert s[..k - 1] == Split(q, r, k - 1);
      SplitSum(q, r, k - 1);
      assert (k - 1) * q + q == k * q;
    }
  }

  /** `visitsPerZone` for zone `idx`. */
  function ZoneShare(total: nat, idx: nat): nat {
    total / Zones + (if idx < total % Zones then 1 else 0)
  }

  /** The six zone shares before the display floor. */
  function ZoneShares(total: nat): (s: seq<nat>)
    ensures |s| == Zones
    ensures s == Split(total / Zones, total % Zones, Zones)
    ensures forall i :: 0 <= i < Zones ==> s[i] == ZoneShare(total, i)
  {
    seq(Zones, i requires 0 <= i < Zones => ZoneShare(total, i))
  }

  /** The shares account for every visit. */
  lemma ZoneSharesSumToTotal(total: nat)
    ensures Sum(ZoneShares(total)) == total
  {
    SplitSum(total / Zones, total % Zones, Zones);
  }

  /** The shares never grow with the zone index and differ by at most one. */
  lemma ZoneSharesBalanced(total: nat)
    ensures forall i, j :: 0 <= i <= j < Zones ==>
              ZoneShares(total)[j] <= ZoneShares(total)[i] <= ZoneShares(total)[j] + 1
  {
  }

  /** A zone as the heat map shows it. */
  datatype Territory = Territory(name: string, visits: nat)

  function MaxOne(n: nat): nat { if n < 1 then 1 else n }

  /** `zonesWithVisits`: each zone labelled and shown with at least one visit. */
  function Territories(total: nat): (r: seq<Territory>)
    ensures |r| == Zones
    ensures forall i :: 0 <= i < Zones ==> r[i].name == ZoneNames[i]
    ensures forall i :: 0 <= i < Zones ==> r[i].visits >= 1
    ensures forall i :: 0 <= i < Zones ==> ZoneShare(total, i) > 0 ==> r[i].visits == ZoneShare(total, i)
    ensures forall i :: 0 <= i < Zones ==> ZoneShare(total, i) == 0 ==> r[i].visits == 1
  {
    seq(Zones, i requires 0 <= i < Zones => Territory(ZoneNames[i], MaxOne(ZoneShare(total, i))))
  }

  function ShownVisits(t: Territory): nat { t.visits }

  /**
   * The zones show the true total once it reaches six; below that every
   * zone shows one visit, so the map claims six.
   */
  lemma ShownZonesSum(total: nat)
    ensures Sum(Map(Territories(total), ShownVisits)) == if total < Zones then Zones else total
  {
    var shown := Map(Territories(total), ShownVisits);
    if total < Zones {
      assert shown == Split(1, 0, Zones);
      SplitSum(1, 0, Zones);
    } else {
      assert shown == ZoneShares(total);
      ZoneSharesSumToTotal(total);
    }
  }
}

=== FILE: assign_task.dfy ===
/**
 * The admin's assign-task dialog (frontend/src/components/admin/AssignTaskModal.tsx):
 * the required-field guard, the `createTask` body, the record handed to
 * the caller, the reset and the prefill of default ids. The clock readings
 * and the request's outcome are parameters.
 */
module AssignTask {
  import opened Wrappers
  import opened Text
  import opened Json
  import opened Records
  import opened Forms

  /** The dialog's state variables. */
  datatype Form = Form(mr: string, doctor: string, date: string, time: string, notes: string,
                       submitting: bool, showSuccess: bool)

  const Blank: Form := Form("", "", "", "", "", false, false)

  /** The guard: MR, doctor, date and time must all be chosen. The time field is labelled optional but is not. */
  predicate Filled(f: Form) {
    f.mr != "" && f.doctor != "" && f.date != "" && f.time != ""
  }

  /** The `createTask` body. */
  function TaskBody(f: Form): (j: Json)
    ensures j.JObj?
    ensures j.fields.Keys <= {"assigned_to", "assigned_doctor", "due_date", "due_time", "notes"}
    ensures "assigned_to" in j.fields && "assigned_doctor" in j.fields && "due_date" in j.fields && "due_time" in j.fields
    ensures "notes" in j.fields <==> f.notes != ""
    ensures j.fields["assigned_to"] == IdJson(f.mr) && j.fields["assigned_doctor"] == IdJson(f.doctor)
    ensures j.fields["due_date"] == JStr(f.date) && j.fields["due_time"] == JStr(f.time)
    ensures f.notes != "" ==> j.fields["notes"] == JStr(f.notes)
  {
    var required := map["assigned_to" := IdJson(f.mr), "assigned_doctor" := IdJson(f.doctor),
                        "due_date" := JStr(f.date), "due_time" := JStr(f.time)];
    JObj(if f.notes != "" then required["notes" := JStr(f.notes)] else required)
  }

  /** The record `onTaskAssigned` receives. */
  datatype AssignedTask = AssignedTask(
    id: string, mrId: string, mrName: string, doctorName: string, doctorSpecialty: string,
    date: string, time: string, notes: Option<string>, status: string, createdAt: string)

  const FallbackIdPrefix: string := "task-"

  /** `String(created?.id ?? \`task-${Date.now()}\`)`: only a missing or null id falls back. */
  function AssignedId(created: Json, nowMillis: int): (s: string)
    ensures Field(created, "id").None? || Field(created, "id") == Some(JNull) ==>
              s == FallbackIdPrefix + IntToString(nowMillis)
    ensures Field(created, "id").Some? && Field(created, "id") != Some(JNull) ==>
              s == Show(Field(created, "id").value)
  {
    match Field(created, "id")
    case Some(id) => if id.JNull? then FallbackIdPrefix + IntToString(nowMillis) else Show(id)
    case None => FallbackIdPrefix + IntToString(nowMillis)
  }

  /** What one press of the assign button does. */
  datatype SubmitStep = SubmitStep(form: Form, request: Option<Json>, toast: Option<Toast>, handed: Option<AssignedTask>)

  const MissingFieldsToast: Toast := Toast("Missing fields", "Please select MR, doctor, date, and time.")

  /** `handleSubmit`, given the clock readings and the request's outcome. */
  function Submit(f: Form, nowMillis: int, nowIso: string, outcome: Result<Json, string>): (s: SubmitStep)
    ensures !Filled(f) ==> s == SubmitStep(f, None, Some(MissingFieldsToast), None)
    ensures Filled(f) ==> s.request == Some(TaskBody(f)) && !s.form.submitting
    ensures Filled(f) ==> s.form.(submitting := f.submitting, showSuccess := f.showSuccess) == f
    ensures Filled(f) && outcome.Success? ==>
              && s.toast.None? && s.form.showSuccess
              && s.handed == Some(AssignedTask(AssignedId(outcome.value, nowMillis), f.mr, "", "", "",
                                                 f.date, f.time, Optional(f.notes), PendingText, nowIso))
    ensures Filled(f) && outcome.Failure? ==>
              && s.handed.None? && s.form.showSuccess == f.showSuccess
              && s.toast == Some(Toast("Error", outcome.error))
    ensures s.handed.Some? <==> Filled(f) && outcome.Success?
  {
    if !Filled(f) then SubmitStep(f, None, Some(MissingFieldsToast), None)
    else
      match outcome
      case Success(created) =>
        var task := AssignedTask(AssignedId(created, nowMillis), f.mr, "", "", "", f.date, f.time,
                                 Optional(f.notes), PendingText, nowIso);
        SubmitStep(f.(showSuccess := true, submitting := false), Some(TaskBody(f)), None, Some(task))
      case Failure(message) =>
        SubmitStep(f.(submitting := false), Some(TaskBody(f)), Some(Toast("Error", message)), None)
  }

  /** `resetForm`: the five fields cleared, the flags untouched. */
  function Reset(f: Form): (r: Form)
    ensures r.mr == "" && r.doctor == "" && r.date == "" && r.time == "" && r.notes == ""
    ensures r.submitting == f.submitting && r.showSuccess == f.showSuccess
  {
    f.(mr := "", doctor := "", date := "", time := "", notes := "")
  }

  /** A reset form is refused on submit, and nothing is sent. */
  lemma ResetFormIsRefused(f: Form, nowMillis: int, nowIso: string, outcome: Result<Json, string>)
    ensures Submit(Reset(f), nowMillis, nowIso, outcome).request.None?
    ensures Submit(Reset(f), nowMillis, nowIso, outcome).handed.None?
  {
  }

  /** The success view's timer: hide it and reset the form. */
  function Dismiss(f: Form): (r: Form)
    ensures !r.showSuccess && r == Reset(f).(showSuccess := false)
  {
    Reset(f).(showSuccess := false)
  }

  /** The default-id effect: while open, a truthy default fills a field that is still empty. */
  function Prefill(f: Form, open: bool, defaultMR: Option<Json>, defaultDoctor: Option<Json>): (r: Form)
    ensures !open ==> r == f
    ensures r.date == f.date && r.time == f.time && r.notes == f.notes
    ensures r.mr == (if open && TruthyOpt(defaultMR) && f.mr == "" then Show(defaultMR.value) else f.mr)
    ensures r.doctor == (if open && TruthyOpt(defaultDoctor) && f.doctor == "" then Show(defaultDoctor.value) else f.doctor)
  {
    if !open then f
    else
      var withMR := if TruthyOpt(defaultMR) && f.mr == "" then f.(mr := Show(defaultMR.value)) else f;
      if TruthyOpt(defaultDoctor) && withMR.doctor == "" then withMR.(doctor := Show(defaultDoctor.value)) else withMR
  }

  /** A field already chosen is never overwritten by the default. */
  lemma PrefillKeepsChoices(f: Form, open: bool, defaultMR: Option<Json>, defaultDoctor: Option<Json>)
    requires f.mr != "" && f.doctor != ""
    ensures Prefill(f, open, defaultMR, defaultDoctor) == f
  {
  }

  /**
   * Opened from an MR's page with that MR's id as the default, the form
   * sends the task to that MR.
   */
  lemma PrefilledMRIsSent(f: Form, n: nat, nowMillis: int, nowIso: string, outcome: Result<Json, string>)
    requires f.mr == "" && n > 0
    requires f.doctor != "" && f.date != "" && f.time != ""
    ensures var g := Prefill(f, true, Some(JNum(n)), None);
            Submit(g, nowMillis, nowIso, outcome).request.value.fields["assigned_to"] == JNum(n)
  {
    var g := Prefill(f, true, Some(JNum(n)), None);
    assert g.mr == NatToString(n);
    IdJsonOfNatToString(n);
  }
}

=== FILE: catalogue.dfy ===
/**
 * The endpoint catalogue of the client (frontend/src/lib/api.ts): the
 * session transitions `login` and `logout`, and the paths and bodies of the
 * calls whose shape depends on their arguments.
 */
module Catalogue {
  import opened Wrappers
  import opened Text
  import opened Json
  import opened Roles
  import opened Session
  import opened Gateway

  const MRLoginPath: string := "/api/auth/mr-login/"
  const AdminLoginPath: string := "/api/auth/admin-login/"
  const LogoutPath: string := "/api/auth/logout/"
  const TasksPath: string := "/api/tasks/doctor-tasks/"
  const MRDetailPrefix: string := "/api/dashboard/admin/mr/"
  const AnalyticsPrefix: string := "/api/dashboard/admin/analytics/?period="

  /** Message raised when a successful login response lacks the token pair or the user. */
  const MalformedLogin: string := "login response is missing tokens or user"

  datatype Credentials = Credentials(username: string, password: string)

  function CredentialsJson(c: Credentials): Json {
    Object([("username", Some(JStr(c.username))), ("password", Some(JStr(c.password)))])
  }

  /** The login endpoint chosen by the role. */
  function LoginPath(role: Role): (p: string)
    ensures p == MRLoginPath <==> role == MR
    ensures p == AdminLoginPath <==> role == Admin
  {
    assert |MRLoginPath| != |AdminLoginPath|;
    match role
    case MR => MRLoginPath
    case Admin => AdminLoginPath
  }

  datatype LoginData = LoginData(tokens: AuthTokens, user: AuthUser)

  function StringField(j: Json, key: string): Option<string> {
    match Field(j, key)
    case Some(JStr(s)) => Some(s)
    case _ => None
  }

  /** The user record as the server serialises it. */
  function DecodeUserJson(j: Json): Option<AuthUser> {
    match (Field(j, "id"), StringField(j, "username"), Field(j, "email"), StringField(j, "name"), StringField(j, "role"))
    case (Some(JNum(id)), Some(username), Some(email), Some(name), Some(role)) =>
      var mail := if email.JStr? then Some(Some(email.s)) else if email.JNull? then Some(None) else None;
      if id < 0 || mail.None? || ParseRole(role).None? then None
      else Some(AuthUser(id, username, mail.value, name, ParseRole(role).value))
    case _ => None
  }

  function DecodeLoginData(j: Json): Option<LoginData> {
    match (StringField(j, "access"), StringField(j, "refresh"), Field(j, "user"))
    case (Some(access), Some(refresh), Some(u)) =>
      (match DecodeUserJson(u)
       case Some(user) => Some(LoginData(AuthTokens(access, refresh), user))
       case None => None)
    case _ => None
  }

  /** A session transition: the storage afterwards, the request sent (if any) and the caller's result. */
  datatype SessionStep<T> = SessionStep(storage: Storage, sent: Option<Request>, outcome: Result<T, string>)

  /**
   * `login`: posts the credentials, without a bearer credential, to the
   * endpoint of the role, and persists the tokens and the user only after
   * a successful response.
   */
  function Login(st: Storage, base: string, role: Role, creds: Credentials, delivery: Delivery)
    : (s: SessionStep<LoginData>)
    ensures s.sent.Some?
    ensures s.sent.value.url == JoinUrl(base, LoginPath(role)) && s.sent.value.verb == POST
    ensures s.sent.value.body == Some(JsonText(CredentialsJson(creds)))
    ensures AuthorizationHeader !in s.sent.value.headers
    ensures s.outcome.Failure? ==> s.storage == st
    ensures s.outcome.Success? ==>
              && GetStoredTokens(s.storage) == Success(Some(s.outcome.value.tokens))
              && GetStoredUser(s.storage) == Success(Some(s.outcome.value.user))
    ensures s.outcome.Success? <==>
              delivery.Delivered? && delivery.response.ok && DecodeLoginData(ResponseData(delivery.response)).Some?
  {
    var x := ApiFetch(st, base, LoginPath(role), POST, Some(Data(CredentialsJson(creds))), true, delivery);
    match x.outcome
    case Failure(e) => SessionStep(st, x.sent, Failure(e))
    case Success(data) =>
      match DecodeLoginData(data)
      case None => SessionStep(st, x.sent, Failure(MalformedLogin))
      case Some(d) => SessionStep(StoreAuth(st, d.tokens, d.user), x.sent, Success(d))
  }

  /** A failed login leaves the store exactly as it was. */
  lemma FailedLoginKeepsStorage(st: Storage, base: string, role: Role, creds: Credentials, delivery: Delivery)
    requires delivery.NetworkFailure? || !delivery.response.ok
    ensures Login(st, base, role, creds, delivery).storage == st
    ensures Login(st, base, role, creds, delivery).outcome.Failure?
  {
  }

  /**
   * `logout`: with no refresh token the store is cleared and nothing is
   * sent; otherwise the refresh token is posted and the store is cleared
   * whatever the outcome, which is still reported. A corrupt token record
   * raises before anything happens.
   */
  function Logout(st: Storage, base: string, delivery: Delivery): (s: SessionStep<()>)
    ensures GetStoredTokens(st).Failure? ==> s == SessionStep(st, None, Failure(CorruptSession))
    ensures GetStoredTokens(st).Success? ==> s.storage == ClearAuthStorage(st)
    ensures s.sent.Some? <==> GetStoredTokens(st).Success? && GetStoredTokens(st).value.Some?
                               && GetStoredTokens(st).value.value.refresh != ""
    ensures s.sent.Some? ==>
              && s.sent.value.url == JoinUrl(base, LogoutPath)
              && s.sent.value.body == Some(JsonText(JObj(map["refresh" := JStr(GetStoredTokens(st).value.value.refresh)])))
    ensures s.sent.Some? && delivery.NetworkFailure? ==> s.outcome == Failure(delivery.message)
    ensures s.sent.Some? && delivery.Delivered? ==> (s.outcome.Success? <==> delivery.response.ok)
    ensures s.sent.None? && GetStoredTokens(st).Success? ==> s.outcome == Success(())
  {
    match GetStoredTokens(st)
    case Failure(e) => SessionStep(st, None, Failure(e))
    case Success(tokens) =>
      if tokens.None? || tokens.value.refresh == "" then SessionStep(ClearAuthStorage(st), None, Success(()))
      else
        var body := Object([("refresh", Some(JStr(tokens.value.refresh)))]);
        var x := ApiFetch(st, base, LogoutPath, POST, Some(Data(body)), false, delivery);
        var outcome: Result<(), string> := if x.outcome.Success? then Success(()) else Failure(x.outcome.error);
        SessionStep(ClearAuthStorage(st), x.sent, outcome)
  }

  /** Unless the stored token record is corrupt, logging out always ends with no session stored. */
  lemma LogoutEndsSession(st: Storage, base: string, delivery: Delivery)
    requires GetStoredTokens(st).Success?
    ensures GetStoredTokens(Logout(st, base, delivery).storage) == Success(None)
    ensures GetStoredUser(Logout(st, base, delivery).storage) == Success(None)
  {
    ClearedHasNoSession(st);
  }

  /** Logging in and then out leaves no session, whatever either server answered. */
  lemma LoginThenLogoutEndsSession(st: Storage, base: string, role: Role, creds: Credentials, d1: Delivery, d2: Delivery)
    requires GetStoredTokens(st).Success?
    ensures var s := Login(st, base, role, creds, d1).storage;
            GetStoredTokens(Logout(s, base, d2).storage) == Success(None)
  {
    var s := Login(st, base, role, creds, d1).storage;
    assert GetStoredTokens(s).Success?;
    LogoutEndsSession(s, base, d2);
  }

  /** `completeTask`'s path for a task id. */
  const CompleteSuffix: string := "/complete/"

  /** The task's id, in decimal, between the collection and the action. */
  function CompleteTaskPath(taskId: int): (p: string)
    ensures StartsWith(p, TasksPath)
    ensures |p| == |TasksPath| + |IntToString(taskId)| + |CompleteSuffix|
    ensures p[|TasksPath|..|TasksPath| + |IntToString(taskId)|] == IntToString(taskId)
    ensures p[|p| - |CompleteSuffix|..] == CompleteSuffix
  {
    TasksPath + IntToString(taskId) + CompleteSuffix
  }

  /** Distinct tasks are completed through distinct paths. */
  lemma CompleteTaskPathInjective(a: nat, b: nat)
    ensures CompleteTaskPath(a) == CompleteTaskPath(b) <==> a == b
  {
    if CompleteTaskPath(a) == CompleteTaskPath(b) {
      var pa := NatToString(a);
      var pb := NatToString(b);
      assert |pa| == |pb|;
      NatToStringInjective(a, b);
    }
  }

  /** The query string of `fetchAdminMRDetail`: only the non-empty dates, start first, "?" only when one is present. */
  function MRDetailQuery(startDate: string, endDate: string): (q: string)
    ensures startDate == "" && endDate == "" ==> q == ""
    ensures startDate != "" && endDate == "" ==> q == "?start_date=" + startDate
    ensures startDate == "" && endDate != "" ==> q == "?end_date=" + endDate
    ensures startDate != "" && endDate != "" ==> q == "?start_date=" + startDate + "&end_date=" + endDate
  {
    var params := (if startDate != "" then ["start_date=" + startDate] else [])
                  + (if endDate != "" then ["end_date=" + endDate] else []);
    if |params| == 0 then ""
    else
      assert |params| == 2 ==> Join(params, "&") == params[0] + "&" + params[1];
      "?" + Join(params, "&")
  }

  function MRDetailPath(mrId: int, startDate: string, endDate: string): (p: string)
    ensures StartsWith(p, MRDetailPrefix + IntToString(mrId) + "/")
    ensures p[|MRDetailPrefix + IntToString(mrId) + "/"|..] == MRDetailQuery(startDate, endDate)
  {
    MRDetailPrefix + IntToString(mrId) + "/" + MRDetailQuery(startDate, endDate)
  }

  datatype Period = Day | Week | Month

  function PeriodName(p: Period): string {
    match p
    case Day => "day"
    case Week => "week"
    case Month => "month"
  }

  /** The period `fetchAdminAnalytics` uses when none is given. */
  const DefaultPeriod: Period := Day

  /** `fetchAdminAnalytics`'s path: exactly one `period` parameter. */
  function AnalyticsPath(p: Period): (path: string)
    ensures StartsWith(path, AnalyticsPrefix)
    ensures path[|AnalyticsPrefix|..] == PeriodName(p)
  {
    AnalyticsPrefix + PeriodName(p)
  }

  /** Distinct periods give distinct analytics paths. */
  lemma AnalyticsPathInjective(a: Period, b: Period)
    ensures AnalyticsPath(a) == AnalyticsPath(b) <==> a == b
  {
    if AnalyticsPath(a) == AnalyticsPath(b) {
      assert PeriodName(a) == AnalyticsPath(a)[|AnalyticsPrefix|..];
    }
  }

  /** A coordinate pair as read from the device. */
  datatype Coords = Coords(lat: int, lng: int)

  /** The `completeTask` body: coordinates and notes appear only when defined. */
  function CompleteTaskBody(gps: Option<Coords>, notes: Option<string>): (j: Json)
    ensures j.JObj?
    ensures ("gps_lat" in j.fields <==> gps.Some?) && ("gps_long" in j.fields <==> gps.Some?)
    ensures "notes" in j.fields <==> notes.Some?
    ensures gps.Some? ==> j.fields["gps_lat"] == JNum(gps.value.lat) && j.fields["gps_long"] == JNum(gps.value.lng)
    ensures notes.Some? ==> j.fields["notes"] == JStr(notes.value)
    ensures j.fields.Keys <= {"gps_lat", "gps_long", "notes"}
  {
    var lat := if gps.Some? then Some(JNum(gps.value.lat)) else None;
    var lng := if gps.Some? then Some(JNum(gps.value.lng)) else None;
    var n := if notes.Some? then Some(JStr(notes.value)) else None;
    var entries := [("gps_lat", lat), ("gps_long", lng), ("notes", n)];
    assert entries[0].0 == "gps_lat" && entries[1].0 == "gps_long" && entries[2].0 == "notes";
    Object(entries)
  }
}

=== FILE: clock.dfy ===
/**
 * The server's rendering of a time of day as `strftime("%I:%M %p")`:
 * two-digit hour on the 12-hour clock, two-digit minute, and AM or PM.
 * Seconds are dropped, so two times render alike exactly when they fall in
 * the same minute.
 */
module Clock {
  import opened Wrappers
  import opened Text
  import opened Models

  function Pad2(n: nat): (s: string)
    requires n < 100
    ensures |s| == 2 && AllDigits(s)
    ensures DigitValue(s[0]) * 10 + DigitValue(s[1]) == n
  {
    [DigitChar(n / 10), DigitChar(n % 10)]
  }

  /** The hour on the 12-hour clock: midnight and noon are 12. */
  function Hour12(h: nat): (r: nat)
    requires h < 24
    ensures 1 <= r <= 12
    ensures r % 12 == h % 12
  {
    if h % 12 == 0 then 12 else h % 12
  }

  /** Minutes since midnight of a time. */
  function MinuteOfDay(t: Time): nat {
    t / 60
  }

  /** `strftime("%I:%M %p")`. */
  function Clock12(t: Time): (s: string)
    ensures |s| == 8 && s[2] == ':' && s[5] == ' '
    ensures s[6..] == (if t < 43200 then "AM" else "PM")
  {
    var h := t / 3600;
    var m := (t % 3600) / 60;
    Pad2(Hour12(h)) + ":" + Pad2(m) + " " + (if h < 12 then "AM" else "PM")
  }

  /** Reads a 12-hour clock text back to minutes since midnight. */
  function ParseClock12(s: string): Option<nat> {
    if |s| != 8 || s[2] != ':' || s[5] != ' ' || !IsDigit(s[0]) || !IsDigit(s[1]) || !IsDigit(s[3]) || !IsDigit(s[4])
    then None
    else
      var hh := DigitValue(s[0]) * 10 + DigitValue(s[1]);
      var mm := DigitValue(s[3]) * 10 + DigitValue(s[4]);
      if hh < 1 || hh > 12 || mm > 59 || (s[6..] != "AM" && s[6..] != "PM") then None
      else Some((hh % 12 + (if s[6..] == "PM" then 12 else 0)) * 60 + mm)
  }

  /** Hours and minutes of a time, as the renderer splits it. */
  lemma SplitTime(t: Time)
    ensures t / 3600 < 24 && (t % 3600) / 60 < 60
    ensures MinuteOfDay(t) == (t / 3600) * 60 + (t % 3600) / 60
  {
    var h := t / 3600;
    var r := t % 3600;
    var m := r / 60;
    assert t == 3600 * h + r;
    assert r == 60 * m + r % 60;
    assert t == 60 * (60 * h + m) + r % 60;
  }

  /** Reading back a rendered time gives its minute of the day. */
  lemma ParseClock12OfClock12(t: Time)
    ensures ParseClock12(Clock12(t)) == Some(MinuteOfDay(t))
  {
    SplitTime(t);
    var h := t / 3600;
    var m := (t % 3600) / 60;
    var s := Clock12(t);
    var hp := Pad2(Hour12(h));
    var mp := Pad2(m);
    var half := if h < 12 then "AM" else "PM";
    assert s == hp + ":" + mp + " " + half;
    assert s[0] == hp[0] && s[1] == hp[1] && s[3] == mp[0] && s[4] == mp[1] && s[6..] == half;
    assert DigitValue(s[0]) * 10 + DigitValue(s[1]) == Hour12(h);
    assert DigitValue(s[3]) * 10 + DigitValue(s[4]) == m;
    assert Hour12(h) % 12 + (if half == "PM" then 12 else 0) == h;
  }

  /** Two times render alike exactly when they fall in the same minute. */
  lemma Clock12SameMinute(a: Time, b: Time)
    ensures Clock12(a) == Clock12(b) <==> MinuteOfDay(a) == MinuteOfDay(b)
  {
    ParseClock12OfClock12(a);
    ParseClock12OfClock12(b);
    SplitTime(a);
    SplitTime(b);
    if MinuteOfDay(a) == MinuteOfDay(b) {
      var ma := MinuteOfDay(a);
      assert a / 3600 == ma / 60 && (a % 3600) / 60 == ma % 60;
      assert b / 3600 == ma / 60 && (b % 3600) / 60 == ma % 60;
    }
  }
}

=== FILE: codec.dfy ===
/**
 * Text encoding of a list of strings, each written as its decimal length,
 * a colon and its characters. The session store keeps its two records in
 * this form; it stands in for `JSON.stringify`/`JSON.parse`, whose only
 * property the store relies on is that reading back what was written gives
 * the same record.
 */
module Codec {
  import opened Wrappers
  import opened Text

  function EncodeField(f: string): (r: string)
    ensures |r| > |f|
    ensures IsDigit(r[0])
  {
    NatToString(|f|) + ":" + f
  }

  function EncodeFields(fs: seq<string>): (r: string)
    ensures fs != [] ==> r != ""
    decreases |fs|
  {
    if fs == [] then "" else EncodeField(fs[0]) + EncodeFields(fs[1..])
  }

  /** Length of the run of decimal digits at the start of `s`. */
  function DigitPrefixLength(s: string): (k: nat)
    ensures k <= |s|
    ensures AllDigits(s[..k])
    ensures k < |s| ==> !IsDigit(s[k])
    decreases |s|
  {
    if |s| > 0 && IsDigit(s[0]) then
      var k := 1 + DigitPrefixLength(s[1..]);
      assert s[..k] == [s[0]] + s[1..][..k - 1];
      k
    else 0
  }

  /** Splits the first field off `s`; `None` when `s` does not start with a well-formed field. */
  function DecodeField(s: string): (r: Option<(string, string)>)
    ensures r.Some? ==> |r.value.1| < |s|
  {
    var k := DigitPrefixLength(s);
    if k == 0 || k >= |s| || s[k] != ':' then None
    else
      var n := DigitsValue(s[..k]);
      if k + 1 + n > |s| then None
      else Some((s[k + 1..k + 1 + n], s[k + 1 + n..]))
  }

  function DecodeFields(s: string): Option<seq<string>>
    decreases |s|
  {
    if s == "" then Some([])
    else
      match DecodeField(s)
      case None => None
      case Some((f, rest)) =>
        match DecodeFields(rest)
        case None => None
        case Some(fs) => Some([f] + fs)
  }

  lemma {:induction false} DigitPrefixOfDigits(d: string, r: string)
    requires AllDigits(d)
    requires |r| == 0 || !IsDigit(r[0])
    ensures DigitPrefixLength(d + r) == |d|
    decreases |d|
  {
    if |d| > 0 {
      assert (d + r)[1..] == d[1..] + r;
      DigitPrefixOfDigits(d[1..], r);
    }
  }

  lemma DecodeEncodeField(f: string, rest: string)
    ensures DecodeField(EncodeField(f) + rest) == Some((f, rest))
  {
    var d := NatToString(|f|);
    var s := EncodeField(f) + rest;
    assert s == d + (":" + f + rest);
    DigitPrefixOfDigits(d, ":" + f + rest);
    assert s[..|d|] == d;
    DigitsValueOfNatToString(|f|);
    assert s[|d| + 1..|d| + 1 + |f|] == f;
    assert s[|d| + 1 + |f|..] == rest;
  }

  /** Reading back an encoded list gives the list. */
  lemma {:induction false} DecodeEncodeFields(fs: seq<string>)
    ensures DecodeFields(EncodeFields(fs)) == Some(fs)
    decreases |fs|
  {
    if fs != [] {
      var rest := EncodeFields(fs[1..]);
      DecodeEncodeField(fs[0], rest);
      DecodeEncodeFields(fs[1..]);
      assert [fs[0]] + fs[1..] == fs;
    }
  }
}

=== FILE: dashboard.dfy ===
/**
 * The two dashboard endpoints (dashboard/api/views.py): the MR's view of
 * their own day and the admin's summary of everybody's, both computed
 * from the tables on request. The current date is a parameter.
 */
module Dashboard {
  import opened Wrappers
  import opened Roles
  import opened Seqs
  import opened Models
  import opened Clock
  import opened Visits

  /**
   * `IsAuthenticated` followed by `IsMR` or `IsAdmin`: nobody signed in is
   * a 401; a signed-in user of the other role gets the framework's 403.
   */
  function RoleGate(req: Requester, role: Role): (r: Reply<User>)
    ensures req.Anonymous? ==> r == Refused(401, Detail(NotAuthenticated))
    ensures req.Authed? && req.user.role != role ==> r == Refused(403, Detail(NotPermitted))
    ensures r.Ok? <==> req.Authed? && req.user.role == role
    ensures r.Ok? ==> r.value == req.user
  {
    match Authenticated(req)
    case Refused(s, b) => Refused(s, b)
    case Ok(u) => if u.role == role then Ok(u) else Refused(403, Detail(NotPermitted))
  }

  // Rows are read through total lookups: in a database whose references
  // resolve the fallback name is never used.

  function UsernameOf(db: Db, id: nat): (s: string)
    ensures HasUser(db, id) ==> s == UserOf(db, id).username
  {
    match Lookup(db.users, UserId, id)
    case Some(u) => u.username
    case None => ""
  }

  function DoctorNameOf(db: Db, id: nat): (s: string)
    ensures HasDoctor(db, id) ==> s == DoctorOf(db, id).name
  {
    match Lookup(db.doctors, DoctorId, id)
    case Some(d) => d.name
    case None => ""
  }

  /** Selections, as named predicates so that every mention denotes the same one. */
  function OnDay(day: Date): DoctorVisit -> bool { (v: DoctorVisit) => v.visitDate == day }
  function ShopOnDay(day: Date): ShopVisit -> bool { (v: ShopVisit) => v.visitDate == day }
  function ByOn(mr: nat, day: Date): DoctorVisit -> bool { (v: DoctorVisit) => v.mr == mr && v.visitDate == day }
  function ShopByOn(mr: nat, day: Date): ShopVisit -> bool { (v: ShopVisit) => v.mr == mr && v.visitDate == day }
  function AssignedTo(id: nat): Task -> bool { (t: Task) => t.assignedTo == id }

  function VisitTime(v: DoctorVisit): int { v.visitTime }
  function TimeKey(v: DoctorVisit): seq<int> { [v.visitTime] }
  function ShopTimeKey(v: ShopVisit): seq<int> { [v.visitTime] }
  function DueKey(t: Task): seq<int> { [t.dueDate] }

  const CompletedStatus: string := "completed"
  const PendingStatus: string := "pending"

  /** A task as both dashboards list it. */
  datatype TaskRow = TaskRow(mr: string, doctor: string, date: Date, time: Time, status: string, notes: string)

  function TaskRowOf(db: Db, t: Task): (row: TaskRow)
    ensures row.status == CompletedStatus <==> t.completed
    ensures row.status == PendingStatus <==> !t.completed
    ensures row.date == t.dueDate && row.time == t.dueTime && row.notes == t.notes
    ensures HasUser(db, t.assignedTo) ==> row.mr == UserOf(db, t.assignedTo).username
    ensures HasDoctor(db, t.assignedDoctor) ==> row.doctor == DoctorOf(db, t.assignedDoctor).name
  {
    TaskRow(UsernameOf(db, t.assignedTo), DoctorNameOf(db, t.assignedDoctor), t.dueDate, t.dueTime,
            if t.completed then CompletedStatus else PendingStatus, t.notes)
  }

  /** A doctor visit as the dashboards list it, its time on the 12-hour clock. */
  datatype VisitRow = VisitRow(mr: string, doctor: string, time: string, notes: string)

  function VisitRowOf(db: Db, v: DoctorVisit): (row: VisitRow)
    ensures ParseClock12(row.time) == Some(MinuteOfDay(v.visitTime))
    ensures row.notes == v.notes
    ensures HasUser(db, v.mr) ==> row.mr == UserOf(db, v.mr).username
    ensures HasDoctor(db, v.doctor) ==> row.doctor == DoctorOf(db, v.doctor).name
  {
    ParseClock12OfClock12(v.visitTime);
    VisitRow(UsernameOf(db, v.mr), DoctorNameOf(db, v.doctor), Clock12(v.visitTime), v.notes)
  }

  /** A shop visit on the MR dashboard. */
  datatype ShopRow = ShopRow(shopName: string, location: Option<string>, notes: string, time: string)

  function ShopRowOf(v: ShopVisit): (row: ShopRow)
    ensures row.shopName == v.shopName && row.location == v.location && row.notes == v.notes
    ensures ParseClock12(row.time) == Some(MinuteOfDay(v.visitTime))
  {
    ParseClock12OfClock12(v.visitTime);
    ShopRow(v.shopName, v.location, v.notes, Clock12(v.visitTime))
  }

  /** An MR's doctor visits of one day, latest first. */
  function DayDoctorVisits(db: Db, mr: nat, day: Date): (r: seq<DoctorVisit>)
    ensures forall v :: v in r <==> v in db.doctorVisits && v.mr == mr && v.visitDate == day
    ensures |r| == Count(db.doctorVisits, ByOn(mr, day))
    ensures forall v :: multiset(r)[v] == if ByOn(mr, day)(v) then multiset(db.doctorVisits)[v] else 0
    ensures forall i, j :: 0 <= i <= j < |r| ==> r[j].visitTime <= r[i].visitTime
  {
    var mine := Filter(db.doctorVisits, ByOn(mr, day));
    CountIsFilterLength(db.doctorVisits, ByOn(mr, day));
    FilterCount(db.doctorVisits, ByOn(mr, day));
    var r := SortDesc(mine, TimeKey);
    assert forall v :: v in r <==> v in multiset(mine);
    forall i, j | 0 <= i <= j < |r| ensures r[j].visitTime <= r[i].visitTime {
      SortedDescPairwise(r, TimeKey, i, j);
      LexLeSingle(r[j].visitTime, r[i].visitTime);
    }
    r
  }

  /** An MR's shop visits of one day, latest first. */
  function DayShopVisits(db: Db, mr: nat, day: Date): (r: seq<ShopVisit>)
    ensures forall v :: v in r <==> v in db.shopVisits && v.mr == mr && v.visitDate == day
    ensures |r| == Count(db.shopVisits, ShopByOn(mr, day))
    ensures forall v :: multiset(r)[v] == if ShopByOn(mr, day)(v) then multiset(db.shopVisits)[v] else 0
    ensures forall i, j :: 0 <= i <= j < |r| ==> r[j].visitTime <= r[i].visitTime
  {
    var mine := Filter(db.shopVisits, ShopByOn(mr, day));
    CountIsFilterLength(db.shopVisits, ShopByOn(mr, day));
    FilterCount(db.shopVisits, ShopByOn(mr, day));
    var r := SortDesc(mine, ShopTimeKey);
    assert forall v :: v in r <==> v in multiset(mine);
    forall i, j | 0 <= i <= j < |r| ensures r[j].visitTime <= r[i].visitTime {
      SortedDescPairwise(r, ShopTimeKey, i, j);
      LexLeSingle(r[j].visitTime, r[i].visitTime);
    }
    r
  }

  /** The tasks assigned to an MR, one row each, in table order. */
  function TasksOf(db: Db, mr: nat): (r: seq<TaskRow>)
    ensures |r| == Count(db.tasks, AssignedTo(mr)) == |Filter(db.tasks, AssignedTo(mr))|
    ensures forall i :: 0 <= i < |r| ==> r[i] == TaskRowOf(db, Filter(db.tasks, AssignedTo(mr))[i])
    ensures forall i :: 0 <= i < |r| ==> exists t :: t in db.tasks && t.assignedTo == mr && r[i] == TaskRowOf(db, t)
  {
    var mine := Filter(db.tasks, AssignedTo(mr));
    CountIsFilterLength(db.tasks, AssignedTo(mr));
    var r := Map(mine, (t: Task) => TaskRowOf(db, t));
    assert forall i :: 0 <= i < |r| ==> mine[i] in mine && r[i] == TaskRowOf(db, mine[i]);
    r
  }

  /** No task assigned to the MR is missing from their list. */
  lemma TasksOfCovers(db: Db, mr: nat, t: Task)
    requires t in db.tasks && t.assignedTo == mr
    ensures exists i :: 0 <= i < |TasksOf(db, mr)| && TasksOf(db, mr)[i] == TaskRowOf(db, t)
  {
    var mine := Filter(db.tasks, AssignedTo(mr));
    assert t in mine;
    var i :| 0 <= i < |mine| && mine[i] == t;
    assert TasksOf(db, mr)[i] == TaskRowOf(db, t);
  }

  /** An MR's doctor visits of one day as rows: one per visit, latest first. */
  function DayVisitRows(db: Db, mr: nat, day: Date): (r: seq<VisitRow>)
    ensures |r| == Count(db.doctorVisits, ByOn(mr, day)) == |DayDoctorVisits(db, mr, day)|
    ensures forall i :: 0 <= i < |r| ==> r[i] == VisitRowOf(db, DayDoctorVisits(db, mr, day)[i])
    ensures forall i, j :: 0 <= i <= j < |r| ==>
              ParseClock12(r[i].time).Some? && ParseClock12(r[j].time).Some?
              && ParseClock12(r[j].time).value <= ParseClock12(r[i].time).value
  {
    var visits := DayDoctorVisits(db, mr, day);
    var r := Map(visits, (v: DoctorVisit) => VisitRowOf(db, v));
    RowsKeepTimeOrder(db, visits, r);
    r
  }

  /** Rows of visits that run latest first show clock times that run latest first. */
  lemma RowsKeepTimeOrder(db: Db, visits: seq<DoctorVisit>, r: seq<VisitRow>)
    requires forall i, j :: 0 <= i <= j < |visits| ==> visits[j].visitTime <= visits[i].visitTime
    requires |r| == |visits| && forall i :: 0 <= i < |r| ==> r[i] == VisitRowOf(db, visits[i])
    ensures forall i, j :: 0 <= i <= j < |r| ==>
              ParseClock12(r[i].time).Some? && ParseClock12(r[j].time).Some?
              && ParseClock12(r[j].time).value <= ParseClock12(r[i].time).value
  {
    forall i, j | 0 <= i <= j < |r|
      ensures ParseClock12(r[j].time).value <= ParseClock12(r[i].time).value
    {
      DivisionMonotone(visits[j].visitTime, visits[i].visitTime);
    }
  }

  /** No doctor visit the MR logged that day is missing from the rows. */
  lemma DayVisitRowsCover(db: Db, mr: nat, day: Date, v: DoctorVisit)
    requires v in db.doctorVisits && v.mr == mr && v.visitDate == day
    ensures exists i :: 0 <= i < |DayVisitRows(db, mr, day)| && DayVisitRows(db, mr, day)[i] == VisitRowOf(db, v)
  {
    var visits := DayDoctorVisits(db, mr, day);
    assert v in visits;
    var i :| 0 <= i < |visits| && visits[i] == v;
    assert DayVisitRows(db, mr, day)[i] == VisitRowOf(db, v);
  }

  lemma DivisionMonotone(a: nat, b: nat)
    requires a <= b
    ensures a / 60 <= b / 60
  {
  }

  datatype MRDashboardData = MRDashboardData(
    todayVisits: nat,
    assignedTasks: seq<TaskRow>,
    todaysDoctorVisits: seq<VisitRow>,
    todaysShopVisits: seq<ShopRow>)

  /**
   * `MRDashboardView.get`: for a signed-in MR, the number of their visits
   * today (doctor and shop), their tasks, and today's visits latest first.
   */
  function MRDashboard(db: Db, req: Requester, today: Date): (r: Reply<MRDashboardData>)
    ensures r.Ok? <==> req.Authed? && req.user.role == MR
    ensures !r.Ok? ==> r == Refused(RoleGate(req, MR).status, RoleGate(req, MR).body)
    ensures r.Ok? ==>
              var d := r.value;
              && d.todayVisits == Count(db.doctorVisits, ByOn(req.user.id, today)) + Count(db.shopVisits, ShopByOn(req.user.id, today))
              && d.todayVisits == |d.todaysDoctorVisits| + |d.todaysShopVisits|
              && d.assignedTasks == TasksOf(db, req.user.id)
              && d.todaysDoctorVisits == DayVisitRows(db, req.user.id, today)
              && |d.todaysShopVisits| == |DayShopVisits(db, req.user.id, today)|
              && forall i :: 0 <= i < |d.todaysShopVisits| ==>
                   d.todaysShopVisits[i] == ShopRowOf(DayShopVisits(db, req.user.id, today)[i])
  {
    match RoleGate(req, MR)
    case Refused(s, b) => Refused(s, b)
    case Ok(u) =>
      var rows := DayVisitRows(db, u.id, today);
      var shopVisits := DayShopVisits(db, u.id, today);
      Ok(MRDashboardData(
        |rows| + |shopVisits|,
        TasksOf(db, u.id),
        rows,
        Map(shopVisits, ShopRowOf)))
  }

  /** Doctor and shop visits on a day, by anyone. */
  function VisitsOn(db: Db, day: Date): nat {
    Count(db.doctorVisits, OnDay(day)) + Count(db.shopVisits, ShopOnDay(day))
  }

  /** The visits of one day of the week-long chart. */
  datatype DayCount = DayCount(date: Date, count: nat)

  /** `last_7_days`: counted from today backwards, then reversed, so oldest first and ending today. */
  function DailyVisits(db: Db, today: Date): (r: seq<DayCount>)
    ensures |r| == 7
    ensures forall i :: 0 <= i < 7 ==> r[i].date == today - 6 + i && r[i].count == VisitsOn(db, r[i].date)
    ensures r[6].date == today
    ensures forall i, j :: 0 <= i < j < 7 ==> r[i].date < r[j].date
  {
    Reverse(seq(7, i requires 0 <= i < 7 => DayCount(today - i, VisitsOn(db, today - i))))
  }

  /** The names of the doctors visited on a day, one entry per visit. */
  function DoctorNamesOn(db: Db, day: Date): (names: seq<string>)
    ensures |names| == Count(db.doctorVisits, OnDay(day))
  {
    CountIsFilterLength(db.doctorVisits, OnDay(day));
    Map(Filter(db.doctorVisits, OnDay(day)), (v: DoctorVisit) => DoctorNameOf(db, v.doctor))
  }

  function Named(n: string): string -> bool { (x: string) => x == n }

  /** How many entries are `n`. */
  function Occurrences(names: seq<string>, n: string): nat {
    Count(names, Named(n))
  }

  function OccurrencesIn(names: seq<string>): string -> int {
    (n: string) => Occurrences(names, n)
  }

  /** The doctor of the summary card. */
  datatype TopDoctor = TopDoctor(name: string, visits: nat)

  /**
   * The busiest name: grouping by doctor name, counting and taking the
   * largest group. Doctors who share a name are one group.
   */
  function Busiest(names: seq<string>): (r: Option<TopDoctor>)
    ensures r.None? <==> |names| == 0
    ensures r.Some? ==> r.value.name in names && r.value.visits == Occurrences(names, r.value.name)
    ensures r.Some? ==> r.value.visits >= 1
    ensures r.Some? ==> forall i :: 0 <= i < |names| ==> Occurrences(names, names[i]) <= r.value.visits
  {
    if |names| == 0 then None
    else
      var b := ArgMax(names, OccurrencesIn(names));
      var k :| 0 <= k < |names| && names[k] == b;
      assert Named(b)(names[k]);
      Some(TopDoctor(b, Occurrences(names, b)))
  }

  datatype Summary = Summary(totalVisitsToday: nat, activeMrs: nat, topDoctorToday: Option<TopDoctor>)

  /** The summary card; the coverage rate is not modelled. */
  function SummaryOf(db: Db, today: Date): (s: Summary)
    ensures s.totalVisitsToday == VisitsOn(db, today)
    ensures s.activeMrs == Count(db.users, IsMRRow)
    ensures s.topDoctorToday.None? <==> Count(db.doctorVisits, OnDay(today)) == 0
    ensures s.topDoctorToday.Some? ==> s.topDoctorToday.value.visits <= Count(db.doctorVisits, OnDay(today))
    ensures s.topDoctorToday == Busiest(DoctorNamesOn(db, today))
    ensures s.topDoctorToday.Some? ==>
              && s.topDoctorToday.value.name in DoctorNamesOn(db, today)
              && forall n :: n in DoctorNamesOn(db, today) ==>
                   Occurrences(DoctorNamesOn(db, today), n) <= s.topDoctorToday.value.visits
  {
    var names := DoctorNamesOn(db, today);
    var top := Busiest(names);
    Summary(VisitsOn(db, today), Count(db.users, IsMRRow), top)
  }

  /** The ten newest doctor visits, by date then time. */
  function RecentDoctorVisits(db: Db): (r: seq<DoctorVisit>)
    ensures |r| == if |db.doctorVisits| < 10 then |db.doctorVisits| else 10
    ensures forall v :: v in r ==> v in db.doctorVisits
    ensures SortedDesc(r, DoctorVisitKey)
    ensures multiset(r) <= multiset(db.doctorVisits)
  {
    var sorted := SortDesc(db.doctorVisits, DoctorVisitKey);
    var r := Take(sorted, 10);
    assert sorted == r + sorted[|r|..];
    assert forall v :: v in r ==> v in sorted && v in multiset(sorted);
    r
  }

  /** No visit left out of the recent list is newer than one in it. */
  lemma RecentAreNewest(db: Db, v: DoctorVisit, i: nat)
    requires v in db.doctorVisits && v !in RecentDoctorVisits(db)
    requires i < |RecentDoctorVisits(db)|
    ensures LexLe(DoctorVisitKey(v), DoctorVisitKey(RecentDoctorVisits(db)[i]))
  {
    var sorted := SortDesc(db.doctorVisits, DoctorVisitKey);
    var r := RecentDoctorVisits(db);
    assert r == Take(sorted, 10) == sorted[..|r|];
    assert v in multiset(db.doctorVisits);
    assert v in sorted;
    var k :| 0 <= k < |sorted| && sorted[k] == v;
    assert k >= |r|;
    SortedDescPairwise(sorted, DoctorVisitKey, i, k);
  }

  /** One MR's line in the tracking table. */
  datatype TrackingRow = TrackingRow(
    mrId: Option<nat>, mr: string, visitsToday: nat, firstPunch: Option<string>, lastPunch: Option<string>)

  /** The earliest and latest of an MR's doctor visits today, on the 12-hour clock. */
  function Punches(db: Db, mr: nat, today: Date): (p: (Option<string>, Option<string>))
    ensures p.0.None? <==> Count(db.doctorVisits, ByOn(mr, today)) == 0
    ensures p.1.None? <==> Count(db.doctorVisits, ByOn(mr, today)) == 0
    ensures p.0.Some? ==> exists v :: v in db.doctorVisits && ByOn(mr, today)(v) && p.0.value == Clock12(v.visitTime)
                                       && forall w :: w in db.doctorVisits && ByOn(mr, today)(w) ==> v.visitTime <= w.visitTime
    ensures p.1.Some? ==> exists v :: v in db.doctorVisits && ByOn(mr, today)(v) && p.1.value == Clock12(v.visitTime)
                                       && forall w :: w in db.doctorVisits && ByOn(mr, today)(w) ==> w.visitTime <= v.visitTime
  {
    var mine := Filter(db.doctorVisits, ByOn(mr, today));
    CountIsFilterLength(db.doctorVisits, ByOn(mr, today));
    if |mine| == 0 then (None, None)
    else
      var first := ArgMin(mine, VisitTime);
      var last := ArgMax(mine, VisitTime);
      PunchBounds(db, mr, today, first, last);
      (Some(Clock12(first.visitTime)), Some(Clock12(last.visitTime)))
  }

  /** The visits `ArgMin` and `ArgMax` pick from the day's visits bound every visit of that day. */
  lemma PunchBounds(db: Db, mr: nat, today: Date, first: DoctorVisit, last: DoctorVisit)
    requires |Filter(db.doctorVisits, ByOn(mr, today))| > 0
    requires first == ArgMin(Filter(db.doctorVisits, ByOn(mr, today)), VisitTime)
    requires last == ArgMax(Filter(db.doctorVisits, ByOn(mr, today)), VisitTime)
    ensures first in db.doctorVisits && ByOn(mr, today)(first)
    ensures last in db.doctorVisits && ByOn(mr, today)(last)
    ensures forall w :: w in db.doctorVisits && ByOn(mr, today)(w) ==> first.visitTime <= w.visitTime <= last.visitTime
  {
    var mine := Filter(db.doctorVisits, ByOn(mr, today));
    forall w | w in db.doctorVisits && ByOn(mr, today)(w)
      ensures first.visitTime <= w.visitTime <= last.visitTime
    {
      assert w in mine;
      var k :| 0 <= k < |mine| && mine[k] == w;
      assert VisitTime(first) <= VisitTime(mine[k]) <= VisitTime(last);
    }
  }

  /** The tracking line of an MR as the view builds it: without the MR's id. */
  function TrackingRowAsWritten(db: Db, u: User, today: Date): (row: TrackingRow)
    ensures row.mrId.None?
    ensures row.mr == u.username && row.visitsToday == Count(db.doctorVisits, ByOn(u.id, today))
  {
    var p := Punches(db, u.id, today);
    TrackingRow(None, u.username, Count(db.doctorVisits, ByOn(u.id, today)), p.0, p.1)
  }

  /** The tracking line with the `mr_id` the serializer declares and the client needs. */
  function TrackingRowOf(db: Db, u: User, today: Date): (row: TrackingRow)
    ensures row.mrId == Some(u.id)
    ensures row.mr == u.username && row.visitsToday == Count(db.doctorVisits, ByOn(u.id, today))
    ensures row.firstPunch.None? <==> row.visitsToday == 0
    ensures row.lastPunch.None? <==> row.visitsToday == 0
    ensures row == TrackingRowAsWritten(db, u, today).(mrId := Some(u.id))
  {
    var p := Punches(db, u.id, today);
    TrackingRow(Some(u.id), u.username, Count(db.doctorVisits, ByOn(u.id, today)), p.0, p.1)
  }

  /** `mr_tracking` as written: one line per MR, none of them identified. */
  function MRTrackingAsWritten(db: Db, today: Date): (r: seq<TrackingRow>)
    ensures |r| == Count(db.users, IsMRRow)
    ensures forall i :: 0 <= i < |r| ==> r[i].mrId.None?
  {
    CountIsFilterLength(db.users, IsMRRow);
    Map(Filter(db.users, IsMRRow), (u: User) => TrackingRowAsWritten(db, u, today))
  }

  /** `mr_tracking` corrected: one line per MR user, in table order, carrying that user's id. */
  function MRTracking(db: Db, today: Date): (r: seq<TrackingRow>)
    ensures |r| == Count(db.users, IsMRRow) == |Filter(db.users, IsMRRow)|
    ensures forall i :: 0 <= i < |r| ==> r[i] == TrackingRowOf(db, Filter(db.users, IsMRRow)[i], today)
    ensures forall i :: 0 <= i < |r| ==>
              exists u :: u in db.users && u.role == MR && r[i] == TrackingRowOf(db, u, today)
  {
    var mrs := Filter(db.users, IsMRRow);
    CountIsFilterLength(db.users, IsMRRow);
    var r := Map(mrs, (u: User) => TrackingRowOf(db, u, today));
    assert forall i :: 0 <= i < |r| ==> mrs[i] in mrs && r[i] == TrackingRowOf(db, mrs[i], today);
    r
  }

  /** Every MR user has a line. */
  lemma MRTrackingCovers(db: Db, today: Date, u: User)
    requires u in db.users && u.role == MR
    ensures exists i :: 0 <= i < |MRTracking(db, today)| && MRTracking(db, today)[i] == TrackingRowOf(db, u, today)
  {
    var mrs := Filter(db.users, IsMRRow);
    assert IsMRRow(u) && u in mrs;
    var i :| 0 <= i < |mrs| && mrs[i] == u;
    assert MRTracking(db, today)[i] == TrackingRowOf(db, u, today);
  }

  /** The first punch is never later than the last: compared as minutes of the day. */
  lemma FirstPunchNotAfterLast(db: Db, u: User, today: Date)
    requires TrackingRowOf(db, u, today).visitsToday > 0
    ensures var row := TrackingRowOf(db, u, today);
            ParseClock12(row.firstPunch.value).Some? && ParseClock12(row.lastPunch.value).Some?
            && ParseClock12(row.firstPunch.value).value <= ParseClock12(row.lastPunch.value).value
  {
    var row := TrackingRowOf(db, u, today);
    var a :| a in db.doctorVisits && ByOn(u.id, today)(a) && row.firstPunch.value == Clock12(a.visitTime)
             && forall w :: w in db.doctorVisits && ByOn(u.id, today)(w) ==> a.visitTime <= w.visitTime;
    var b :| b in db.doctorVisits && ByOn(u.id, today)(b) && row.lastPunch.value == Clock12(b.visitTime)
             && forall w :: w in db.doctorVisits && ByOn(u.id, today)(w) ==> w.visitTime <= b.visitTime;
    assert a.visitTime <= b.visitTime;
    ParseClock12OfClock12(a.visitTime);
    ParseClock12OfClock12(b.visitTime);
  }

  /** The admin's task list: every task, latest due date first. */
  function AllTasksByDueDate(db: Db): (r: seq<Task>)
    ensures multiset(r) == multiset(db.tasks)
    ensures forall i, j :: 0 <= i <= j < |r| ==> r[j].dueDate <= r[i].dueDate
  {
    var r := SortDesc(db.tasks, DueKey);
    forall i, j | 0 <= i <= j < |r| ensures r[j].dueDate <= r[i].dueDate {
      SortedDescPairwise(r, DueKey, i, j);
      LexLeSingle(r[j].dueDate, r[i].dueDate);
    }
    r
  }

  datatype AdminDashboardData = AdminDashboardData(
    summary: Summary,
    dailyVisits: seq<DayCount>,
    recentVisits: seq<VisitRow>,
    mrTracking: seq<TrackingRow>,
    assignedTasks: seq<TaskRow>)

  /**
   * `AdminDashboardView.get` corrected: the tracking lines carry the MR's
   * id, as the tracking serializer declares and the tracking page needs.
   */
  function AdminDashboard(db: Db, req: Requester, today: Date): (r: Reply<AdminDashboardData>)
    ensures r.Ok? <==> req.Authed? && req.user.role == Admin
    ensures !r.Ok? ==> r == Refused(RoleGate(req, Admin).status, RoleGate(req, Admin).body)
    ensures r.Ok? ==>
              && r.value.summary == SummaryOf(db, today)
              && r.value.dailyVisits == DailyVisits(db, today)
              && r.value.mrTracking == MRTracking(db, today)
              && |r.value.recentVisits| == |RecentDoctorVisits(db)| <= 10
              && (forall i :: 0 <= i < |r.value.recentVisits| ==>
                    r.value.recentVisits[i] == VisitRowOf(db, RecentDoctorVisits(db)[i]))
              && |r.value.assignedTasks| == |AllTasksByDueDate(db)| == |db.tasks|
              && (forall i :: 0 <= i < |r.value.assignedTasks| ==>
                    r.value.assignedTasks[i] == TaskRowOf(db, AllTasksByDueDate(db)[i]))
  {
    match RoleGate(req, Admin)
    case Refused(s, b) => Refused(s, b)
    case Ok(_) =>
      var tasks := AllTasksByDueDate(db);
      assert |tasks| == |multiset(tasks)| == |db.tasks|;
      Ok(AdminDashboardData(
        SummaryOf(db, today),
        DailyVisits(db, today),
        Map(RecentDoctorVisits(db), (v: DoctorVisit) => VisitRowOf(db, v)),
        MRTracking(db, today),
        Map(tasks, (t: Task) => TaskRowOf(db, t))))
  }

  /** `AdminDashboardView.get` as written: the corrected answer, except that its tracking lines carry no MR id. */
  function AdminDashboardAsWritten(db: Db, req: Requester, today: Date): (r: Reply<AdminDashboardData>)
    ensures r.Ok? <==> req.Authed? && req.user.role == Admin
    ensures !r.Ok? ==> r == AdminDashboard(db, req, today)
    ensures r.Ok? ==> forall i :: 0 <= i < |r.value.mrTracking| ==> r.value.mrTracking[i].mrId.None?
    ensures r.Ok? ==> r.value == AdminDashboard(db, req, today).value.(mrTracking := MRTrackingAsWritten(db, today))
  {
    match AdminDashboard(db, req, today)
    case Refused(s, b) => Refused(s, b)
    case Ok(d) => Ok(d.(mrTracking := MRTrackingAsWritten(db, today)))
  }

  /** As soon as there is an MR user, the view as written and the corrected one differ, and only in the tracking lines. */
  lemma AdminDashboardAsWrittenDiffers(db: Db, req: Requester, today: Date)
    requires req.Authed? && req.user.role == Admin && Count(db.users, IsMRRow) > 0
    ensures AdminDashboardAsWritten(db, req, today).value.mrTracking != AdminDashboard(db, req, today).value.mrTracking
    ensures AdminDashboardAsWritten(db, req, today).value.(mrTracking := [])
            == AdminDashboard(db, req, today).value.(mrTracking := [])
  {
    var fixed := AdminDashboard(db, req, today).value.mrTracking;
    var written := AdminDashboardAsWritten(db, req, today).value.mrTracking;
    assert fixed[0].mrId.Some?;
    assert written[0].mrId.None?;
  }

  /** The last bar of the week chart is the summary's count of today's visits. */
  lemma ChartEndsWithSummary(db: Db, req: Requester, today: Date)
    requires AdminDashboard(db, req, today).Ok?
    ensures var d := AdminDashboard(db, req, today).value;
            d.dailyVisits[6].date == today && d.dailyVisits[6].count == d.summary.totalVisitsToday
  {
  }

  /** The admin's tracking line for an MR counts the doctor visits the MR's own dashboard lists today. */
  lemma TrackingAgreesWithMRDashboard(db: Db, u: User, today: Date)
    requires u.role == MR
    ensures TrackingRowOf(db, u, today).visitsToday == |MRDashboard(db, Authed(u), today).value.todaysDoctorVisits|
  {
  }

  /** Every visit today is either a doctor visit or a shop visit of someone: the MRs' own counts never exceed the total. */
  lemma MRTodayWithinTotal(db: Db, u: User, today: Date)
    requires u.role == MR
    ensures MRDashboard(db, Authed(u), today).value.todayVisits <= SummaryOf(db, today).totalVisitsToday
  {
    CountMonotone(db.doctorVisits, ByOn(u.id, today), OnDay(today));
    CountMonotone(db.shopVisits, ShopByOn(u.id, today), ShopOnDay(today));
  }
}

=== FILE: detail.dfy ===
/**
 * The admin's page for one MR (frontend/src/pages/admin/MRDetail.tsx): the
 * route id, the date window sent with the detail request, and the merged,
 * newest-first list of the MR's doctor and shop visits. The current day
 * and its ISO rendering are parameters.
 */
module Detail {
  import opened Wrappers
  import opened Text
  import opened Seqs
  import opened Catalogue
  import opened Records

  /** `mrIdNum`: null when the route id is absent or empty, or when it is not a number. */
  function ParseMrId(id: Option<string>): (r: Option<nat>)
    ensures id.None? || id.value == "" ==> r.None?
    ensures id.Some? && id.value != "" ==> r == NumberOf(id.value)
  {
    if id.None? || id.value == "" then None else NumberOf(id.value)
  }

  /** A route built from an MR's id reads back as that id. */
  lemma ParseMrIdOfNat(n: nat)
    ensures ParseMrId(Some(NatToString(n))) == Some(n)
  {
    NumberOfNatToString(n);
  }

  /** The detail request runs only for a truthy id, so the route id "0" never fetches. */
  function DetailEnabled(mrIdNum: Option<nat>): (b: bool)
    ensures b <==> mrIdNum.Some? && mrIdNum.value > 0
  {
    mrIdNum.Some? && mrIdNum.value != 0
  }

  /** The choices of the date-range select. */
  datatype Range = AllTime | Today | Yesterday | LastWeek | LastMonth | CustomRange

  /** The days a preset range spans, counted back from today. */
  function WindowDays(range: Range, today: int): (d: Option<(int, int)>)
    ensures d.None? <==> range == AllTime || range == CustomRange
    ensures d.Some? ==> d.value.0 <= d.value.1 <= today
    ensures range == Today ==> d == Some((today, today))
    ensures range == Yesterday ==> d == Some((today - 1, today - 1))
    ensures range == LastWeek ==> d == Some((today - 7, today))
    ensures range == LastMonth ==> d == Some((today - 30, today))
  {
    match range
    case Today => Some((today, today))
    case Yesterday => Some((today - 1, today - 1))
    case LastWeek => Some((today - 7, today))
    case LastMonth => Some((today - 30, today))
    case _ => None
  }

  /** `startDate` and `endDate`: empty for all time, the typed dates for a custom range, ISO days otherwise. */
  function DateWindow(range: Range, today: int, iso: int -> string, customStart: string, customEnd: string)
    : (w: (string, string))
    ensures range == AllTime ==> w == ("", "")
    ensures range == CustomRange ==> w == (customStart, customEnd)
    ensures WindowDays(range, today).Some? ==>
              w == (iso(WindowDays(range, today).value.0), iso(WindowDays(range, today).value.1))
  {
    match WindowDays(range, today)
    case Some((a, b)) => (iso(a), iso(b))
    case None => if range == CustomRange then (customStart, customEnd) else ("", "")
  }

  /** For all time the detail request carries no query string at all. */
  lemma AllTimeSendsNoQuery(mrId: int, today: int, iso: int -> string, customStart: string, customEnd: string)
    ensures var w := DateWindow(AllTime, today, iso, customStart, customEnd);
            MRDetailPath(mrId, w.0, w.1) == MRDetailPrefix + IntToString(mrId) + "/"
  {
  }

  /** A preset range sends both dates, start first. */
  lemma PresetSendsBothDates(range: Range, mrId: int, today: int, iso: int -> string, customStart: string, customEnd: string)
    requires range != AllTime && range != CustomRange
    requires forall d :: iso(d) != ""
    ensures var w := DateWindow(range, today, iso, customStart, customEnd);
            var days := WindowDays(range, today).value;
            MRDetailPath(mrId, w.0, w.1)
              == MRDetailPrefix + IntToString(mrId) + "/" + ("?start_date=" + iso(days.0) + "&end_date=" + iso(days.1))
  {
    var days := WindowDays(range, today).value;
    var w := DateWindow(range, today, iso, customStart, customEnd);
    assert w == (iso(days.0), iso(days.1));
    assert MRDetailQuery(w.0, w.1) == "?start_date=" + iso(days.0) + "&end_date=" + iso(days.1);
  }

  /** A doctor visit of the detail response. Text fields may be null or empty. */
  datatype DetailDoctorVisit = DetailDoctorVisit(
    id: nat, doctorNameDisplay: Option<string>, doctorSpecialization: Option<string>,
    gpsLat: Option<int>, gpsLong: Option<int>, notes: Option<string>,
    visitDate: string, visitTime: string, visitType: string)

  /** A shop visit of the detail response. */
  datatype DetailShopVisit = DetailShopVisit(
    id: nat, shopName: Option<string>, location: Option<string>, contactPerson: Option<string>,
    notes: Option<string>, visitDate: string, visitTime: string, visitType: string)

  /** An entry of the merged visit list; only doctor entries carry coordinates. */
  datatype CombinedVisit =
    | DoctorItem(id: string, doctorName: string, doctorSpecialty: string, notes: string,
                 date: string, time: string, lat: Option<int>, lng: Option<int>, visitType: string)
    | ShopItem(id: string, shopName: string, shopLocation: Option<string>, contactPerson: Option<string>,
               notes: string, date: string, time: string, visitType: string)

  const DoctorPrefix: string := "doctor-"
  const ShopPrefix: string := "shop-"
  const Unknown: string := "Unknown"

  /** `v || null` on optional text. */
  function TextOrNull(v: Option<string>): (r: Option<string>)
    ensures r.Some? <==> v.Some? && v.value != ""
    ensures r.Some? ==> r == v
  {
    if v.Some? && v.value != "" then v else None
  }

  function DoctorItemOf(v: DetailDoctorVisit): (c: CombinedVisit)
    ensures c.DoctorItem? && c.id == DoctorPrefix + NatToString(v.id)
    ensures c.doctorName == OptOrElse(v.doctorNameDisplay, Unknown) && c.notes == OptOrElse(v.notes, "")
    ensures c.date == v.visitDate && c.time == v.visitTime && c.lat == v.gpsLat && c.lng == v.gpsLong
  {
    DoctorItem(DoctorPrefix + NatToString(v.id), OptOrElse(v.doctorNameDisplay, Unknown),
               OptOrElse(v.doctorSpecialization, ""), OptOrElse(v.notes, ""),
               v.visitDate, v.visitTime, v.gpsLat, v.gpsLong, v.visitType)
  }

  function ShopItemOf(v: DetailShopVisit): (c: CombinedVisit)
    ensures c.ShopItem? && c.id == ShopPrefix + NatToString(v.id)
    ensures c.shopName == OptOrElse(v.shopName, Unknown) && c.notes == OptOrElse(v.notes, "")
    ensures c.shopLocation == TextOrNull(v.location) && c.contactPerson == TextOrNull(v.contactPerson)
    ensures c.date == v.visitDate && c.time == v.visitTime
  {
    ShopItem(ShopPrefix + NatToString(v.id), OptOrElse(v.shopName, Unknown), TextOrNull(v.location),
             TextOrNull(v.contactPerson), OptOrElse(v.notes, ""), v.visitDate, v.visitTime, v.visitType)
  }

  /** The sort key `date + "T" + time`, compared by code units. */
  function StampKey(c: CombinedVisit): seq<int> {
    Codes(c.date + "T" + c.time)
  }

  function ItemId(c: CombinedVisit): string { c.id }

  /** `combinedVisits`: the doctor entries then the shop entries, sorted newest stamp first. */
  function CombinedVisits(doctors: seq<DetailDoctorVisit>, shops: seq<DetailShopVisit>): (r: seq<CombinedVisit>)
    ensures |r| == |doctors| + |shops|
    ensures multiset(r) == multiset(Map(doctors, DoctorItemOf) + Map(shops, ShopItemOf))
    ensures SortedDesc(r, StampKey)
  {
    SortDesc(Map(doctors, DoctorItemOf) + Map(shops, ShopItemOf), StampKey)
  }

  /** The prefixes keep doctor and shop ids apart; within a kind, distinct visit ids give distinct entry ids. */
  lemma PrefixedIdsDiffer(a: nat, b: nat)
    ensures DoctorPrefix + NatToString(a) != ShopPrefix + NatToString(b)
    ensures DoctorPrefix + NatToString(a) == DoctorPrefix + NatToString(b) <==> a == b
    ensures ShopPrefix + NatToString(a) == ShopPrefix + NatToString(b) <==> a == b
  {
    assert (DoctorPrefix + NatToString(a))[0] == 'd';
    assert (ShopPrefix + NatToString(b))[0] == 's';
    NatToStringInjective(a, b);
    if DoctorPrefix + NatToString(a) == DoctorPrefix + NatToString(b) {
      assert NatToString(a) == (DoctorPrefix + NatToString(a))[|DoctorPrefix|..];
      assert NatToString(b) == (DoctorPrefix + NatToString(b))[|DoctorPrefix|..];
    }
    if ShopPrefix + NatToString(a) == ShopPrefix + NatToString(b) {
      assert NatToString(a) == (ShopPrefix + NatToString(a))[|ShopPrefix|..];
      assert NatToString(b) == (ShopPrefix + NatToString(b))[|ShopPrefix|..];
    }
  }

  function DoctorVisitId(v: DetailDoctorVisit): nat { v.id }
  function ShopVisitId(v: DetailShopVisit): nat { v.id }

  /** With the server's unique ids, no two entries of the merged list share an id. */
  lemma CombinedIdsUnique(doctors: seq<DetailDoctorVisit>, shops: seq<DetailShopVisit>)
    requires KeysDistinct(doctors, DoctorVisitId) && KeysDistinct(shops, ShopVisitId)
    ensures KeysDistinct(CombinedVisits(doctors, shops), ItemId)
  {
    var ds := Map(doctors, DoctorItemOf);
    var ss := Map(shops, ShopItemOf);
    var merged := ds + ss;
    forall i, j | 0 <= i < j < |merged| ensures merged[i].id != merged[j].id {
      if j < |ds| {
        PrefixedIdsDiffer(doctors[i].id, doctors[j].id);
      } else if i < |ds| {
        PrefixedIdsDiffer(doctors[i].id, shops[j - |ds|].id);
      } else {
        PrefixedIdsDiffer(shops[i - |ds|].id, shops[j - |ds|].id);
      }
    }
    KeysDistinctPermutation(merged, CombinedVisits(doctors, shops), ItemId);
  }

  /** The map action: offered only for entries whose latitude and longitude are both truthy. */
  function OffersMap(c: CombinedVisit): (b: bool)
    ensures b <==> c.DoctorItem? && c.lat.Some? && c.lat.value != 0 && c.lng.Some? && c.lng.value != 0
    ensures c.ShopItem? ==> !b
  {
    match c
    case DoctorItem(_, _, _, _, _, _, lat, lng, _) => lat.Some? && lat.value != 0 && lng.Some? && lng.value != 0
    case ShopItem(_, _, _, _, _, _, _, _) => false
  }
}

=== FILE: forms.dfy ===
/**
 * Pieces shared by the dialogs that send a form: the toast they raise, an
 * id field's `Number(...)` conversion as it reaches the JSON body, the
 * `text || undefined` idiom for optional text and the new-doctor body.
 */
module Forms {
  import opened Wrappers
  import opened Text
  import opened Json
  import opened Records

  /** A toast as the dialogs raise it: a title and a description. */
  datatype Toast = Toast(title: string, description: string)

  /** `Number(s)` as `JSON.stringify` writes it: NaN becomes null. */
  function IdJson(s: string): (j: Json)
    ensures NumberOf(s).Some? ==> j == JNum(NumberOf(s).value)
    ensures NumberOf(s).None? ==> j == JNull
  {
    match NumberOf(s)
    case Some(n) => JNum(n)
    case None => JNull
  }

  /** An id picked from a list, sent back as a number, arrives as that id. */
  lemma IdJsonOfNatToString(n: nat)
    ensures IdJson(NatToString(n)) == JNum(n)
  {
    NumberOfNatToString(n);
  }

  /** `text || undefined`. */
  function Optional(text: string): (r: Option<string>)
    ensures r.Some? <==> text != ""
    ensures r.Some? ==> r.value == text
  {
    if text != "" then Some(text) else None
  }

  /** The `createDoctor` body. */
  function DoctorBody(name: string, specialty: string): (j: Json)
    ensures j.JObj? && j.fields.Keys == {"name", "specialization"}
    ensures j.fields["name"] == JStr(name) && j.fields["specialization"] == JStr(specialty)
  {
    JObj(map["name" := JStr(name), "specialization" := JStr(specialty)])
  }
}

=== FILE: gateway.dfy ===
/**
 * The HTTP request gateway of the client (frontend/src/lib/api.ts): base
 * URL, header construction, URL joining, body shaping and the mapping from
 * a response to a result or an error message. `fetch` itself is an input:
 * the delivery of the request is given, not performed.
 */
module Gateway {
  import opened Wrappers
  import opened Text
  import opened Json
  import opened Session

  const DefaultBaseUrl: string := "http://localhost:8000"
  const ContentTypeHeader: string := "Content-Type"
  const AuthorizationHeader: string := "Authorization"
  const JsonMime: string := "application/json"

  /**
   * `API_BASE_URL`: the configured value with one trailing slash removed,
   * or the local default when nothing (or nothing but a slash) is configured.
   */
  function BaseUrl(configured: Option<string>): (r: string)
    ensures r != ""
    ensures configured.None? ==> r == DefaultBaseUrl
    ensures configured.Some? && r != DefaultBaseUrl ==> r == configured.value || r + "/" == configured.value
    ensures configured.Some? && configured.value != "" && configured.value != "/" ==>
              r == configured.value || r + "/" == configured.value
  {
    match configured
    case None => DefaultBaseUrl
    case Some(v) =>
      var stripped := if |v| > 0 && v[|v| - 1] == '/' then v[..|v| - 1] else v;
      if stripped == "" then DefaultBaseUrl else stripped
  }

  type Headers = map<string, string>

  /**
   * `buildHeaders`: JSON content type always; a bearer credential exactly
   * when authentication is not skipped and a non-empty access token is
   * stored. Reading a corrupt token record raises its error.
   */
  function BuildHeaders(st: Storage, skipAuth: bool): (r: Result<Headers, string>)
    ensures r.Failure? <==> !skipAuth && GetStoredTokens(st).Failure?
    ensures r.Success? ==> ContentTypeHeader in r.value && r.value[ContentTypeHeader] == JsonMime
    ensures r.Success? ==> r.value.Keys <= {ContentTypeHeader, AuthorizationHeader}
    ensures r.Success? ==>
              (AuthorizationHeader in r.value <==>
                 !skipAuth && GetStoredTokens(st).value.Some? && GetStoredTokens(st).value.value.access != "")
    ensures r.Success? && AuthorizationHeader in r.value ==>
              r.value[AuthorizationHeader] == "Bearer " + GetStoredTokens(st).value.value.access
  {
    var base := map[ContentTypeHeader := JsonMime];
    if skipAuth then Success(base)
    else
      match GetStoredTokens(st)
      case Failure(e) => Failure(e)
      case Success(None) => Success(base)
      case Success(Some(t)) =>
        if t.access != "" then Success(base[AuthorizationHeader := "Bearer " + t.access]) else Success(base)
  }

  /** The request URL: the base, then a slash unless the path already starts with one, then the path. */
  function JoinUrl(base: string, path: string): (url: string)
    ensures StartsWith(url, base + "/")
    ensures |url| == |base| + |path| + (if StartsWith(path, "/") then 0 else 1)
    ensures url[|url| - |path|..] == path
  {
    base + (if StartsWith(path, "/") then "" else "/") + path
  }

  /** A leading slash on the path makes no difference to the URL. */
  lemma LeadingSlashOptional(base: string, path: string)
    requires !StartsWith(path, "/")
    ensures JoinUrl(base, "/" + path) == JoinUrl(base, path)
  {
    assert StartsWith("/" + path, "/");
  }

  datatype Method = GET | POST | PATCH | PUT | DELETE

  /** What a caller passes as `body`: multipart form data, or any value to be serialised. */
  datatype Payload = FormData(parts: seq<(string, string)>) | Data(value: Json)

  /** What goes on the wire: form data as given, or `JsonText(v)`, the serialisation of `v`. */
  datatype WireBody = FormBody(parts: seq<(string, string)>) | JsonText(value: Json)

  /** Body shaping: `null` and `undefined` are omitted, form data passes through, anything else is serialised. */
  function ShapeBody(body: Option<Payload>): (r: Option<WireBody>)
    ensures r.None? <==> body.None? || body.value == Data(JNull)
    ensures r.Some? && body.value.FormData? ==> r.value == FormBody(body.value.parts)
    ensures r.Some? && body.value.Data? ==> r.value == JsonText(body.value.value)
  {
    match body
    case None => None
    case Some(FormData(parts)) => Some(FormBody(parts))
    case Some(Data(v)) => if v.JNull? then None else Some(JsonText(v))
  }

  datatype Request = Request(url: string, verb: Method, headers: Headers, body: Option<WireBody>)

  /**
   * A received response: the `ok` flag, the status, the `content-type`
   * header ("" when absent) and the parsed body (`None` when the body is
   * declared JSON but does not parse).
   */
  datatype Response = Response(ok: bool, status: int, contentType: string, body: Option<Json>)

  /** What `fetch` yields: a response, or a rejection with an error message. */
  datatype Delivery = Delivered(response: Response) | NetworkFailure(message: string)

  /** The value `handleResponse` works with: the parsed body, `{}` when it did not parse, `null` when not JSON. */
  function ResponseData(resp: Response): (data: Json)
    ensures !Contains(resp.contentType, JsonMime) ==> data == JNull
    ensures Contains(resp.contentType, JsonMime) && resp.body.None? ==> data == JObj(map[])
    ensures Contains(resp.contentType, JsonMime) && resp.body.Some? ==> data == resp.body.value
  {
    if Contains(resp.contentType, JsonMime) then resp.body.GetOr(JObj(map[])) else JNull
  }

  function FallbackMessage(status: int): string {
    "Request failed with status " + IntToString(status)
  }

  /** `(data && (data.detail || data.message)) || fallback`, converted to text by `new Error`. */
  function ErrorMessage(data: Json, status: int): string {
    if !Truthy(data) then FallbackMessage(status)
    else
      var picked := if TruthyOpt(Field(data, "detail")) then Field(data, "detail") else Field(data, "message");
      if TruthyOpt(picked) then Show(picked.value) else FallbackMessage(status)
  }

  /** `handleResponse`: the parsed data on success, an error carrying the message otherwise. */
  function HandleResponse(resp: Response): (r: Result<Json, string>)
    ensures r.Success? <==> resp.ok
    ensures r.Success? ==> r.value == ResponseData(resp)
    ensures r.Failure? ==> r.error == ErrorMessage(ResponseData(resp), resp.status)
  {
    var data := ResponseData(resp);
    if !resp.ok then Failure(ErrorMessage(data, resp.status)) else Success(data)
  }

  /** Precedence of the error message: a truthy `detail`, else a truthy `message`, else the status text. */
  lemma ErrorMessagePrecedence(fields: map<string, Json>, status: int)
    ensures "detail" in fields && Truthy(fields["detail"]) ==>
              ErrorMessage(JObj(fields), status) == Show(fields["detail"])
    ensures !("detail" in fields && Truthy(fields["detail"])) && "message" in fields && Truthy(fields["message"]) ==>
              ErrorMessage(JObj(fields), status) == Show(fields["message"])
    ensures !("detail" in fields && Truthy(fields["detail"])) && !("message" in fields && Truthy(fields["message"])) ==>
              ErrorMessage(JObj(fields), status) == "Request failed with status " + IntToString(status)
  {
  }

  /** A failed response whose body is `{"detail": X}` fails with exactly X. */
  lemma DetailBecomesMessage(status: int, x: string, contentType: string)
    requires x != "" && Contains(contentType, JsonMime)
    ensures HandleResponse(Response(false, status, contentType, Some(JObj(map["detail" := JStr(x)]))))
            == Failure(x)
  {
  }

  /** A failed response with a non-JSON body, or a JSON body that does not parse, fails with the status text. */
  lemma UnreadableBodyGivesStatusMessage(status: int, contentType: string, body: Option<Json>)
    requires !Contains(contentType, JsonMime) || body.None?
    ensures HandleResponse(Response(false, status, contentType, body)) == Failure(FallbackMessage(status))
  {
  }

  /** Request construction: URL, method, headers and shaped body. */
  function PrepareRequest(st: Storage, base: string, path: string, verb: Method, body: Option<Payload>, skipAuth: bool)
    : (r: Result<Request, string>)
    ensures r.Failure? <==> BuildHeaders(st, skipAuth).Failure?
    ensures r.Success? ==>
              r.value == Request(JoinUrl(base, path), verb, BuildHeaders(st, skipAuth).value, ShapeBody(body))
  {
    match BuildHeaders(st, skipAuth)
    case Failure(e) => Failure(e)
    case Success(h) => Success(Request(JoinUrl(base, path), verb, h, ShapeBody(body)))
  }

  /** One gateway call: the request that was sent (if any) and what the caller receives. */
  datatype Exchange = Exchange(sent: Option<Request>, outcome: Result<Json, string>)

  /**
   * `apiFetch`: header construction may fail before anything is sent;
   * otherwise the request goes out and the delivery decides the outcome.
   */
  function ApiFetch(st: Storage, base: string, path: string, verb: Method, body: Option<Payload>, skipAuth: bool,
                    delivery: Delivery): (x: Exchange)
    ensures x.sent.None? <==> PrepareRequest(st, base, path, verb, body, skipAuth).Failure?
    ensures x.sent.Some? ==> x.sent.value == PrepareRequest(st, base, path, verb, body, skipAuth).value
    ensures x.sent.None? ==> x.outcome == Failure(BuildHeaders(st, skipAuth).error)
    ensures x.sent.Some? && delivery.NetworkFailure? ==> x.outcome == Failure(delivery.message)
    ensures x.sent.Some? && delivery.Delivered? ==> x.outcome == HandleResponse(delivery.response)
  {
    match PrepareRequest(st, base, path, verb, body, skipAuth)
    case Failure(e) => Exchange(None, Failure(e))
    case Success(req) =>
      match delivery
      case NetworkFailure(m) => Exchange(Some(req), Failure(m))
      case Delivered(resp) => Exchange(Some(req), HandleResponse(resp))
  }
}

=== FILE: json.dfy ===
/**
 * Parsed JSON values as the client sees them after `response.json()`, with
 * JavaScript truthiness and `String(value)` conversion. Numbers are integers.
 */
module Json {
  import opened Wrappers
  import opened Text

  datatype Json =
    | JNull
    | JBool(b: bool)
    | JNum(n: int)
    | JStr(s: string)
    | JArr(items: seq<Json>)
    | JObj(fields: map<string, Json>)

  /** JavaScript truthiness of a JSON value. */
  predicate Truthy(j: Json) {
    match j
    case JNull => false
    case JBool(b) => b
    case JNum(n) => n != 0
    case JStr(s) => s != ""
    case JArr(_) => true
    case JObj(_) => true
  }

  /** Truthiness of a possibly `undefined` value. */
  predicate TruthyOpt(o: Option<Json>) {
    o.Some? && Truthy(o.value)
  }

  /** Property access `j.key`: `undefined` unless `j` is an object holding `key`. */
  function Field(j: Json, key: string): (r: Option<Json>)
    ensures r.Some? <==> j.JObj? && key in j.fields
  {
    if j.JObj? && key in j.fields then Some(j.fields[key]) else None
  }

  /** `String(j)`: arrays join their elements with commas, null elements as "". */
  function Show(j: Json): string
    decreases j
  {
    match j
    case JNull => "null"
    case JBool(b) => if b then "true" else "false"
    case JNum(n) => IntToString(n)
    case JStr(s) => s
    case JArr(items) =>
      Join(seq(|items|, i requires 0 <= i < |items| => if items[i].JNull? then "" else Show(items[i])), ",")
    case JObj(_) => "[object Object]"
  }

  /** Distinct member names, as in an object literal written out in source. */
  predicate DistinctKeys(entries: seq<(string, Option<Json>)>) {
    forall i, j :: 0 <= i < j < |entries| ==> entries[i].0 != entries[j].0
  }

  /**
   * An object literal built from the members whose values are defined:
   * `JSON.stringify` drops members that are `undefined`.
   */
  function Object(entries: seq<(string, Option<Json>)>): (r: Json)
    requires DistinctKeys(entries)
    ensures r.JObj?
    ensures forall k :: k in r.fields <==> exists i :: 0 <= i < |entries| && entries[i].0 == k && entries[i].1.Some?
    ensures forall i :: 0 <= i < |entries| && entries[i].1.Some? ==> r.fields[entries[i].0] == entries[i].1.value
    decreases |entries|
  {
    if |entries| == 0 then JObj(map[])
    else
      var rest := Object(entries[..|entries| - 1]);
      var last := entries[|entries| - 1];
      if last.1.Some? then JObj(rest.fields[last.0 := last.1.value]) else rest
  }
}

=== FILE: login_page.dfy ===
/**
 * The sign-in page (frontend/src/pages/Login.tsx): the redirect of a user
 * already signed in, and the two sign-in forms with their presence check,
 * the session transition they call and where they navigate. The server's
 * answer is a parameter.
 */
module LoginPage {
  import opened Wrappers
  import opened Roles
  import opened Session
  import opened Gateway
  import opened Catalogue
  import opened Models
  import opened Users
  import opened Forms
  import Wire
  import MRHome

  const MRHomeRoute: string := "/mr/dashboard"
  const AdminHomeRoute: string := "/admin/dashboard"

  /** Where each role's dashboard lives. */
  function HomeRoute(role: Role): (r: string)
    ensures r == MRHomeRoute <==> role == MR
    ensures r == AdminHomeRoute <==> role == Admin
  {
    match role
    case MR => MRHomeRoute
    case Admin => AdminHomeRoute
  }

  /** The mount effect: a stored user goes to their role's dashboard; without one the page stays. */
  function MountRedirect(user: Option<AuthUser>): (r: Option<string>)
    ensures user.None? <==> r.None?
    ensures user.Some? ==> r == Some(HomeRoute(user.value.role))
  {
    match user
    case None => None
    case Some(u) => Some(HomeRoute(u.role))
  }

  /** The sign-in page and the MR's home agree: each sends a stored user to the one page meant for them. */
  lemma RedirectsAgree(user: Option<AuthUser>)
    ensures user.Some? && user.value.role == MR ==> MountRedirect(user) == Some(MRHomeRoute) && MRHome.Redirect(user).None?
    ensures user.Some? && user.value.role == Admin ==> MountRedirect(user) == MRHome.Redirect(user)
    ensures user.None? ==> MountRedirect(user).None? && MRHome.Redirect(user) == Some(MRHome.LoginRoute)
  {
  }

  /** What one press of a sign-in button does. */
  datatype Attempt = Attempt(storage: Storage, sent: bool, toast: Toast, navigate: Option<string>, submitting: bool)

  const MissingCredentials: Toast := Toast("Missing credentials", "Please enter both username and password.")

  function Welcome(role: Role): Toast {
    match role
    case MR => Toast("Login successful", "Welcome back, MR!")
    case Admin => Toast("Login successful", "Welcome back, Admin!")
  }

  /** `handleMRLogin` and `handleAdminLogin`: the same steps with the role fixed. */
  function SignIn(st: Storage, base: string, role: Role, creds: Credentials, delivery: Delivery): (a: Attempt)
    ensures !a.submitting
    ensures creds.username == "" || creds.password == "" ==> a == Attempt(st, false, MissingCredentials, None, false)
    ensures creds.username != "" && creds.password != "" ==>
              var s := Catalogue.Login(st, base, role, creds, delivery);
              && a.sent && a.storage == s.storage
              && (s.outcome.Success? ==> a.navigate == Some(HomeRoute(role)) && a.toast == Welcome(role))
              && (s.outcome.Failure? ==> a.navigate.None? && a.toast == Toast("Login failed", s.outcome.error))
    ensures a.navigate.Some? ==> a.navigate == Some(HomeRoute(role))
    ensures a.navigate.None? ==> a.storage == st
  {
    if creds.username == "" || creds.password == "" then Attempt(st, false, MissingCredentials, None, false)
    else
      var s := Catalogue.Login(st, base, role, creds, delivery);
      match s.outcome
      case Success(_) => Attempt(s.storage, true, Welcome(role), Some(HomeRoute(role)), false)
      case Failure(message) => Attempt(s.storage, true, Toast("Login failed", message), None, false)
  }

  /**
   * An MR the server signs in lands on the MR's home, which then keeps
   * them there: the stored user is an MR.
   */
  lemma SignedInMRStaysHome(accounts: seq<Account>, input: LoginInput, issued: (string, string),
                            st: Storage, base: string, creds: Credentials)
    requires creds.username != "" && creds.password != ""
    requires RoleLogin(accounts, input, MR, issued).Ok?
    ensures var p := RoleLogin(accounts, input, MR, issued).value;
            var a := SignIn(st, base, MR, creds, Delivered(Wire.ToResponse(200, Ok(LoginJson(p)))));
            && a.navigate == Some(MRHomeRoute)
            && GetStoredUser(a.storage) == Success(Some(Wire.SessionUser(p.user)))
            && MRHome.Redirect(Some(Wire.SessionUser(p.user))).None?
  {
    Wire.AcceptedLoginStoresSession(accounts, input, MR, issued, st, base, creds);
  }

  /**
   * Credentials of (Python's) white space only pass the page's check and are sent; the
   * server refuses them field by field, so the page shows only the status
   * and the store is untouched.
   */
  lemma BlankCredentialsFailAtServer(accounts: seq<Account>, role: Role, issued: (string, string),
                                     st: Storage, base: string, creds: Credentials)
    requires creds.username != "" && creds.password != "" && Text.PyStrip(creds.username) == ""
    ensures var r := RoleLogin(accounts, LoginInput(Some(creds.username), Some(creds.password)), role, issued);
            && r == Refused(400, FieldErrors(LoginFieldErrors(LoginInput(Some(creds.username), Some(creds.password)))))
            && var a := SignIn(st, base, role, creds, Delivered(Wire.ToResponse(200, Refused(r.status, r.body))));
               a.sent && a.navigate.None? && a.storage == st && a.toast == Toast("Login failed", FallbackMessage(400))
  {
    var input := LoginInput(Some(creds.username), Some(creds.password));
    var errs := LoginFieldErrors(input);
    assert forall k :: k in FieldNames(errs) ==> k == "username" || k == "password";
    Wire.FieldErrorsReachClientAsStatus(400, errs);
  }
}

=== FILE: models.dfy ===
/**
 * The server's tables (users, visits and tasks models) as immutable rows,
 * the integrity the database enforces through its foreign keys and its
 * one-to-one link, and the request/response vocabulary shared by the
 * views: who is asking, and how a refusal is reported.
 */
module Models {
  import opened Wrappers
  import opened Text
  import opened Roles
  import opened Json
  import opened Seqs

  /** A calendar day, as a day number. */
  type Date = int

  /** A time of day in seconds since midnight. */
  type Time = t: int | 0 <= t < 86400

  /** The custom user model: `name` may be blank, `role` is one of the two choices. */
  datatype User = User(id: nat, username: string, email: string, name: string, role: Role)

  /** `created_by` is optional and becomes null when its user is deleted. */
  datatype Doctor = Doctor(id: nat, name: string, specialization: string, createdBy: Option<nat>)

  /** A doctor visit: coordinates optional, date and time stamped at creation. */
  datatype DoctorVisit = DoctorVisit(
    id: nat, mr: nat, doctor: nat,
    gpsLat: Option<int>, gpsLong: Option<int>,
    notes: string, visitDate: Date, visitTime: Time, completed: bool)

  /** A shop visit: location and contact person optional. */
  datatype ShopVisit = ShopVisit(
    id: nat, mr: nat, shopName: string,
    location: Option<string>, contactPerson: Option<string>,
    notes: string, visitDate: Date, visitTime: Time, completed: bool)

  /** `DoctorVisitTask`: `visitRecord` is the one-to-one link to the visit that completed it. */
  datatype Task = Task(
    id: nat, assignedTo: nat, assignedBy: nat, assignedDoctor: nat,
    assignedDate: Date, dueDate: Date, dueTime: Time, notes: string,
    visitRecord: Option<nat>, completed: bool)

  datatype Db = Db(
    users: seq<User>, doctors: seq<Doctor>,
    doctorVisits: seq<DoctorVisit>, shopVisits: seq<ShopVisit>, tasks: seq<Task>)

  /** A user row of the MR role. */
  function IsMRRow(u: User): bool { u.role == MR }

  function UserId(u: User): nat { u.id }
  function DoctorId(d: Doctor): nat { d.id }
  function DoctorVisitId(v: DoctorVisit): nat { v.id }
  function ShopVisitId(v: ShopVisit): nat { v.id }
  function TaskId(t: Task): nat { t.id }

  /** The primary keys present in a table. */
  function Ids<T>(rows: seq<T>, key: T -> nat): set<nat> {
    set i | 0 <= i < |rows| :: key(rows[i])
  }

  /** No two rows share a primary key. */
  predicate UniqueKeys<T>(rows: seq<T>, key: T -> nat) {
    forall i, j :: 0 <= i < j < |rows| ==> key(rows[i]) != key(rows[j])
  }

  /** The row with primary key `k`, if any (`objects.get(pk=k)`). */
  function Lookup<T>(rows: seq<T>, key: T -> nat, k: nat): (r: Option<T>)
    ensures r.Some? <==> k in Ids(rows, key)
    ensures r.Some? ==> r.value in rows && key(r.value) == k
    decreases |rows|
  {
    if |rows| == 0 then None
    else if key(rows[0]) == k then Some(rows[0])
    else
      var r := Lookup(rows[1..], key, k);
      assert Ids(rows, key) == {key(rows[0])} + Ids(rows[1..], key) by {
        forall x | x in Ids(rows, key) ensures x in {key(rows[0])} + Ids(rows[1..], key) {
          var i :| 0 <= i < |rows| && key(rows[i]) == x;
          if i > 0 { assert key(rows[1..][i - 1]) == x; }
        }
      }
      r
  }

  /** In a table with unique keys, a row is found under its own key. */
  lemma {:induction false} LookupFindsRow<T>(rows: seq<T>, key: T -> nat, i: nat)
    requires UniqueKeys(rows, key) && i < |rows|
    ensures Lookup(rows, key, key(rows[i])) == Some(rows[i])
    decreases |rows|
  {
    if i > 0 {
      assert UniqueKeys(rows[1..], key);
      assert rows[1..][i - 1] == rows[i];
      LookupFindsRow(rows[1..], key, i - 1);
    }
  }

  /** The greatest key of a table, 0 for an empty one. */
  function MaxKey<T>(rows: seq<T>, key: T -> nat): (m: nat)
    ensures forall i :: 0 <= i < |rows| ==> key(rows[i]) <= m
    decreases |rows|
  {
    if |rows| == 0 then 0
    else
      var rest := MaxKey(rows[1..], key);
      assert forall i :: 1 <= i < |rows| ==> rows[i] == rows[1..][i - 1];
      if key(rows[0]) > rest then key(rows[0]) else rest
  }

  /** The key the database assigns to a new row: one past the greatest. */
  function FreshKey<T>(rows: seq<T>, key: T -> nat): (k: nat)
    ensures k !in Ids(rows, key)
    ensures k > 0
  {
    MaxKey(rows, key) + 1
  }

  /** Appending a row under a fresh key keeps the keys unique. */
  lemma AppendFreshKeepsUnique<T>(rows: seq<T>, key: T -> nat, x: T)
    requires UniqueKeys(rows, key)
    requires key(x) !in Ids(rows, key)
    ensures UniqueKeys(rows + [x], key)
    ensures Ids(rows + [x], key) == Ids(rows, key) + {key(x)}
  {
    var r := rows + [x];
    forall i, j | 0 <= i < j < |r| ensures key(r[i]) != key(r[j]) {
      if j == |rows| {
        assert key(r[i]) in Ids(rows, key);
      }
    }
    forall k | k in Ids(r, key) ensures k in Ids(rows, key) + {key(x)} {
      var i :| 0 <= i < |r| && key(r[i]) == k;
      if i < |rows| { assert key(rows[i]) == k; }
    }
    forall k | k in Ids(rows, key) + {key(x)} ensures k in Ids(r, key) {
      if k == key(x) {
        assert key(r[|rows|]) == k;
      } else {
        var i :| 0 <= i < |rows| && key(rows[i]) == k;
        assert key(r[i]) == k;
      }
    }
  }

  predicate HasUser(db: Db, id: nat) { id in Ids(db.users, UserId) }
  predicate HasDoctor(db: Db, id: nat) { id in Ids(db.doctors, DoctorId) }
  predicate HasDoctorVisit(db: Db, id: nat) { id in Ids(db.doctorVisits, DoctorVisitId) }

  /** Every key of every table is unique. */
  predicate KeysUnique(db: Db) {
    && UniqueKeys(db.users, UserId)
    && UniqueKeys(db.doctors, DoctorId)
    && UniqueKeys(db.doctorVisits, DoctorVisitId)
    && UniqueKeys(db.shopVisits, ShopVisitId)
    && UniqueKeys(db.tasks, TaskId)
  }

  /** Every foreign key names an existing row. */
  predicate ReferencesResolve(db: Db) {
    && (forall i :: 0 <= i < |db.doctors| && db.doctors[i].createdBy.Some? ==>
          HasUser(db, db.doctors[i].createdBy.value))
    && (forall i :: 0 <= i < |db.doctorVisits| ==>
          HasUser(db, db.doctorVisits[i].mr) && HasDoctor(db, db.doctorVisits[i].doctor))
    && (forall i :: 0 <= i < |db.shopVisits| ==> HasUser(db, db.shopVisits[i].mr))
    && (forall i :: 0 <= i < |db.tasks| ==>
          && HasUser(db, db.tasks[i].assignedTo)
          && HasUser(db, db.tasks[i].assignedBy)
          && HasDoctor(db, db.tasks[i].assignedDoctor)
          && (db.tasks[i].visitRecord.Some? ==> HasDoctorVisit(db, db.tasks[i].visitRecord.value)))
  }

  /** `visit_record` is one-to-one: no visit completes two tasks. */
  predicate VisitLinksOneToOne(db: Db) {
    forall i, j :: 0 <= i < j < |db.tasks| && db.tasks[i].visitRecord.Some? ==>
      db.tasks[i].visitRecord != db.tasks[j].visitRecord
  }

  /** The integrity the database maintains. */
  predicate Valid(db: Db) {
    KeysUnique(db) && ReferencesResolve(db) && VisitLinksOneToOne(db)
  }

  /** The row of an existing user. */
  function UserOf(db: Db, id: nat): (u: User)
    requires HasUser(db, id)
    ensures u in db.users && u.id == id
  {
    Lookup(db.users, UserId, id).value
  }

  function DoctorOf(db: Db, id: nat): (d: Doctor)
    requires HasDoctor(db, id)
    ensures d in db.doctors && d.id == id
  {
    Lookup(db.doctors, DoctorId, id).value
  }

  /** A task as the model creates it: not completed and not linked to any visit. */
  function NewTask(id: nat, assignedTo: nat, assignedBy: nat, doctor: nat, assignedDate: Date,
                   dueDate: Date, dueTime: Time, notes: string): (t: Task)
    ensures !t.completed && t.visitRecord.None?
    ensures t.id == id && t.assignedTo == assignedTo && t.assignedBy == assignedBy
    ensures t.assignedDoctor == doctor && t.dueDate == dueDate && t.dueTime == dueTime && t.notes == notes
  {
    Task(id, assignedTo, assignedBy, doctor, assignedDate, dueDate, dueTime, notes, None, false)
  }

  /** `mark_completed`: links the visit and sets the flag; nothing else about the task changes. */
  function MarkCompleted(t: Task, visit: nat): (r: Task)
    ensures r.visitRecord == Some(visit) && r.completed
    ensures r.id == t.id && r.assignedTo == t.assignedTo && r.assignedBy == t.assignedBy
    ensures r.assignedDoctor == t.assignedDoctor && r.assignedDate == t.assignedDate
    ensures r.dueDate == t.dueDate && r.dueTime == t.dueTime && r.notes == t.notes
  {
    t.(visitRecord := Some(visit), completed := true)
  }

  /** Marking a task completed a second time only repoints its link; the last visit wins. */
  lemma MarkCompletedRepoints(t: Task, v1: nat, v2: nat)
    ensures MarkCompleted(MarkCompleted(t, v1), v2) == MarkCompleted(t, v2)
  {
  }

  /** Who sent a request: nobody authenticated, or a signed-in user. */
  datatype Requester = Anonymous | Authed(user: User)

  /**
   * A refusal body: `{"detail": m}`, per-field messages `{"field": [m]}`,
   * or the non-JSON page the server sends for an unhandled exception.
   */
  datatype ErrorBody = Detail(message: string) | FieldErrors(errors: seq<(string, string)>) | ServerError

  /** What a view returns: its value, or a refusal with a status. */
  datatype Reply<+T> = Ok(value: T) | Refused(status: nat, body: ErrorBody)

  const NotAuthenticated: string := "Authentication credentials were not provided."
  const NotPermitted: string := "You do not have permission to perform this action."
  const NotFound: string := "Not found."
  const Required: string := "This field is required."
  const MayNotBeBlank: string := "This field may not be blank."
  const NullCharacters: string := "Null characters are not allowed."
  const NonFieldErrors: string := "non_field_errors"

  function TooLong(n: nat): string {
    "Ensure this field has no more than " + NatToString(n) + " characters."
  }

  function MissingObject(pk: nat): string {
    "Invalid pk \"" + NatToString(pk) + "\" - object does not exist."
  }

  /** The error of a required field, if any. */
  function RequiredError<T>(name: string, v: Option<T>): seq<(string, string)> {
    if v.None? then [(name, Required)] else []
  }

  /** The error of a required primary-key field whose queryset is described by `found`. */
  function RelatedError(name: string, pk: Option<nat>, found: bool): seq<(string, string)> {
    if pk.None? then [(name, Required)]
    else if !found then [(name, MissingObject(pk.value))]
    else []
  }

  /**
   * The validators a text field runs on its trimmed value, in the order
   * the serializer's text field installs them: the length limit (none when
   * `maxLength` is 0), then the refusal of null characters. Every failing
   * validator reports.
   */
  function ValidatorErrors(name: string, s: string, maxLength: nat): (errs: seq<(string, string)>)
    ensures errs == [] <==> (maxLength == 0 || |s| <= maxLength) && '\0' !in s
    ensures forall i :: 0 <= i < |errs| ==> errs[i].0 == name
    ensures (name, TooLong(maxLength)) in errs <==> maxLength > 0 && |s| > maxLength
    ensures (name, NullCharacters) in errs <==> '\0' in s
    ensures |errs| <= 2 && (|errs| == 2 ==> errs[0].1 == TooLong(maxLength))
  {
    assert TooLong(maxLength)[0] == 'E' && NullCharacters[0] == 'N';
    (if maxLength > 0 && |s| > maxLength then [(name, TooLong(maxLength))] else [])
    + (if '\0' in s then [(name, NullCharacters)] else [])
  }

  /**
   * The errors of a required text field after the serializer trims it:
   * missing, blank, or else whichever of its validators fail.
   */
  function TextError(name: string, v: Option<string>, maxLength: nat): (errs: seq<(string, string)>)
    ensures errs == [] <==>
              v.Some? && PyStrip(v.value) != "" && (maxLength == 0 || |PyStrip(v.value)| <= maxLength)
              && '\0' !in PyStrip(v.value)
    ensures v.None? ==> errs == [(name, Required)]
    ensures v.Some? && PyStrip(v.value) == "" ==> errs == [(name, MayNotBeBlank)]
    ensures forall i :: 0 <= i < |errs| ==> errs[i].0 == name
    ensures v.Some? && PyStrip(v.value) != "" ==>
              && ((name, TooLong(maxLength)) in errs <==> maxLength > 0 && |PyStrip(v.value)| > maxLength)
              && ((name, NullCharacters) in errs <==> '\0' in PyStrip(v.value))
  {
    if v.None? then [(name, Required)]
    else if PyStrip(v.value) == "" then [(name, MayNotBeBlank)]
    else ValidatorErrors(name, PyStrip(v.value), maxLength)
  }

  /**
   * The errors of an optional text field that may be blank or null: a
   * blank value is accepted as it is, anything else meets the same
   * validators as a required field.
   */
  function OptionalTextError(name: string, v: Option<string>, maxLength: nat): (errs: seq<(string, string)>)
    ensures errs == [] <==>
              v.None? || ((maxLength == 0 || |PyStrip(v.value)| <= maxLength) && '\0' !in PyStrip(v.value))
    ensures forall i :: 0 <= i < |errs| ==> errs[i].0 == name
    ensures v.Some? ==>
              && ((name, TooLong(maxLength)) in errs <==> maxLength > 0 && |PyStrip(v.value)| > maxLength)
              && ((name, NullCharacters) in errs <==> '\0' in PyStrip(v.value))
  {
    if v.None? || PyStrip(v.value) == "" then [] else ValidatorErrors(name, PyStrip(v.value), maxLength)
  }

  /** The stored value of an optional text field: trimmed when given, null otherwise. */
  function OptionalText(v: Option<string>): Option<string> {
    if v.Some? then Some(PyStrip(v.value)) else None
  }

  /** `IsAuthenticated`: the user behind the request, or 401. */
  function Authenticated(req: Requester): (r: Reply<User>)
    ensures r.Ok? <==> req.Authed?
    ensures r.Ok? ==> r.value == req.user
    ensures r.Refused? ==> r.status == 401
  {
    match req
    case Anonymous => Refused(401, Detail(NotAuthenticated))
    case Authed(u) => Ok(u)
  }

  /** The JSON body of a refusal: a detail message, or each field mapped to the list of its one message. */
  function ErrorJson(b: ErrorBody): (j: Json)
    requires !b.ServerError?
    ensures j.JObj?
    ensures b.Detail? ==> j.fields == map["detail" := JStr(b.message)]
    ensures b.FieldErrors? ==> j.fields.Keys == FieldNames(b.errors)
    ensures b.FieldErrors? ==> forall n :: n in j.fields <==> exists i :: 0 <= i < |b.errors| && b.errors[i].0 == n
  {
    match b
    case Detail(m) => JObj(map["detail" := JStr(m)])
    case FieldErrors(errs) => JObj(FieldMap(errs))
  }

  /** The field names that carry a message. */
  function FieldNames(errs: seq<(string, string)>): (names: set<string>)
    ensures forall i :: 0 <= i < |errs| ==> errs[i].0 in names
    ensures forall n :: n in names ==> exists i :: 0 <= i < |errs| && errs[i].0 == n
    decreases |errs|
  {
    if |errs| == 0 then {}
    else
      var rest := FieldNames(errs[1..]);
      assert forall n :: n in rest ==> exists i :: 0 <= i < |errs| && errs[i].0 == n by {
        forall n | n in rest ensures exists i :: 0 <= i < |errs| && errs[i].0 == n {
          var k :| 0 <= k < |errs[1..]| && errs[1..][k].0 == n;
          assert errs[k + 1].0 == n;
        }
      }
      {errs[0].0} + rest
  }

  /** The test "this error is about field `n`". */
  function OfField(n: string): ((string, string)) -> bool {
    (e: (string, string)) => e.0 == n
  }

  /** The messages reported for field `n`, in the order they were raised. */
  function MessagesOf(errs: seq<(string, string)>, n: string): (r: seq<Json>)
    ensures |r| == |Filter(errs, OfField(n))|
    ensures forall k :: 0 <= k < |r| ==> r[k] == JStr(Filter(errs, OfField(n))[k].1)
  {
    Map(Filter(errs, OfField(n)), (e: (string, string)) => JStr(e.1))
  }

  /** Each failing field mapped to the list of all its messages. */
  function FieldMap(errs: seq<(string, string)>): (m: map<string, Json>)
    ensures m.Keys == FieldNames(errs)
    ensures forall n :: n in m <==> exists i :: 0 <= i < |errs| && errs[i].0 == n
    ensures forall n :: n in m ==> m[n].JArr? && |m[n].items| == |Filter(errs, OfField(n))| > 0
    ensures forall n :: n in m ==> m[n] == JArr(MessagesOf(errs, n))
  {
    var m := map n | n in FieldNames(errs) :: JArr(MessagesOf(errs, n));
    forall n | n in m ensures |Filter(errs, OfField(n))| > 0 {
      var i :| 0 <= i < |errs| && errs[i].0 == n;
      assert errs[i] in Filter(errs, OfField(n));
    }
    m
  }
}

=== FILE: mr_home.dfy ===
/**
 * The MR's home page (frontend/src/pages/mr/MRDashboard.tsx): the role
 * redirect, the greeting, the task and visit lists built from the fetched
 * data, and the complete-task mutation whose position is optional. The
 * clock, the device position and each request's outcome are parameters;
 * data not yet fetched is `None`.
 */
module MRHome {
  import opened Wrappers
  import opened Text
  import opened Roles
  import opened Json
  import opened Session
  import opened Seqs
  import opened Records
  import opened Catalogue
  import opened Models
  import opened Dashboard

  const LoginRoute: string := "/login"
  const AdminHomeRoute: string := "/admin/dashboard"

  /** The mount effect: no stored user goes to the login page, a non-MR to the admin dashboard. */
  function Redirect(user: Option<AuthUser>): (r: Option<string>)
    ensures user.None? ==> r == Some(LoginRoute)
    ensures user.Some? && user.value.role != MR ==> r == Some(AdminHomeRoute)
    ensures r.None? <==> user.Some? && user.value.role == MR
  {
    match user
    case None => Some(LoginRoute)
    case Some(u) => if u.role != MR then Some(AdminHomeRoute) else None
  }

  const Morning: string := "Good Morning"
  const Afternoon: string := "Good Afternoon"
  const Evening: string := "Good Evening"

  /** `getGreeting` for the hour of the day. */
  function Greeting(hour: int): (g: string)
    ensures g == Morning <==> hour < 12
    ensures g == Afternoon <==> 12 <= hour < 17
    ensures g == Evening <==> hour >= 17
  {
    if hour < 12 then Morning else if hour < 17 then Afternoon else Evening
  }

  function GreetingRank(g: string): nat {
    if g == Morning then 0 else if g == Afternoon then 1 else 2
  }

  /** Through the day the greeting only moves forward: morning, afternoon, evening. */
  lemma GreetingMovesForward(h1: int, h2: int)
    requires h1 <= h2
    ensures GreetingRank(Greeting(h1)) <= GreetingRank(Greeting(h2))
  {
  }

  /** `doctorMap`: doctors by id, filled in list order. */
  function DoctorMap(doctors: seq<DoctorEntry>): (m: map<int, DoctorEntry>)
    ensures forall id :: id in m ==> m[id].id == id && m[id] in doctors
  {
    if |doctors| == 0 then map[]
    else
      var last := doctors[|doctors| - 1];
      DoctorMap(doctors[..|doctors| - 1])[last.id := last]
  }

  /** Every listed id is in the map, and where ids repeat the later entry wins. */
  lemma {:induction false} DoctorMapLastWins(doctors: seq<DoctorEntry>, i: nat)
    requires i < |doctors|
    ensures doctors[i].id in DoctorMap(doctors)
    ensures exists j :: i <= j < |doctors| && DoctorMap(doctors)[doctors[i].id] == doctors[j]
  {
    var n := |doctors| - 1;
    if i < n && doctors[i].id != doctors[n].id {
      var init := doctors[..n];
      DoctorMapLastWins(init, i);
      var j :| i <= j < |init| && DoctorMap(init)[init[i].id] == init[j];
      assert DoctorMap(doctors)[doctors[i].id] == doctors[j];
    } else {
      assert DoctorMap(doctors)[doctors[i].id] == doctors[n];
    }
  }

  const UnknownDoctor: string := "Doctor"
  const NoSpecialty: string := "Specialization not set"

  /** A task as the MR's task list shows it. */
  datatype MRTaskView = MRTaskView(
    id: string, doctorName: string, doctorSpecialty: string, date: string, time: string, notes: string, status: string)

  function MRTaskViewOf(doctors: map<int, DoctorEntry>, t: TaskEntry): (v: MRTaskView)
    ensures v.id == IntToString(t.id)
    ensures v.status == CompletedText <==> t.completed
    ensures v.status == PendingText <==> !t.completed
    ensures t.assignedDoctor !in doctors ==> v.doctorName == UnknownDoctor && v.doctorSpecialty == NoSpecialty
    ensures t.assignedDoctor in doctors ==>
              && v.doctorName == OrElse(doctors[t.assignedDoctor].name, UnknownDoctor)
              && v.doctorSpecialty == OrElse(doctors[t.assignedDoctor].specialization, NoSpecialty)
    ensures v.date == t.dueDate && v.time == t.dueTime && v.notes == t.notes
  {
    var name := if t.assignedDoctor in doctors then OrElse(doctors[t.assignedDoctor].name, UnknownDoctor) else UnknownDoctor;
    var specialty :=
      if t.assignedDoctor in doctors then OrElse(doctors[t.assignedDoctor].specialization, NoSpecialty) else NoSpecialty;
    MRTaskView(IntToString(t.id), name, specialty, t.dueDate, t.dueTime, t.notes, StatusText(t.completed))
  }

  /** `assignedTasks`: one view per fetched task, in order; nothing before the tasks arrive. */
  function AssignedTasks(tasks: Option<seq<TaskEntry>>, doctors: Option<seq<DoctorEntry>>): (r: seq<MRTaskView>)
    ensures tasks.None? ==> r == []
    ensures tasks.Some? ==>
              && |r| == |tasks.value|
              && forall i :: 0 <= i < |r| ==> r[i] == MRTaskViewOf(DoctorMap(doctors.GetOr([])), tasks.value[i])
  {
    var m := DoctorMap(doctors.GetOr([]));
    Map(tasks.GetOr([]), (t: TaskEntry) => MRTaskViewOf(m, t))
  }

  /** A task whose doctor is listed, under non-empty names, shows one of the names listed for that id. */
  lemma ListedDoctorIsNamed(tasks: seq<TaskEntry>, doctors: seq<DoctorEntry>, i: nat, k: nat)
    requires i < |tasks| && k < |doctors|
    requires doctors[k].id == tasks[i].assignedDoctor
    requires forall j :: 0 <= j < |doctors| ==> doctors[j].name != ""
    ensures exists j :: 0 <= j < |doctors| && doctors[j].id == tasks[i].assignedDoctor
                        && AssignedTasks(Some(tasks), Some(doctors))[i].doctorName == doctors[j].name
  {
    var m := DoctorMap(doctors);
    DoctorMapLastWins(doctors, k);
    var j :| k <= j < |doctors| && m[doctors[k].id] == doctors[j];
    assert AssignedTasks(Some(tasks), Some(doctors))[i].doctorName == doctors[j].name;
  }

  /** A line of today's visit list. */
  datatype TodayVisit = TodayVisit(id: nat, doctorName: string, time: string, status: string)

  /** `todaysVisits`: numbered 1..n in the order received, every one completed. */
  function TodaysVisits(data: Option<MRDashboardData>): (r: seq<TodayVisit>)
    ensures data.None? ==> r == []
    ensures data.Some? ==> |r| == |data.value.todaysDoctorVisits|
    ensures data.Some? ==> forall i :: 0 <= i < |r| ==>
              r[i] == TodayVisit(i + 1, data.value.todaysDoctorVisits[i].doctor, data.value.todaysDoctorVisits[i].time,
                                 CompletedText)
  {
    var rows := if data.Some? then data.value.todaysDoctorVisits else [];
    var numbered := Numbered(rows);
    seq(|rows|, i requires 0 <= i < |rows| => TodayVisit(numbered[i].0, numbered[i].1.doctor, numbered[i].1.time, CompletedText))
  }

  /**
   * The page's visit list for a signed-in MR has one line per doctor visit
   * they logged today, and the ids run 1..n.
   */
  lemma TodaysVisitsCountTheDay(db: Db, u: User, today: Date)
    requires u.role == MR
    ensures var r := MRDashboard(db, Authed(u), today);
            r.Ok? ==>
              && |TodaysVisits(Some(r.value))| == Count(db.doctorVisits, ByOn(u.id, today))
              && forall i :: 0 <= i < |TodaysVisits(Some(r.value))| ==> TodaysVisits(Some(r.value))[i].id == i + 1
  {
  }

  const NoLocation: string := "NA"
  const ShopIdPrefix: string := "shop-"

  /** A line of today's shop-visit list. */
  datatype ShopLine = ShopLine(id: string, shopName: string, location: string, notes: string, time: string, date: string)

  /** `shopVisits`: ids counted from 0, a missing or empty location shown as "NA", today's date on each. */
  function ShopLines(data: Option<MRDashboardData>, todayIso: string): (r: seq<ShopLine>)
    ensures data.None? ==> r == []
    ensures data.Some? ==> |r| == |data.value.todaysShopVisits|
    ensures data.Some? ==> forall i :: 0 <= i < |r| ==>
              var v := data.value.todaysShopVisits[i];
              && r[i].id == ShopIdPrefix + NatToString(i)
              && r[i].shopName == v.shopName && r[i].notes == v.notes && r[i].time == v.time
              && r[i].location == OptOrElse(v.location, NoLocation)
              && r[i].date == todayIso
  {
    var rows := if data.Some? then data.value.todaysShopVisits else [];
    seq(|rows|, i requires 0 <= i < |rows| =>
      ShopLine(ShopIdPrefix + NatToString(i), rows[i].shopName, OptOrElse(rows[i].location, NoLocation),
               rows[i].notes, rows[i].time, todayIso))
  }

  /** The request the complete mutation sends: the path and the body. */
  datatype CompleteCall = CompleteCall(path: string, body: Json)

  /** `${Number(taskId)}` in the path: NaN is written out. */
  function IdSegment(taskId: string): string {
    match NumberOf(taskId)
    case Some(n) => NatToString(n)
    case None => "NaN"
  }

  /**
   * The complete mutation: the position is attached when the device gives
   * one; when it does not, the request is still sent, without coordinates
   * and without notes.
   */
  function CompleteCallFor(taskId: string, position: Option<Coords>): (c: CompleteCall)
    ensures c.body == CompleteTaskBody(position, None)
    ensures position.None? ==> c.body == JObj(map[])
    ensures NumberOf(taskId).Some? ==> c.path == CompleteTaskPath(NumberOf(taskId).value)
  {
    var body := CompleteTaskBody(position, None);
    assert position.None? ==> body.fields.Keys == {};
    CompleteCall(TasksPath + IdSegment(taskId) + CompleteSuffix, body)
  }

  /** Completing a listed task targets that task, with or without a position. */
  lemma CompletionTargetsTheTask(t: TaskEntry, doctors: map<int, DoctorEntry>, position: Option<Coords>)
    requires t.id >= 0
    ensures CompleteCallFor(MRTaskViewOf(doctors, t).id, position).path == CompleteTaskPath(t.id)
  {
    NumberOfNatToString(t.id);
  }

  const TasksKey: string := "tasks"
  const DashboardKey: string := "mr-dashboard"

  /** The query keys refetched after the mutation settles: both lists on success, none on failure. */
  function Invalidated<T>(outcome: Result<T, string>): (keys: set<string>)
    ensures outcome.Success? ==> keys == {TasksKey, DashboardKey}
    ensures outcome.Failure? ==> keys == {}
  {
    if outcome.Success? then {TasksKey, DashboardKey} else {}
  }
}

=== FILE: punch_visit.dfy ===
/**
 * The MR's punch-visit dialog (frontend/src/components/mr/PunchVisitModal.tsx):
 * a small state machine over the form, the success view and the add-doctor
 * view. The device position, the clock reading and the outcome of each
 * request are parameters; toasts are recorded by their title and text.
 */
module PunchVisit {
  import opened Wrappers
  import opened Text
  import opened Seqs
  import opened Json
  import opened Records
  import opened Catalogue
  import opened Forms

  datatype Stage = FormStage | SuccessStage | AddDoctorStage

  datatype GpsStatus = Acquiring | Acquired | GpsFailed

  datatype SuccessData = SuccessData(doctorName: string, time: string)

  /** The dialog's state variables. */
  datatype Modal = Modal(
    stage: Stage, gps: GpsStatus, coords: Option<Coords>, selected: string, notes: string,
    success: Option<SuccessData>, newName: string, newSpecialty: string, search: string,
    saving: bool, creating: bool)

  const Initial: Modal := Modal(FormStage, Acquiring, None, "", "", None, "", "", "", false, false)

  /** What the browser's geolocation gives: no geolocation at all, a refused or failed request, or a position. */
  datatype Reading = NoGeolocation | ReadingFailed | Position(c: Coords)

  /** The modal after a position request, and the toast it raised. */
  datatype LocateStep = LocateStep(modal: Modal, toast: Option<Toast>)

  const NoGeolocationToast: Toast := Toast("Location unavailable", "GPS not supported. You can still log the visit.")
  const ReadingFailedToast: Toast := Toast("Could not get location", "Please allow location access to attach GPS.")

  /**
   * The position request made while the form is showing: a reading stores
   * the coordinates quietly; either failure marks the status, keeps
   * whatever coordinates were held before and raises its own destructive
   * toast.
   */
  function Locate(m: Modal, reading: Reading): (r: LocateStep)
    ensures reading.Position? ==> r.modal.gps == Acquired && r.modal.coords == Some(reading.c) && r.toast.None?
    ensures !reading.Position? ==> r.modal.gps == GpsFailed && r.modal.coords == m.coords
    ensures reading.NoGeolocation? ==> r.toast == Some(NoGeolocationToast)
    ensures reading.ReadingFailed? ==> r.toast == Some(ReadingFailedToast)
    ensures r.modal.stage == m.stage && r.modal.selected == m.selected && r.modal.notes == m.notes
    ensures r.modal.saving == m.saving && SaveEnabled(r.modal) == !m.saving
  {
    match reading
    case Position(c) => LocateStep(m.(gps := Acquired, coords := Some(c)), None)
    case NoGeolocation => LocateStep(m.(gps := GpsFailed), Some(NoGeolocationToast))
    case ReadingFailed => LocateStep(m.(gps := GpsFailed), Some(ReadingFailedToast))
  }

  /** The save button is disabled while the position is pending or a save is in flight. */
  function SaveEnabled(m: Modal): (b: bool)
    ensures b <==> m.gps != Acquiring && !m.saving
  {
    m.gps != Acquiring && !m.saving
  }

  /** The `createDoctorVisit` body; members whose value is `undefined` are not sent. */
  function VisitBody(m: Modal): (j: Json)
    ensures j.JObj? && "doctor_name" in j.fields && j.fields["doctor_name"] == IdJson(m.selected)
    ensures ("gps_lat" in j.fields <==> m.coords.Some?) && ("gps_long" in j.fields <==> m.coords.Some?)
    ensures m.coords.Some? ==>
              j.fields["gps_lat"] == JNum(m.coords.value.lat) && j.fields["gps_long"] == JNum(m.coords.value.lng)
    ensures "notes" in j.fields <==> m.notes != ""
    ensures m.notes != "" ==> j.fields["notes"] == JStr(m.notes)
    ensures j.fields.Keys <= {"doctor_name", "gps_lat", "gps_long", "notes"}
  {
    var doctor := map["doctor_name" := IdJson(m.selected)];
    var located := if m.coords.Some? then
                     doctor["gps_lat" := JNum(m.coords.value.lat)]["gps_long" := JNum(m.coords.value.lng)]
                   else doctor;
    JObj(if m.notes != "" then located["notes" := JStr(m.notes)] else located)
  }

  const UnnamedDoctor: string := "Doctor"

  function ShownAs(selected: string): DoctorEntry -> bool {
    (d: DoctorEntry) => IntToString(d.id) == selected
  }

  /** The success view's doctor: the listed doctor whose id reads as the selection, else "Doctor". */
  function SavedDoctorName(doctors: seq<DoctorEntry>, selected: string): (s: string)
    ensures FindFirst(doctors, ShownAs(selected)).None? ==> s == UnnamedDoctor
    ensures FindFirst(doctors, ShownAs(selected)).Some? ==>
              s == OrElse(FindFirst(doctors, ShownAs(selected)).value.name, UnnamedDoctor)
    ensures s != ""
  {
    match FindFirst(doctors, ShownAs(selected))
    case None => UnnamedDoctor
    case Some(d) => OrElse(d.name, UnnamedDoctor)
  }

  /** What one press of the save button does. */
  datatype SaveStep = SaveStep(modal: Modal, request: Option<Json>, toast: Option<Toast>, visitLogged: bool)

  const SelectDoctorToast: Toast := Toast("Select a doctor", "Please select a doctor to punch your visit.")

  /** `handleSaveVisit`, given the clock reading and the request's outcome. */
  function SaveVisit(m: Modal, doctors: seq<DoctorEntry>, time: string, outcome: Result<Json, string>)
    : (s: SaveStep)
    ensures m.selected == "" ==> s == SaveStep(m, None, Some(SelectDoctorToast), false)
    ensures m.selected != "" ==> s.request == Some(VisitBody(m)) && !s.modal.saving
    ensures m.selected != "" && outcome.Success? ==>
              && s.visitLogged && s.toast.None?
              && s.modal.stage == SuccessStage
              && s.modal.success == Some(SuccessData(SavedDoctorName(doctors, m.selected), time))
    ensures m.selected != "" && outcome.Failure? ==>
              && !s.visitLogged
              && s.modal == m.(saving := false)
              && s.toast == Some(Toast("Error saving visit", outcome.error))
    ensures s.visitLogged <==> m.selected != "" && outcome.Success?
  {
    if m.selected == "" then SaveStep(m, None, Some(SelectDoctorToast), false)
    else
      var body := VisitBody(m);
      match outcome
      case Success(_) =>
        var data := SuccessData(SavedDoctorName(doctors, m.selected), time);
        SaveStep(m.(stage := SuccessStage, success := Some(data), saving := false), Some(body), None, true)
      case Failure(message) =>
        SaveStep(m.(saving := false), Some(body), Some(Toast("Error saving visit", message)), false)
  }

  /** `String(created?.id || '')`: the new selection after a doctor is added. */
  function CreatedId(created: Json): (s: string)
    ensures TruthyOpt(Field(created, "id")) ==> s == Show(Field(created, "id").value)
    ensures !TruthyOpt(Field(created, "id")) ==> s == ""
  {
    var id := Field(created, "id");
    if TruthyOpt(id) then Show(id.value) else ""
  }

  /** What one press of the add-doctor button does. */
  datatype AddStep = AddStep(modal: Modal, request: Option<Json>, toast: Option<Toast>, doctorCreated: bool)

  const MissingDetailsToast: Toast := Toast("Missing information", "Please fill in all doctor details.")

  /** `handleAddDoctor`, given the request's outcome. */
  function AddDoctor(m: Modal, outcome: Result<Json, string>): (s: AddStep)
    ensures m.newName == "" || m.newSpecialty == "" ==> s == AddStep(m, None, Some(MissingDetailsToast), false)
    ensures m.newName != "" && m.newSpecialty != "" ==>
              s.request == Some(DoctorBody(m.newName, m.newSpecialty)) && !s.modal.creating
    ensures m.newName != "" && m.newSpecialty != "" && outcome.Success? ==>
              && s.doctorCreated
              && s.modal.stage == FormStage
              && s.modal.selected == CreatedId(outcome.value)
              && s.modal.newName == "" && s.modal.newSpecialty == ""
              && s.modal.notes == m.notes && s.modal.coords == m.coords
              && s.toast == Some(Toast("Doctor added", m.newName + " has been added to your list."))
    ensures m.newName != "" && m.newSpecialty != "" && outcome.Failure? ==>
              && !s.doctorCreated
              && s.modal == m.(creating := false)
              && s.toast == Some(Toast("Error adding doctor", outcome.error))
  {
    if m.newName == "" || m.newSpecialty == "" then AddStep(m, None, Some(MissingDetailsToast), false)
    else
      var body := DoctorBody(m.newName, m.newSpecialty);
      match outcome
      case Success(created) =>
        var added := Toast("Doctor added", m.newName + " has been added to your list.");
        AddStep(m.(newName := "", newSpecialty := "", selected := CreatedId(created), stage := FormStage,
                   creating := false),
                Some(body), Some(added), true)
      case Failure(message) =>
        AddStep(m.(creating := false), Some(body), Some(Toast("Error adding doctor", message)), false)
  }

  /** A doctor the server creates with a positive id is the one the next save sends. */
  lemma AddedDoctorIsSaved(m: Modal, created: Json, n: nat, doctors: seq<DoctorEntry>, time: string,
                           outcome: Result<Json, string>)
    requires m.newName != "" && m.newSpecialty != ""
    requires Field(created, "id") == Some(JNum(n)) && n > 0
    ensures var after := AddDoctor(m, Success(created)).modal;
            && SaveVisit(after, doctors, time, outcome).request.Some?
            && SaveVisit(after, doctors, time, outcome).request.value.fields["doctor_name"] == JNum(n)
  {
    var after := AddDoctor(m, Success(created)).modal;
    assert after.selected == NatToString(n);
    IdJsonOfNatToString(n);
  }

  /**
   * `handleClose`: back to the form with the selection, notes, position,
   * success data and new-doctor fields cleared. The search text is kept.
   */
  function Close(m: Modal): (r: Modal)
    ensures r.stage == FormStage && r.gps == Acquiring && r.coords.None? && r.success.None?
    ensures r.selected == "" && r.notes == "" && r.newName == "" && r.newSpecialty == ""
    ensures r.search == m.search && r.saving == m.saving && r.creating == m.creating
  {
    m.(stage := FormStage, selected := "", notes := "", gps := Acquiring, coords := None, success := None,
       newName := "", newSpecialty := "")
  }

  /** Closing returns to the first state apart from the search text and the in-flight flags, and closing twice is closing once. */
  lemma CloseResets(m: Modal)
    ensures Close(m) == Initial.(search := m.search, saving := m.saving, creating := m.creating)
    ensures Close(Close(m)) == Close(m)
  {
  }

  /** The search test: the name or the specialization contains the query, ignoring case. */
  function Matches(query: string): DoctorEntry -> bool {
    (d: DoctorEntry) =>
      Contains(ToLower(d.name), ToLower(query)) || Contains(ToLower(d.specialization), ToLower(query))
  }

  /** `filteredDoctors`: the doctors whose name or specialization contains the query, ignoring case. */
  function FilteredDoctors(doctors: seq<DoctorEntry>, query: string): (r: seq<DoctorEntry>)
    ensures |r| <= |doctors|
    ensures forall d :: d in r <==>
              d in doctors
              && (Contains(ToLower(d.name), ToLower(query)) || Contains(ToLower(d.specialization), ToLower(query)))
    ensures forall d :: multiset(r)[d] == if Matches(query)(d) then multiset(doctors)[d] else 0
  {
    FilterCount(doctors, Matches(query));
    Filter(doctors, Matches(query))
  }

  /**
   * The matches stay in list order: searching a list is searching its parts
   * one after the other, and a single doctor is kept exactly when it
   * matches. Together these fix the result for every list.
   */
  lemma FilteredDoctorsKeepsOrder(a: seq<DoctorEntry>, b: seq<DoctorEntry>, d: DoctorEntry, query: string)
    ensures FilteredDoctors(a + b, query) == FilteredDoctors(a, query) + FilteredDoctors(b, query)
    ensures FilteredDoctors([d], query) == if Matches(query)(d) then [d] else []
  {
    FilterAppend(a, b, Matches(query));
    assert [d][1..] == [];
  }

  /** An empty search lists every doctor, in order. */
  lemma EmptySearchKeepsAll(doctors: seq<DoctorEntry>)
    ensures FilteredDoctors(doctors, "") == doctors
  {
    assert ToLower("") == "";
    forall i | 0 <= i < |doctors| ensures Matches("")(doctors[i]) {
      EmptyIsContained(ToLower(doctors[i].name));
    }
    FilterAll(doctors, Matches(""));
  }

  /** Searching is blind to case: the query and its lower-case form select the same doctors. */
  lemma SearchIgnoresCase(doctors: seq<DoctorEntry>, query: string)
    ensures FilteredDoctors(doctors, ToLower(query)) == FilteredDoctors(doctors, query)
  {
    ToLowerIdempotent(query);
    assert Matches(ToLower(query)) == Matches(query);
  }
}

=== FILE: records.dfy ===
/**
 * The records the client receives from the list endpoints (the element
 * types of `fetchTasks`, `fetchDoctors` and `fetchMRs`), and the
 * JavaScript fallbacks the pages apply to them. Dates and times stay the
 * strings the server sends.
 */
module Records {
  import opened Wrappers
  import opened Seqs
  import opened Text

  datatype TaskEntry = TaskEntry(
    id: int, assignedTo: int, assignedBy: int, assignedDoctor: int,
    assignedDate: string, dueDate: string, dueTime: string, notes: string,
    completed: bool, visitRecord: Option<int>)

  datatype DoctorEntry = DoctorEntry(id: int, name: string, specialization: string)

  /** An MR of the MR list; the name may be null. */
  datatype MREntry = MREntry(id: int, username: string, name: Option<string>)

  /** `a || b` on strings: the empty string is falsy. */
  function OrElse(a: string, b: string): (r: string)
    ensures a != "" ==> r == a
    ensures a == "" ==> r == b
  {
    if a != "" then a else b
  }

  /** `a || b` where `a` may be null or undefined. */
  function OptOrElse(a: Option<string>, b: string): (r: string)
    ensures a.Some? && a.value != "" ==> r == a.value
    ensures a.None? || a.value == "" ==> r == b
  {
    if a.Some? && a.value != "" then a.value else b
  }

  /**
   * `Number(s)` for the forms an id string takes: white space around
   * it is ignored, a blank string is 0 and a run of digits is its value;
   * anything else is not a number.
   */
  function NumberOf(s: string): (r: Option<nat>)
    ensures JsTrim(s) == "" ==> r == Some(0)
    ensures JsTrim(s) != "" ==> r == ParseNat(JsTrim(s))
  {
    var t := JsTrim(s);
    if t == "" then Some(0) else ParseNat(t)
  }

  /** An id written out in decimal reads back as that id. */
  lemma NumberOfNatToString(n: nat)
    ensures NumberOf(NatToString(n)) == Some(n)
  {
    var s := NatToString(n);
    assert !IsSpace(JavaScript, s[0]) && !IsSpace(JavaScript, s[|s| - 1]);
    TrimOfUnpadded(JavaScript, s);
    ParseNatOfNatToString(n);
  }

  function HasId(id: int): DoctorEntry -> bool { (d: DoctorEntry) => d.id == id }
  function HasMRId(id: int): MREntry -> bool { (m: MREntry) => m.id == id }

  /** `doctors.find(d => d.id === id)`. */
  function FindDoctor(doctors: seq<DoctorEntry>, id: int): (r: Option<DoctorEntry>)
    ensures r.Some? ==> r.value in doctors && r.value.id == id
    ensures r.None? <==> forall i :: 0 <= i < |doctors| ==> doctors[i].id != id
    ensures r.Some? ==> exists k :: 0 <= k < |doctors| && doctors[k] == r.value
                                    && forall j :: 0 <= j < k ==> doctors[j].id != id
  {
    FindFirst(doctors, HasId(id))
  }

  /** `mrs.find(m => m.id === id)`. */
  function FindMR(mrs: seq<MREntry>, id: int): (r: Option<MREntry>)
    ensures r.Some? ==> r.value in mrs && r.value.id == id
    ensures r.None? <==> forall i :: 0 <= i < |mrs| ==> mrs[i].id != id
    ensures r.Some? ==> exists k :: 0 <= k < |mrs| && mrs[k] == r.value
                                    && forall j :: 0 <= j < k ==> mrs[j].id != id
  {
    FindFirst(mrs, HasMRId(id))
  }

  const CompletedText: string := "completed"
  const PendingText: string := "pending"

  /** `task.completed ? "completed" : "pending"`. */
  function StatusText(completed: bool): (s: string)
    ensures s == CompletedText <==> completed
    ensures s == PendingText <==> !completed
  {
    if completed then CompletedText else PendingText
  }
}

=== FILE: roles.dfy ===
/** The two user roles (`ROLE_CHOICES` on the server, `AuthUser.role` in the client). */
module Roles {
  import opened Wrappers

  datatype Role = Admin | MR

  /** The wire spelling of a role. */
  function RoleName(r: Role): string {
    match r
    case Admin => "admin"
    case MR => "MR"
  }

  /** Reads a wire role; any other spelling is not a role. */
  function ParseRole(s: string): (r: Option<Role>)
    ensures r.Some? ==> RoleName(r.value) == s
    ensures s == "admin" || s == "MR" ==> r.Some?
  {
    if s == "admin" then Some(Admin) else if s == "MR" then Some(MR) else None
  }

  lemma ParseRoleName(r: Role)
    ensures ParseRole(RoleName(r)) == Some(r)
  {
  }
}

=== FILE: route_map.dfy ===
/**
 * The route map of one MR's day (frontend/src/components/admin/MRRouteMap.tsx):
 * which visits are plotted, the numbered markers, the route line and the
 * caption. The map library is left out; the map is the record of what is
 * handed to it. Today's ISO date is a parameter.
 */
module RouteMap {
  import opened Wrappers
  import opened Text
  import opened Seqs
  import opened Records

  datatype VisitKind = DoctorKind | ShopKind

  /** A visit as the page passes it to the map. */
  datatype MapVisit = MapVisit(
    id: string, lat: Option<int>, lng: Option<int>, time: string, kind: VisitKind, name: string, date: string)

  /** `selectedDate || today`. */
  function DateKey(selectedDate: string, todayIso: string): (k: string)
    ensures selectedDate != "" ==> k == selectedDate
    ensures selectedDate == "" ==> k == todayIso
  {
    OrElse(selectedDate, todayIso)
  }

  /** A coordinate is truthy when present and not zero. */
  predicate TruthyCoord(c: Option<int>) { c.Some? && c.value != 0 }

  function Plottable(dateKey: string): MapVisit -> bool {
    (v: MapVisit) => v.date == dateKey && TruthyCoord(v.lat) && TruthyCoord(v.lng)
  }

  /** `todayVisits`: the visits of the chosen day that have both coordinates, in input order. */
  function PlottedVisits(visits: seq<MapVisit>, selectedDate: string, todayIso: string): (r: seq<MapVisit>)
    ensures |r| <= |visits|
    ensures forall v :: v in r <==>
              v in visits && v.date == DateKey(selectedDate, todayIso) && TruthyCoord(v.lat) && TruthyCoord(v.lng)
  {
    Filter(visits, Plottable(DateKey(selectedDate, todayIso)))
  }

  /** Plotting keeps input order: the plot of a concatenation is the concatenation of the plots, and one visit is plotted exactly when it passes. */
  lemma PlottingKeepsOrder(a: seq<MapVisit>, b: seq<MapVisit>, v: MapVisit, selectedDate: string, todayIso: string)
    ensures PlottedVisits(a + b, selectedDate, todayIso)
            == PlottedVisits(a, selectedDate, todayIso) + PlottedVisits(b, selectedDate, todayIso)
    ensures PlottedVisits([v], selectedDate, todayIso) == if Plottable(DateKey(selectedDate, todayIso))(v) then [v] else []
  {
    FilterAppend(a, b, Plottable(DateKey(selectedDate, todayIso)));
    assert [v][1..] == [];
  }

  const DoctorColor: string := "#3b82f6"
  const ShopColor: string := "#a855f7"

  function KindColor(k: VisitKind): (c: string)
    ensures c == DoctorColor <==> k == DoctorKind
  {
    match k
    case DoctorKind => DoctorColor
    case ShopKind => ShopColor
  }

  /** A marker: the number shown on it, its position and its colour. */
  datatype Marker = Marker(number: nat, lat: int, lng: int, color: string)

  /** What is handed to the map library: the centre, the markers and the route line if any. */
  datatype Route = Route(center: (int, int), markers: seq<Marker>, line: Option<seq<(int, int)>>)

  function MarkerOf(numbered: (nat, MapVisit)): Marker
    requires numbered.1.lat.Some? && numbered.1.lng.Some?
  {
    Marker(numbered.0, numbered.1.lat.value, numbered.1.lng.value, KindColor(numbered.1.kind))
  }

  /**
   * The map effect: nothing when no visit is plotted; otherwise centred on
   * the first plotted visit, one marker per visit numbered from 1, and a
   * line through the markers in order when there are at least two.
   */
  function BuildRoute(visits: seq<MapVisit>, selectedDate: string, todayIso: string): (r: Option<Route>)
    ensures r.None? <==> |PlottedVisits(visits, selectedDate, todayIso)| == 0
    ensures r.Some? ==>
              var plotted := PlottedVisits(visits, selectedDate, todayIso);
              && |r.value.markers| == |plotted|
              && r.value.center == (plotted[0].lat.value, plotted[0].lng.value)
              && (forall i :: 0 <= i < |plotted| ==>
                    && r.value.markers[i].number == i + 1
                    && r.value.markers[i].lat == plotted[i].lat.value
                    && r.value.markers[i].lng == plotted[i].lng.value
                    && (r.value.markers[i].color == DoctorColor <==> plotted[i].kind == DoctorKind))
              && (r.value.line.Some? <==> |plotted| >= 2)
              && (r.value.line.Some? ==> |r.value.line.value| == |plotted|)
              && (r.value.line.Some? ==> forall i :: 0 <= i < |plotted| ==>
                    r.value.line.value[i] == (plotted[i].lat.value, plotted[i].lng.value))
  {
    var plotted := PlottedVisits(visits, selectedDate, todayIso);
    if |plotted| == 0 then None
    else
      assert forall i :: 0 <= i < |plotted| ==> plotted[i] in plotted;
      var numbered := Numbered(plotted);
      var markers := seq(|plotted|, i requires 0 <= i < |plotted| => MarkerOf(numbered[i]));
      var coordinates := seq(|plotted|, i requires 0 <= i < |plotted| => (plotted[i].lat.value, plotted[i].lng.value));
      Some(Route((plotted[0].lat.value, plotted[0].lng.value), markers,
                 if |coordinates| > 1 then Some(coordinates) else None))
  }

  /** The caption above the map. */
  function Caption(visits: seq<MapVisit>, selectedDate: string, todayIso: string): (c: string)
    ensures var n := |PlottedVisits(visits, selectedDate, todayIso)|;
            && (n == 0 ==> c == "No visits recorded for " + selectedDate)
            && (n == 1 ==> c == "1 visit on " + selectedDate)
            && (n > 1 ==> c == NatToString(n) + " visits on " + selectedDate)
  {
    var n := |PlottedVisits(visits, selectedDate, todayIso)|;
    if n > 0 then NatToString(n) + " visit" + (if n != 1 then "s" else "") + " on " + selectedDate
    else "No visits recorded for " + selectedDate
  }
}

=== FILE: seqs.dfy ===
/**
 * Sequence operations the views and pages share: order-preserving filter
 * (`filter`, ORM `.filter`), counting, prefixes (`slice`, `[:n]`), a
 * descending sort on lexicographic integer keys (`order_by("-x", "-y")`,
 * `sort` with `localeCompare`), the elements with the least and greatest
 * key, `find`, and numbering from 1.
 */
module Seqs {
  import opened Wrappers

  /** The elements of `s` satisfying `p`, in their original order. */
  function Filter<T(!new)>(s: seq<T>, p: T -> bool): (r: seq<T>)
    ensures |r| <= |s|
    ensures forall x :: x in r <==> x in s && p(x)
    decreases |s|
  {
    if |s| == 0 then []
    else if p(s[0]) then [s[0]] + Filter(s[1..], p)
    else Filter(s[1..], p)
  }

  /** Filtering distributes over concatenation, so the relative order of kept elements is the input order. */
  lemma {:induction false} FilterAppend<T(!new)>(a: seq<T>, b: seq<T>, p: T -> bool)
    ensures Filter(a + b, p) == Filter(a, p) + Filter(b, p)
    decreases |a|
  {
    if |a| > 0 {
      assert (a + b)[0] == a[0] && (a + b)[1..] == a[1..] + b;
      FilterAppend(a[1..], b, p);
    } else {
      assert a + b == b;
    }
  }

  /** Filtering keeps every occurrence of a kept value and drops every occurrence of the others. */
  lemma {:induction false} FilterCount<T(!new)>(s: seq<T>, p: T -> bool)
    ensures forall x :: multiset(Filter(s, p))[x] == if p(x) then multiset(s)[x] else 0
    decreases |s|
  {
    if |s| > 0 {
      FilterCount(s[1..], p);
      assert s == [s[0]] + s[1..];
      assert multiset(s) == multiset([s[0]]) + multiset(s[1..]);
      if p(s[0]) {
        assert Filter(s, p) == [s[0]] + Filter(s[1..], p);
        assert multiset(Filter(s, p)) == multiset([s[0]]) + multiset(Filter(s[1..], p));
      }
    }
  }

  /** A filter that keeps every element is the identity. */
  lemma {:induction false} FilterAll<T(!new)>(s: seq<T>, p: T -> bool)
    requires forall i :: 0 <= i < |s| ==> p(s[i])
    ensures Filter(s, p) == s
    decreases |s|
  {
    if |s| > 0 {
      FilterAll(s[1..], p);
    }
  }

  /** A filter that keeps no element is empty. */
  lemma {:induction false} FilterNone<T(!new)>(s: seq<T>, p: T -> bool)
    requires forall i :: 0 <= i < |s| ==> !p(s[i])
    ensures Filter(s, p) == []
    decreases |s|
  {
    if |s| > 0 {
      FilterNone(s[1..], p);
    }
  }

  /** No element occurs twice. */
  predicate Distinct<T(==)>(s: seq<T>) {
    forall i, j :: 0 <= i < j < |s| ==> s[i] != s[j]
  }

  /** Filtering keeps distinct elements distinct. */
  lemma {:induction false} FilterDistinct<T(!new)>(s: seq<T>, p: T -> bool)
    requires Distinct(s)
    ensures Distinct(Filter(s, p))
    decreases |s|
  {
    if |s| > 0 {
      FilterDistinct(s[1..], p);
      var rest := Filter(s[1..], p);
      assert forall k :: 0 <= k < |s[1..]| ==> s[1..][k] == s[k + 1];
      assert s[0] !in rest;
      if p(s[0]) {
        var r := [s[0]] + rest;
        forall i, j | 0 <= i < j < |r| ensures r[i] != r[j] {
          if i == 0 {
            assert r[j] == rest[j - 1] && rest[j - 1] in rest;
          } else {
            assert r[i] == rest[i - 1] && r[j] == rest[j - 1];
          }
        }
      }
    }
  }

  /** Number of elements satisfying `p`. */
  function Count<T>(s: seq<T>, p: T -> bool): (n: nat)
    ensures n <= |s|
    ensures n == 0 <==> forall i :: 0 <= i < |s| ==> !p(s[i])
    decreases |s|
  {
    if |s| == 0 then 0 else (if p(s[0]) then 1 else 0) + Count(s[1..], p)
  }

  lemma {:induction false} CountIsFilterLength<T(!new)>(s: seq<T>, p: T -> bool)
    ensures Count(s, p) == |Filter(s, p)|
    decreases |s|
  {
    if |s| > 0 {
      CountIsFilterLength(s[1..], p);
    }
  }

  lemma {:induction false} CountAppend<T>(a: seq<T>, b: seq<T>, p: T -> bool)
    ensures Count(a + b, p) == Count(a, p) + Count(b, p)
    decreases |a|
  {
    if |a| > 0 {
      assert (a + b)[0] == a[0] && (a + b)[1..] == a[1..] + b;
      CountAppend(a[1..], b, p);
    } else {
      assert a + b == b;
    }
  }

  /** Elements satisfying `p` and elements not satisfying it add up to all elements. */
  lemma {:induction false} CountSplit<T>(s: seq<T>, p: T -> bool, q: T -> bool)
    requires forall x :: q(x) == !p(x)
    ensures Count(s, p) + Count(s, q) == |s|
    decreases |s|
  {
    if |s| > 0 {
      CountSplit(s[1..], p, q);
    }
  }

  /** A weaker selection counts at least as many elements. */
  lemma {:induction false} CountMonotone<T>(s: seq<T>, p: T -> bool, q: T -> bool)
    requires forall x :: p(x) ==> q(x)
    ensures Count(s, p) <= Count(s, q)
    decreases |s|
  {
    if |s| > 0 {
      CountMonotone(s[1..], p, q);
    }
  }

  /** The first `n` elements, or all of them when there are fewer. */
  function Take<T>(s: seq<T>, n: nat): (r: seq<T>)
    ensures |r| == if |s| < n then |s| else n
    ensures r == s[..|r|]
  {
    if |s| <= n then s else s[..n]
  }

  /** Lexicographic order on integer sequences: `a` is at most `b`. */
  predicate LexLe(a: seq<int>, b: seq<int>)
    decreases |a|
  {
    |a| == 0 || (|b| > 0 && (a[0] < b[0] || (a[0] == b[0] && LexLe(a[1..], b[1..]))))
  }

  lemma {:induction false} LexTotal(a: seq<int>, b: seq<int>)
    ensures LexLe(a, b) || LexLe(b, a)
    decreases |a|
  {
    if |a| > 0 && |b| > 0 && a[0] == b[0] {
      LexTotal(a[1..], b[1..]);
    }
  }

  lemma {:induction false} LexTransitive(a: seq<int>, b: seq<int>, c: seq<int>)
    requires LexLe(a, b) && LexLe(b, c)
    ensures LexLe(a, c)
    decreases |a|
  {
    if |a| > 0 && a[0] == b[0] && b[0] == c[0] {
      LexTransitive(a[1..], b[1..], c[1..]);
    }
  }

  /** Every adjacent pair is in non-increasing key order. */
  predicate SortedDesc<T>(s: seq<T>, key: T -> seq<int>) {
    forall i :: 0 < i < |s| ==> LexLe(key(s[i]), key(s[i - 1]))
  }

  /** Adjacent order gives order between any two positions. */
  lemma {:induction false} SortedDescPairwise<T>(s: seq<T>, key: T -> seq<int>, i: int, j: int)
    requires SortedDesc(s, key)
    requires 0 <= i <= j < |s|
    ensures LexLe(key(s[j]), key(s[i]))
    decreases j - i
  {
    if i == j {
      LexTotal(key(s[i]), key(s[i]));
    } else {
      SortedDescPairwise(s, key, i, j - 1);
      LexTransitive(key(s[j]), key(s[j - 1]), key(s[i]));
    }
  }

  /** Inserts `x` before the first element whose key is at most its own. */
  function InsertDesc<T>(x: T, s: seq<T>, key: T -> seq<int>): (r: seq<T>)
    requires SortedDesc(s, key)
    ensures SortedDesc(r, key)
    ensures |r| == |s| + 1
    ensures multiset(r) == multiset(s) + multiset{x}
    ensures r[0] == x || (|s| > 0 && r[0] == s[0])
    decreases |s|
  {
    if |s| == 0 then [x]
    else if LexLe(key(s[0]), key(x)) then [x] + s
    else
      LexTotal(key(s[0]), key(x));
      assert s == [s[0]] + s[1..];
      [s[0]] + InsertDesc(x, s[1..], key)
  }

  /** Insertion sort into non-increasing key order; equal keys keep their input order. */
  function SortDesc<T>(s: seq<T>, key: T -> seq<int>): (r: seq<T>)
    ensures SortedDesc(r, key)
    ensures multiset(r) == multiset(s)
    ensures |r| == |s|
    decreases |s|
  {
    if |s| == 0 then []
    else
      assert s == [s[0]] + s[1..];
      InsertDesc(s[0], SortDesc(s[1..], key), key)
  }

  /** Sorting a sequence that is already in order changes nothing. */
  lemma {:induction false} SortDescOfSorted<T>(s: seq<T>, key: T -> seq<int>)
    requires SortedDesc(s, key)
    ensures SortDesc(s, key) == s
    decreases |s|
  {
    if |s| > 0 {
      assert SortedDesc(s[1..], key);
      SortDescOfSorted(s[1..], key);
      if |s| > 1 {
        assert LexLe(key(s[1]), key(s[0]));
      }
      assert [s[0]] + s[1..] == s;
    }
  }

  /** Sorting is idempotent. */
  lemma SortDescIdempotent<T>(s: seq<T>, key: T -> seq<int>)
    ensures SortDesc(SortDesc(s, key), key) == SortDesc(s, key)
  {
    SortDescOfSorted(SortDesc(s, key), key);
  }

  /** Character codes of a string, so that strings sort by code-unit order. */
  function Codes(s: string): (r: seq<int>)
    ensures |r| == |s|
    ensures forall i :: 0 <= i < |s| ==> r[i] == s[i] as int
  {
    seq(|s|, i requires 0 <= i < |s| => s[i] as int)
  }

  /** An element whose key is least; the first such one. */
  function ArgMin<T>(s: seq<T>, key: T -> int): (m: T)
    requires |s| > 0
    ensures m in s
    ensures forall i :: 0 <= i < |s| ==> key(m) <= key(s[i])
    decreases |s|
  {
    if |s| == 1 then s[0]
    else
      var rest := ArgMin(s[1..], key);
      if key(s[0]) <= key(rest) then s[0] else rest
  }

  /** An element whose key is greatest; the first such one. */
  function ArgMax<T>(s: seq<T>, key: T -> int): (m: T)
    requires |s| > 0
    ensures m in s
    ensures forall i :: 0 <= i < |s| ==> key(s[i]) <= key(m)
    decreases |s|
  {
    if |s| == 1 then s[0]
    else
      var rest := ArgMax(s[1..], key);
      if key(s[0]) >= key(rest) then s[0] else rest
  }

  /** On one-element keys the lexicographic order is the integer order. */
  lemma LexLeSingle(a: int, b: int)
    ensures LexLe([a], [b]) <==> a <= b
  {
    assert [a][1..] == [] && [b][1..] == [];
  }

  /** The elements in the opposite order. */
  function Reverse<T>(s: seq<T>): (r: seq<T>)
    ensures |r| == |s|
    ensures forall i :: 0 <= i < |s| ==> r[i] == s[|s| - 1 - i]
  {
    seq(|s|, i requires 0 <= i < |s| => s[|s| - 1 - i])
  }

  /** The elements of `s` mapped by `f`, position by position. */
  function Map<T, U>(s: seq<T>, f: T -> U): (r: seq<U>)
    ensures |r| == |s|
    ensures forall i :: 0 <= i < |s| ==> r[i] == f(s[i])
  {
    seq(|s|, i requires 0 <= i < |s| => f(s[i]))
  }

  /** `find`: the first element satisfying `p`. */
  function FindFirst<T>(s: seq<T>, p: T -> bool): (r: Option<T>)
    ensures r.Some? ==> r.value in s && p(r.value)
    ensures r.None? <==> forall i :: 0 <= i < |s| ==> !p(s[i])
    ensures |s| > 0 && p(s[0]) ==> r == Some(s[0])
    ensures r.Some? ==> exists k :: 0 <= k < |s| && s[k] == r.value && forall j :: 0 <= j < k ==> !p(s[j])
    decreases |s|
  {
    if |s| == 0 then None
    else if p(s[0]) then Some(s[0])
    else
      var r := FindFirst(s[1..], p);
      FirstMatchShifts(s, p, r);
      r
  }

  /** A first match in the tail is a first match in the whole when the head does not match. */
  lemma FirstMatchShifts<T>(s: seq<T>, p: T -> bool, r: Option<T>)
    requires |s| > 0 && !p(s[0])
    requires r.Some? ==> exists k :: 0 <= k < |s| - 1 && s[1..][k] == r.value && forall j :: 0 <= j < k ==> !p(s[1..][j])
    ensures r.Some? ==> exists k :: 0 <= k < |s| && s[k] == r.value && forall j :: 0 <= j < k ==> !p(s[j])
  {
    if r.Some? {
      var k :| 0 <= k < |s| - 1 && s[1..][k] == r.value && forall j :: 0 <= j < k ==> !p(s[1..][j]);
      forall j | 0 <= j < k + 1 ensures !p(s[j]) {
        if j > 0 { assert s[j] == s[1..][j - 1]; }
      }
      assert s[k + 1] == r.value;
    }
  }

  /** Each element paired with its position counted from 1. */
  function Numbered<T>(s: seq<T>): (r: seq<(nat, T)>)
    ensures |r| == |s|
    ensures forall i :: 0 <= i < |s| ==> r[i] == (i + 1, s[i])
  {
    seq(|s|, i requires 0 <= i < |s| => (i + 1, s[i]))
  }

  /** No two positions hold elements with the same key. */
  predicate KeysDistinct<T, K(==)>(s: seq<T>, key: T -> K) {
    forall i, j :: 0 <= i < j < |s| ==> key(s[i]) != key(s[j])
  }

  /** In a sequence without repeats every element occurs at most once. */
  lemma {:induction false} DistinctOccursOnce<T>(s: seq<T>, x: T)
    requires Distinct(s)
    ensures multiset(s)[x] <= 1
    decreases |s|
  {
    if |s| > 0 {
      assert s == [s[0]] + s[1..];
      assert Distinct(s[1..]) by {
        forall i, j | 0 <= i < j < |s[1..]| ensures s[1..][i] != s[1..][j] {
          assert s[1..][i] == s[i + 1] && s[1..][j] == s[j + 1];
        }
      }
      DistinctOccursOnce(s[1..], x);
      if x == s[0] {
        assert x !in s[1..];
      }
    }
  }

  /** An element at two positions occurs at least twice. */
  lemma RepeatOccursTwice<T>(r: seq<T>, i: int, j: int)
    requires 0 <= i < j < |r| && r[i] == r[j]
    ensures multiset(r)[r[i]] >= 2
  {
    assert r == r[..j] + r[j..];
    assert r[..j][i] == r[i];
    assert r[j..][0] == r[j];
    assert multiset(r) == multiset(r[..j]) + multiset(r[j..]);
  }

  /** Rearranging a sequence keeps its keys distinct. */
  lemma KeysDistinctPermutation<T, K>(s: seq<T>, r: seq<T>, key: T -> K)
    requires KeysDistinct(s, key) && multiset(r) == multiset(s)
    ensures KeysDistinct(r, key)
  {
    forall i, j | 0 <= i < j < |r| ensures key(r[i]) != key(r[j]) {
      assert r[i] in multiset(s) && r[j] in multiset(s);
      var a :| 0 <= a < |s| && s[a] == r[i];
      var b :| 0 <= b < |s| && s[b] == r[j];
      if r[i] == r[j] {
        RepeatOccursTwice(r, i, j);
        assert Distinct(s);
        DistinctOccursOnce(s, r[i]);
      }
      assert a != b;
    }
  }
}

=== FILE: session.dfy ===
/**
 * The persisted credential store of the client (frontend/src/lib/api.ts):
 * two keys of the browser's key-value storage, one holding the token pair
 * and one holding the signed-in user. Storage is a map from key to text.
 */
module Session {
  import opened Wrappers
  import opened Text
  import opened Roles
  import Codec

  const TokenKey: string := "mr_tracker_tokens"
  const UserKey: string := "mr_tracker_user"

  /** Message of the error raised when a stored value cannot be parsed. */
  const CorruptSession: string := "stored session value is not valid JSON"

  type Storage = map<string, string>

  datatype AuthTokens = AuthTokens(access: string, refresh: string)

  datatype AuthUser = AuthUser(id: nat, username: string, email: Option<string>, name: string, role: Role)

  function EncodeTokens(t: AuthTokens): (s: string)
    ensures s != ""
  {
    Codec.EncodeFields([t.access, t.refresh])
  }

  function DecodeTokens(s: string): Option<AuthTokens> {
    match Codec.DecodeFields(s)
    case Some(fs) => if |fs| == 2 then Some(AuthTokens(fs[0], fs[1])) else None
    case None => None
  }

  lemma DecodeEncodeTokens(t: AuthTokens)
    ensures DecodeTokens(EncodeTokens(t)) == Some(t)
  {
    Codec.DecodeEncodeFields([t.access, t.refresh]);
  }

  function EncodeEmail(e: Option<string>): string {
    match e
    case None => "-"
    case Some(s) => "+" + s
  }

  /** Reads an encoded e-mail: `Some(None)` is a user without one, `None` a malformed field. */
  function DecodeEmail(s: string): Option<Option<string>> {
    if s == "-" then Some(None)
    else if |s| > 0 && s[0] == '+' then Some(Some(s[1..]))
    else None
  }

  function EncodeUser(u: AuthUser): (s: string)
    ensures s != ""
  {
    Codec.EncodeFields([NatToString(u.id), u.username, EncodeEmail(u.email), u.name, RoleName(u.role)])
  }

  function DecodeUser(s: string): Option<AuthUser> {
    match Codec.DecodeFields(s)
    case None => None
    case Some(fs) =>
      if |fs| != 5 then None
      else
        match (ParseNat(fs[0]), DecodeEmail(fs[2]), ParseRole(fs[4]))
        case (Some(id), Some(email), Some(role)) => Some(AuthUser(id, fs[1], email, fs[3], role))
        case _ => None
  }

  lemma DecodeEncodeUser(u: AuthUser)
    ensures DecodeUser(EncodeUser(u)) == Some(u)
  {
    var fs := [NatToString(u.id), u.username, EncodeEmail(u.email), u.name, RoleName(u.role)];
    Codec.DecodeEncodeFields(fs);
    ParseNatOfNatToString(u.id);
    ParseRoleName(u.role);
    match u.email
    case None =>
    case Some(e) => assert ("+" + e)[1..] == e;
  }

  /**
   * `getStoredTokens`: no token pair when the key is missing or empty; a
   * stored value that does not parse raises an error, as `JSON.parse` does.
   */
  function GetStoredTokens(st: Storage): (r: Result<Option<AuthTokens>, string>)
    ensures TokenKey !in st || st[TokenKey] == "" ==> r == Success(None)
    ensures r.Failure? ==> r.error == CorruptSession
  {
    if TokenKey !in st || st[TokenKey] == "" then Success(None)
    else
      match DecodeTokens(st[TokenKey])
      case Some(t) => Success(Some(t))
      case None => Failure(CorruptSession)
  }

  /** `getStoredUser`, the same reading for the user key. */
  function GetStoredUser(st: Storage): (r: Result<Option<AuthUser>, string>)
    ensures UserKey !in st || st[UserKey] == "" ==> r == Success(None)
    ensures r.Failure? ==> r.error == CorruptSession
  {
    if UserKey !in st || st[UserKey] == "" then Success(None)
    else
      match DecodeUser(st[UserKey])
      case Some(u) => Success(Some(u))
      case None => Failure(CorruptSession)
  }

  /** `clearAuthStorage`: both keys removed, every other key untouched. */
  function ClearAuthStorage(st: Storage): (r: Storage)
    ensures TokenKey !in r && UserKey !in r
    ensures forall k :: k in r <==> k in st && k != TokenKey && k != UserKey
    ensures forall k :: k in r ==> r[k] == st[k]
  {
    st - {TokenKey, UserKey}
  }

  /** The first of the two writes of `storeAuth`. */
  function WriteTokens(st: Storage, t: AuthTokens): (r: Storage)
    ensures GetStoredTokens(r) == Success(Some(t))
    ensures forall k :: k != TokenKey ==> (k in r <==> k in st) && (k in st ==> r[k] == st[k])
  {
    DecodeEncodeTokens(t);
    st[TokenKey := EncodeTokens(t)]
  }

  /** The second of the two writes of `storeAuth`. */
  function WriteUser(st: Storage, u: AuthUser): (r: Storage)
    ensures GetStoredUser(r) == Success(Some(u))
    ensures forall k :: k != UserKey ==> (k in r <==> k in st) && (k in st ==> r[k] == st[k])
  {
    DecodeEncodeUser(u);
    st[UserKey := EncodeUser(u)]
  }

  /** `storeAuth`: the token pair, then the user, each under its own key. */
  function StoreAuth(st: Storage, t: AuthTokens, u: AuthUser): (r: Storage)
    ensures GetStoredTokens(r) == Success(Some(t))
    ensures GetStoredUser(r) == Success(Some(u))
    ensures forall k :: k != TokenKey && k != UserKey ==> (k in r <==> k in st) && (k in st ==> r[k] == st[k])
  {
    WriteUser(WriteTokens(st, t), u)
  }

  /** Each getter reads only its own key, so the two keys are written independently. */
  lemma KeysIndependent(st: Storage, v: string)
    ensures GetStoredTokens(st[UserKey := v]) == GetStoredTokens(st)
    ensures GetStoredUser(st[TokenKey := v]) == GetStoredUser(st)
  {
  }

  /** After clearing, both getters report no session. */
  lemma ClearedHasNoSession(st: Storage)
    ensures GetStoredTokens(ClearAuthStorage(st)) == Success(None)
    ensures GetStoredUser(ClearAuthStorage(st)) == Success(None)
  {
  }

  /** Clearing twice is clearing once. */
  lemma ClearIdempotent(st: Storage)
    ensures ClearAuthStorage(ClearAuthStorage(st)) == ClearAuthStorage(st)
  {
  }

  /** Storing a session and then clearing it leaves storage as clearing alone would. */
  lemma ClearUndoesStore(st: Storage, t: AuthTokens, u: AuthUser)
    ensures ClearAuthStorage(StoreAuth(st, t, u)) == ClearAuthStorage(st)
  {
    var a := ClearAuthStorage(StoreAuth(st, t, u));
    var b := ClearAuthStorage(st);
    assert a.Keys == b.Keys;
  }
}

=== FILE: tasks.dfy ===
/**
 * The doctor-visit task endpoints (tasks/api/views.py and
 * tasks/api/serializers.py): which tasks a user sees, how a task is
 * created and validated, and how an assigned MR completes one, which
 * records a visit and links it to the task.
 */
module Tasks {
  import opened Wrappers
  import opened Text
  import opened Roles
  import opened Seqs
  import opened Models

  const SelfAssignment: string := "You cannot assign a task to yourself."
  const NotYourTask: string := "You cannot complete a task not assigned to you."
  const CompletedMessage: string := "Task completed successfully."

  /** `get_queryset`: an MR sees the tasks assigned to them, every other role sees all tasks. */
  function TaskQueryset(db: Db, u: User): (r: seq<Task>)
    ensures forall t :: t in r <==> t in db.tasks && (u.role == MR ==> t.assignedTo == u.id)
    ensures u.role != MR ==> r == db.tasks
    ensures forall t :: multiset(r)[t] == if u.role != MR || t.assignedTo == u.id then multiset(db.tasks)[t] else 0
  {
    var mine := (t: Task) => t.assignedTo == u.id;
    FilterCount(db.tasks, mine);
    if u.role == MR then Filter(db.tasks, mine) else db.tasks
  }

  /**
   * A create request. The first five fields are the ones the serializer
   * accepts; the last four are what a client may also send for the hidden
   * and read-only fields, which the serializer ignores.
   */
  datatype TaskInput = TaskInput(
    assignedTo: Option<nat>, assignedDoctor: Option<nat>,
    dueDate: Option<Date>, dueTime: Option<Time>, notes: Option<string>,
    assignedBy: Option<nat>, assignedDate: Option<Date>, completed: Option<bool>, visitRecord: Option<nat>)

  /** Two requests that agree on every field the serializer accepts. */
  predicate SameWritableFields(a: TaskInput, b: TaskInput) {
    a.assignedTo == b.assignedTo && a.assignedDoctor == b.assignedDoctor
    && a.dueDate == b.dueDate && a.dueTime == b.dueTime && a.notes == b.notes
  }

  /** `assigned_to` accepts only users whose role is MR. */
  predicate IsMRUser(db: Db, id: nat) {
    HasUser(db, id) && UserOf(db, id).role == MR
  }

  /** Field validation of the task serializer, in field order. */
  function TaskFieldErrors(db: Db, input: TaskInput): (errs: seq<(string, string)>)
    ensures errs == [] <==>
              && input.assignedTo.Some? && IsMRUser(db, input.assignedTo.value)
              && input.assignedDoctor.Some? && HasDoctor(db, input.assignedDoctor.value)
              && input.dueDate.Some? && input.dueTime.Some?
              && (input.notes.None? || '\0' !in PyStrip(input.notes.value))
  {
    RelatedError("assigned_to", input.assignedTo, input.assignedTo.Some? && IsMRUser(db, input.assignedTo.value))
    + RelatedError("assigned_doctor", input.assignedDoctor,
                   input.assignedDoctor.Some? && HasDoctor(db, input.assignedDoctor.value))
    + RequiredError("due_date", input.dueDate)
    + RequiredError("due_time", input.dueTime)
    + OptionalTextError("notes", input.notes, 0)
  }

  /**
   * Task creation: authentication, field validation, then `validate`,
   * then `perform_create`, which sets the assigner to the requester. The
   * new task is neither completed nor linked, and its notes are trimmed as
   * the serializer's text fields are.
   */
  function CreateTask(db: Db, req: Requester, input: TaskInput, today: Date): (r: Reply<(Db, Task)>)
    ensures req.Anonymous? ==> r == Refused(401, Detail(NotAuthenticated))
    ensures req.Authed? && TaskFieldErrors(db, input) != [] ==>
              r == Refused(400, FieldErrors(TaskFieldErrors(db, input)))
    ensures req.Authed? && TaskFieldErrors(db, input) == [] && input.assignedTo.value == req.user.id ==>
              r == Refused(400, FieldErrors([(NonFieldErrors, SelfAssignment)]))
    ensures r.Ok? <==> req.Authed? && TaskFieldErrors(db, input) == [] && input.assignedTo.value != req.user.id
    ensures r.Ok? ==>
              var (db', t) := r.value;
              && db' == db.(tasks := db.tasks + [t])
              && t.id !in Ids(db.tasks, TaskId)
              && t.assignedBy == req.user.id
              && t.assignedTo == input.assignedTo.value && t.assignedDoctor == input.assignedDoctor.value
              && t.dueDate == input.dueDate.value && t.dueTime == input.dueTime.value
              && t.notes == PyStrip(input.notes.GetOr(""))
              && t.assignedDate == today && !t.completed && t.visitRecord.None?
  {
    match Authenticated(req)
    case Refused(s, b) => Refused(s, b)
    case Ok(u) =>
      var errs := TaskFieldErrors(db, input);
      if errs != [] then Refused(400, FieldErrors(errs))
      else if input.assignedTo.value == u.id then Refused(400, FieldErrors([(NonFieldErrors, SelfAssignment)]))
      else
        var t := NewTask(FreshKey(db.tasks, TaskId), input.assignedTo.value, u.id, input.assignedDoctor.value,
                         today, input.dueDate.value, input.dueTime.value, PyStrip(input.notes.GetOr("")));
        Ok((db.(tasks := db.tasks + [t]), t))
  }

  /** Whatever a client sends for the assigner, the date, the flag or the link, the created task is the same. */
  lemma CreateIgnoresReadOnlyFields(db: Db, req: Requester, a: TaskInput, b: TaskInput, today: Date)
    requires SameWritableFields(a, b)
    ensures CreateTask(db, req, a, today) == CreateTask(db, req, b, today)
  {
  }

  /** An admin, whose own row is not an MR, is never refused for assigning to themself. */
  lemma AdminNeverSelfAssigns(db: Db, admin: User, input: TaskInput, today: Date)
    requires KeysUnique(db) && admin in db.users && admin.role == Admin
    ensures CreateTask(db, Authed(admin), input, today).Ok? <==> TaskFieldErrors(db, input) == []
  {
    if TaskFieldErrors(db, input) == [] && input.assignedTo.value == admin.id {
      var i :| 0 <= i < |db.users| && db.users[i] == admin;
      LookupFindsRow(db.users, UserId, i);
      assert false;
    }
  }

  /** Creating a task keeps the database consistent, provided the requester is a stored user. */
  lemma CreatePreservesValid(db: Db, req: Requester, input: TaskInput, today: Date)
    requires Valid(db)
    requires req.Authed? ==> HasUser(db, req.user.id)
    ensures CreateTask(db, req, input, today).Ok? ==> Valid(CreateTask(db, req, input, today).value.0)
  {
    var r := CreateTask(db, req, input, today);
    if r.Ok? {
      var (db', t) := r.value;
      AppendFreshKeepsUnique(db.tasks, TaskId, t);
      assert forall i :: 0 <= i < |db.tasks| ==> db'.tasks[i] == db.tasks[i];
      assert db'.tasks[|db.tasks|] == t;
    }
  }

  /** The fields of `complete`'s request body that it reads. */
  datatype CompleteBody = CompleteBody(gpsLat: Option<int>, gpsLong: Option<int>, notes: Option<string>)

  /** `complete`'s answer: the message and the ids of the task and of the new visit. */
  datatype CompleteReply = CompleteReply(message: string, taskId: nat, visitId: nat)

  /** `get_object`: the task with this id among those the user may see. */
  function VisibleTask(db: Db, u: User, taskId: nat): (r: Option<Task>)
    ensures r.Some? ==> r.value in db.tasks && r.value.id == taskId
    ensures r.Some? && u.role == MR ==> r.value.assignedTo == u.id
    ensures r.Some? <==> exists t :: t in db.tasks && t.id == taskId && (u.role == MR ==> t.assignedTo == u.id)
  {
    Lookup(TaskQueryset(db, u), TaskId, taskId)
  }

  /** The visit `complete` records for a task: by the requester, at the assigned doctor, already completed. */
  function TaskVisit(db: Db, u: User, task: Task, body: CompleteBody, today: Date, now: Time): (v: DoctorVisit)
    ensures v.id !in Ids(db.doctorVisits, DoctorVisitId)
    ensures v.mr == u.id && v.doctor == task.assignedDoctor && v.completed
    ensures v.gpsLat == body.gpsLat && v.gpsLong == body.gpsLong
    ensures v.notes == (if body.notes.Some? then body.notes.value else "")
    ensures v.visitDate == today && v.visitTime == now
  {
    DoctorVisit(FreshKey(db.doctorVisits, DoctorVisitId), u.id, task.assignedDoctor,
                body.gpsLat, body.gpsLong, body.notes.GetOr(""), today, now, true)
  }

  /** The task table with the task of this id marked completed by `visit`. */
  function MarkTaskCompleted(tasks: seq<Task>, taskId: nat, visit: nat): (r: seq<Task>)
    ensures |r| == |tasks|
    ensures forall i :: 0 <= i < |tasks| && tasks[i].id == taskId ==> r[i] == MarkCompleted(tasks[i], visit)
    ensures forall i :: 0 <= i < |tasks| && tasks[i].id != taskId ==> r[i] == tasks[i]
  {
    Map(tasks, (t: Task) => if t.id == taskId then MarkCompleted(t, visit) else t)
  }

  /** The refusals `complete` shares in both its forms, or the task to complete. */
  function CompleteGuard(db: Db, req: Requester, taskId: nat): (r: Reply<(User, Task)>)
    ensures req.Anonymous? ==> r == Refused(401, Detail(NotAuthenticated))
    ensures req.Authed? && VisibleTask(db, req.user, taskId).None? ==> r == Refused(404, Detail(NotFound))
    ensures req.Authed? && VisibleTask(db, req.user, taskId).Some? ==>
              (r.Ok? <==> req.user.id == VisibleTask(db, req.user, taskId).value.assignedTo)
    ensures r.Refused? && req.Authed? && VisibleTask(db, req.user, taskId).Some? ==>
              r == Refused(403, Detail(NotYourTask))
    ensures r.Ok? ==> req.Authed? && r.value == (req.user, VisibleTask(db, req.user, taskId).value)
  {
    match Authenticated(req)
    case Refused(s, b) => Refused(s, b)
    case Ok(u) =>
      match VisibleTask(db, u, taskId)
      case None => Refused(404, Detail(NotFound))
      case Some(task) =>
        if u.id != task.assignedTo then Refused(403, Detail(NotYourTask)) else Ok((u, task))
  }

  /**
   * `complete`, as it evidently means to work: one new visit is recorded
   * and linked to the task, which becomes completed; users, doctors, shop
   * visits and every other task are untouched. Nothing guards against
   * completing a task twice.
   */
  function Complete(db: Db, req: Requester, taskId: nat, body: CompleteBody, today: Date, now: Time)
    : (r: Reply<(Db, CompleteReply)>)
    ensures CompleteGuard(db, req, taskId).Refused? ==>
              r == Refused(CompleteGuard(db, req, taskId).status, CompleteGuard(db, req, taskId).body)
    ensures r.Ok? <==> CompleteGuard(db, req, taskId).Ok?
    ensures r.Ok? ==>
              var (u, task) := CompleteGuard(db, req, taskId).value;
              var v := TaskVisit(db, u, task, body, today, now);
              var (db', reply) := r.value;
              && db'.doctorVisits == db.doctorVisits + [v]
              && db'.tasks == MarkTaskCompleted(db.tasks, taskId, v.id)
              && db'.users == db.users && db'.doctors == db.doctors && db'.shopVisits == db.shopVisits
              && reply == CompleteReply(CompletedMessage, taskId, v.id)
  {
    match CompleteGuard(db, req, taskId)
    case Refused(s, b) => Refused(s, b)
    case Ok((u, task)) =>
      var v := TaskVisit(db, u, task, body, today, now);
      var db' := db.(doctorVisits := db.doctorVisits + [v], tasks := MarkTaskCompleted(db.tasks, taskId, v.id));
      Ok((db', CompleteReply(CompletedMessage, taskId, v.id)))
  }

  /**
   * `complete` as written: the visit is created with a `visit_type`
   * argument the visit model does not have, so the creation raises and
   * the request ends in a server error before anything is saved.
   */
  function CompleteAsWritten(db: Db, req: Requester, taskId: nat, body: CompleteBody, today: Date, now: Time)
    : (r: Reply<(Db, CompleteReply)>)
    ensures r.Refused?
    ensures CompleteGuard(db, req, taskId).Refused? ==>
              r == Refused(CompleteGuard(db, req, taskId).status, CompleteGuard(db, req, taskId).body)
    ensures CompleteGuard(db, req, taskId).Ok? ==> r == Refused(500, ServerError)
  {
    match CompleteGuard(db, req, taskId)
    case Refused(s, b) => Refused(s, b)
    case Ok(_) => Refused(500, ServerError)
  }

  /** Exactly where the corrected `complete` succeeds, the written one fails with a server error. */
  lemma CompleteAsWrittenFailsWhereCorrectSucceeds(db: Db, req: Requester, taskId: nat, body: CompleteBody,
                                                   today: Date, now: Time)
    ensures Complete(db, req, taskId, body, today, now).Ok? <==>
              CompleteAsWritten(db, req, taskId, body, today, now) == Refused(500, ServerError)
    ensures Complete(db, req, taskId, body, today, now).Refused? ==>
              CompleteAsWritten(db, req, taskId, body, today, now) == Complete(db, req, taskId, body, today, now)
  {
  }

  /** A one-task database: an MR (id 1), an admin (id 2), a doctor (id 1) and a task for the MR. */
  function ExampleDb(): Db {
    Db([User(1, "mr", "", "", MR), User(2, "boss", "", "", Admin)],
       [Doctor(1, "Dr. A", "ENT", Some(2))],
       [], [],
       [NewTask(1, 1, 2, 1, 0, 1, 0, "")])
  }

  /** The assigned MR completing the example task: the written form answers 500, the corrected one succeeds. */
  lemma CompleteAsWrittenExample()
    ensures CompleteAsWritten(ExampleDb(), Authed(ExampleDb().users[0]), 1, CompleteBody(None, None, None), 1, 0)
            == Refused(500, ServerError)
    ensures Complete(ExampleDb(), Authed(ExampleDb().users[0]), 1, CompleteBody(None, None, None), 1, 0).Ok?
  {
    var db := ExampleDb();
    LookupFindsRow(TaskQueryset(db, db.users[0]), TaskId, 0);
  }

  /** The guard keeps an MR away from another MR's task with "not found": the 403 is reached only by other roles. */
  lemma OtherMRsTaskIsNotFound(db: Db, u: User, taskId: nat)
    requires u.role == MR
    requires forall t :: t in db.tasks && t.id == taskId ==> t.assignedTo != u.id
    ensures CompleteGuard(db, Authed(u), taskId) == Refused(404, Detail(NotFound))
  {
  }

  /** Marking a task completed changes no key of the task table. */
  lemma MarkTaskCompletedKeepsKeys(tasks: seq<Task>, taskId: nat, visit: nat)
    requires UniqueKeys(tasks, TaskId)
    ensures UniqueKeys(MarkTaskCompleted(tasks, taskId, visit), TaskId)
    ensures Ids(MarkTaskCompleted(tasks, taskId, visit), TaskId) == Ids(tasks, TaskId)
  {
    var r := MarkTaskCompleted(tasks, taskId, visit);
    assert forall i :: 0 <= i < |tasks| ==> r[i].id == tasks[i].id;
    forall k | k in Ids(r, TaskId) ensures k in Ids(tasks, TaskId) {
      var i :| 0 <= i < |r| && TaskId(r[i]) == k;
      assert TaskId(tasks[i]) == k;
    }
    forall k | k in Ids(tasks, TaskId) ensures k in Ids(r, TaskId) {
      var i :| 0 <= i < |tasks| && TaskId(tasks[i]) == k;
      assert TaskId(r[i]) == k;
    }
  }

  /** Linking a visit no task links yet to one task keeps every visit linked from at most one task. */
  lemma MarkTaskCompletedKeepsLinks(db: Db, taskId: nat, visit: nat)
    requires UniqueKeys(db.tasks, TaskId) && VisitLinksOneToOne(db)
    requires forall i :: 0 <= i < |db.tasks| ==> db.tasks[i].visitRecord != Some(visit)
    ensures VisitLinksOneToOne(db.(tasks := MarkTaskCompleted(db.tasks, taskId, visit)))
  {
    var r := MarkTaskCompleted(db.tasks, taskId, visit);
    forall i, j | 0 <= i < j < |r| && r[i].visitRecord.Some?
      ensures r[i].visitRecord != r[j].visitRecord
    {
      assert db.tasks[i].id != db.tasks[j].id;
    }
  }

  /** Marking a task completed with an existing visit keeps every task reference resolving. */
  lemma MarkTaskCompletedKeepsReferences(db: Db, db': Db, taskId: nat, visit: nat)
    requires ReferencesResolve(db)
    requires db'.users == db.users && db'.doctors == db.doctors && db'.shopVisits == db.shopVisits
    requires |db'.doctorVisits| == |db.doctorVisits| + 1
    requires forall i :: 0 <= i < |db.doctorVisits| ==> db'.doctorVisits[i] == db.doctorVisits[i]
    requires HasUser(db, db'.doctorVisits[|db.doctorVisits|].mr)
    requires HasDoctor(db, db'.doctorVisits[|db.doctorVisits|].doctor)
    requires Ids(db'.doctorVisits, DoctorVisitId) == Ids(db.doctorVisits, DoctorVisitId) + {visit}
    requires db'.tasks == MarkTaskCompleted(db.tasks, taskId, visit)
    ensures ReferencesResolve(db')
  {
    forall i | 0 <= i < |db'.tasks|
      ensures db'.tasks[i].visitRecord.Some? ==> HasDoctorVisit(db', db'.tasks[i].visitRecord.value)
    {
      if db.tasks[i].id != taskId {
        assert db.tasks[i].visitRecord.Some? ==> HasDoctorVisit(db, db.tasks[i].visitRecord.value);
      }
    }
    forall i | 0 <= i < |db'.doctorVisits|
      ensures HasUser(db', db'.doctorVisits[i].mr) && HasDoctor(db', db'.doctorVisits[i].doctor)
    {
      if i < |db.doctorVisits| {
        assert HasUser(db, db.doctorVisits[i].mr);
      }
    }
  }

  /** Recording a fresh visit by a stored user at a stored doctor and linking it to a task keeps the database consistent. */
  lemma LinkVisitKeepsValid(db: Db, taskId: nat, v: DoctorVisit)
    requires Valid(db)
    requires v.id !in Ids(db.doctorVisits, DoctorVisitId)
    requires HasUser(db, v.mr) && HasDoctor(db, v.doctor)
    ensures Valid(db.(doctorVisits := db.doctorVisits + [v], tasks := MarkTaskCompleted(db.tasks, taskId, v.id)))
  {
    var db' := db.(doctorVisits := db.doctorVisits + [v], tasks := MarkTaskCompleted(db.tasks, taskId, v.id));
    AppendFreshKeepsUnique(db.doctorVisits, DoctorVisitId, v);
    MarkTaskCompletedKeepsKeys(db.tasks, taskId, v.id);
    assert forall i :: 0 <= i < |db.tasks| ==> db.tasks[i].visitRecord != Some(v.id) by {
      forall i | 0 <= i < |db.tasks| ensures db.tasks[i].visitRecord != Some(v.id) {
        if db.tasks[i].visitRecord.Some? {
          assert HasDoctorVisit(db, db.tasks[i].visitRecord.value);
        }
      }
    }
    MarkTaskCompletedKeepsLinks(db, taskId, v.id);
    MarkTaskCompletedKeepsReferences(db, db', taskId, v.id);
  }

  /** Completing keeps the database consistent, provided the requester is a stored user. */
  lemma CompletePreservesValid(db: Db, req: Requester, taskId: nat, body: CompleteBody, today: Date, now: Time)
    requires Valid(db)
    requires req.Authed? ==> HasUser(db, req.user.id)
    ensures Complete(db, req, taskId, body, today, now).Ok? ==> Valid(Complete(db, req, taskId, body, today, now).value.0)
  {
    var r := Complete(db, req, taskId, body, today, now);
    if r.Ok? {
      var (u, task) := CompleteGuard(db, req, taskId).value;
      var v := TaskVisit(db, u, task, body, today, now);
      assert HasDoctor(db, task.assignedDoctor) by {
        var k :| 0 <= k < |db.tasks| && db.tasks[k] == task;
      }
      LinkVisitKeepsValid(db, taskId, v);
      assert r.value.0 == db.(doctorVisits := db.doctorVisits + [v], tasks := MarkTaskCompleted(db.tasks, taskId, v.id));
    }
  }

  /** The completed task's new row, at the position of the old one. */
  lemma CompletedTaskRow(db: Db, u: User, taskId: nat, body: CompleteBody, today: Date, now: Time)
    returns (i: nat)
    requires Complete(db, Authed(u), taskId, body, today, now).Ok?
    ensures i < |db.tasks| && db.tasks[i] == CompleteGuard(db, Authed(u), taskId).value.1
    ensures Complete(db, Authed(u), taskId, body, today, now).value.0.tasks[i]
            == MarkCompleted(db.tasks[i], Complete(db, Authed(u), taskId, body, today, now).value.1.visitId)
  {
    var task := CompleteGuard(db, Authed(u), taskId).value.1;
    i :| 0 <= i < |db.tasks| && db.tasks[i] == task;
  }

  /** With unique task ids, the assignee of a stored task passes `complete`'s guard for it. */
  lemma AssigneePassesGuard(db: Db, u: User, i: nat)
    requires UniqueKeys(db.tasks, TaskId)
    requires i < |db.tasks| && db.tasks[i].assignedTo == u.id
    ensures CompleteGuard(db, Authed(u), db.tasks[i].id).Ok?
  {
    var taskId := db.tasks[i].id;
    assert VisibleTask(db, u, taskId).Some?;
    var x := VisibleTask(db, u, taskId).value;
    var k :| 0 <= k < |db.tasks| && db.tasks[k] == x;
    assert TaskId(db.tasks[k]) == TaskId(db.tasks[i]);
  }

  /** After a completion the assignee can complete the same task again. */
  lemma CompletedTaskStaysVisible(db: Db, u: User, taskId: nat, body: CompleteBody, today: Date, now: Time)
    requires UniqueKeys(db.tasks, TaskId)
    requires Complete(db, Authed(u), taskId, body, today, now).Ok?
    ensures CompleteGuard(Complete(db, Authed(u), taskId, body, today, now).value.0, Authed(u), taskId).Ok?
  {
    var r := Complete(db, Authed(u), taskId, body, today, now);
    var db1 := r.value.0;
    var i := CompletedTaskRow(db, u, taskId, body, today, now);
    MarkTaskCompletedKeepsKeys(db.tasks, taskId, r.value.1.visitId);
    assert db1.tasks[i].assignedTo == u.id && db1.tasks[i].id == taskId;
    AssigneePassesGuard(db1, u, i);
  }

  /** A task completed twice ends linked to the second visit, which is a new one; both visits remain recorded. */
  lemma CompleteTwiceRepoints(db: Db, u: User, taskId: nat, b1: CompleteBody, b2: CompleteBody,
                              today: Date, t1: Time, t2: Time)
    requires UniqueKeys(db.tasks, TaskId)
    requires Complete(db, Authed(u), taskId, b1, today, t1).Ok?
    ensures var (db1, first) := Complete(db, Authed(u), taskId, b1, today, t1).value;
            var r2 := Complete(db1, Authed(u), taskId, b2, today, t2);
            && r2.Ok?
            && |r2.value.0.doctorVisits| == |db.doctorVisits| + 2
            && r2.value.1.visitId != first.visitId
            && forall i :: 0 <= i < |db.tasks| && db.tasks[i].id == taskId ==>
                 r2.value.0.tasks[i] == MarkCompleted(db.tasks[i], r2.value.1.visitId)
  {
    var (db1, first) := Complete(db, Authed(u), taskId, b1, today, t1).value;
    CompletedTaskStaysVisible(db, u, taskId, b1, today, t1);
    var r2 := Complete(db1, Authed(u), taskId, b2, today, t2);
    var (u2, task2) := CompleteGuard(db1, Authed(u), taskId).value;
    var w := TaskVisit(db1, u2, task2, b2, today, t2);
    assert r2.value.0.doctorVisits == db1.doctorVisits + [w] && r2.value.1.visitId == w.id;
    assert r2.value.0.tasks == MarkTaskCompleted(db1.tasks, taskId, w.id);
    var v2 := w.id;
    assert DoctorVisitId(db1.doctorVisits[|db.doctorVisits|]) == first.visitId;
    forall i | 0 <= i < |db.tasks| && db.tasks[i].id == taskId
      ensures r2.value.0.tasks[i] == MarkCompleted(db.tasks[i], v2)
    {
      MarkCompletedRepoints(db.tasks[i], first.visitId, v2);
    }
  }
}

=== FILE: text.dfy ===
/**
 * String helpers used by both halves of the system: decimal rendering of
 * numbers (`String(n)`, `str(n)`), substring search (`includes`), ASCII
 * lower-casing (`toLowerCase`) and whitespace trimming (`trim`, `strip`).
 */
module Text {
  import opened Wrappers

  predicate IsDigit(c: char) {
    '0' <= c <= '9'
  }

  predicate AllDigits(s: string) {
    forall i :: 0 <= i < |s| ==> IsDigit(s[i])
  }

  function DigitChar(d: nat): (c: char)
    requires d < 10
    ensures IsDigit(c)
    ensures (c as int) - ('0' as int) == d
  {
    (('0' as int) + d) as char
  }

  function DigitValue(c: char): nat
    requires IsDigit(c)
  {
    (c as int) - ('0' as int)
  }

  /** Decimal rendering of a natural number, without leading zeros. */
  function NatToString(n: nat): (s: string)
    ensures |s| > 0 && AllDigits(s)
    ensures |s| > 1 ==> s[0] != '0'
    decreases n
  {
    if n < 10 then [DigitChar(n)] else NatToString(n / 10) + [DigitChar(n % 10)]
  }

  /** Value of a non-empty run of decimal digits. */
  function DigitsValue(s: string): nat
    requires AllDigits(s)
    decreases |s|
  {
    if |s| == 0 then 0 else 10 * DigitsValue(s[..|s| - 1]) + DigitValue(s[|s| - 1])
  }

  lemma {:induction false} DigitsValueOfNatToString(n: nat)
    ensures DigitsValue(NatToString(n)) == n
    decreases n
  {
    var s := NatToString(n);
    if n < 10 {
      assert s[..|s| - 1] == [];
    } else {
      DigitsValueOfNatToString(n / 10);
      assert s[..|s| - 1] == NatToString(n / 10);
    }
  }

  lemma NatToStringInjective(a: nat, b: nat)
    ensures NatToString(a) == NatToString(b) <==> a == b
  {
    if NatToString(a) == NatToString(b) {
      DigitsValueOfNatToString(a);
      DigitsValueOfNatToString(b);
    }
  }

  /** Reads a non-empty run of decimal digits; anything else is not a number. */
  function ParseNat(s: string): (r: Option<nat>)
    ensures r.Some? <==> |s| > 0 && AllDigits(s)
  {
    if |s| > 0 && AllDigits(s) then Some(DigitsValue(s)) else None
  }

  lemma ParseNatOfNatToString(n: nat)
    ensures ParseNat(NatToString(n)) == Some(n)
  {
    DigitsValueOfNatToString(n);
  }

  /** Decimal rendering of an integer, with a leading minus sign when negative. */
  function IntToString(i: int): (s: string)
    ensures |s| > 0
    ensures i >= 0 ==> s == NatToString(i)
    ensures i < 0 ==> s == "-" + NatToString(-i)
  {
    if i < 0 then "-" + NatToString(-i) else NatToString(i)
  }

  predicate StartsWith(s: string, prefix: string) {
    |prefix| <= |s| && s[..|prefix|] == prefix
  }

  /** Substring search, as `String.prototype.includes` and Python's `in`. */
  function Contains(s: string, sub: string): bool
    decreases |s|
  {
    if |sub| > |s| then false
    else if s[..|sub|] == sub then true
    else Contains(s[1..], sub)
  }

  /** `sub` occurs in `s` at position `i`. */
  predicate OccursAt(s: string, sub: string, i: int) {
    0 <= i && i + |sub| <= |s| && s[i..i + |sub|] == sub
  }

  lemma {:induction false} ContainsIffOccurs(s: string, sub: string)
    ensures Contains(s, sub) <==> exists i :: OccursAt(s, sub, i)
    decreases |s|
  {
    if |sub| > |s| {
    } else if s[..|sub|] == sub {
      assert OccursAt(s, sub, 0);
    } else {
      ContainsIffOccurs(s[1..], sub);
      if exists i :: OccursAt(s[1..], sub, i) {
        var i :| OccursAt(s[1..], sub, i);
        assert s[1..][i..i + |sub|] == s[i + 1..i + 1 + |sub|];
        assert OccursAt(s, sub, i + 1);
      }
      if exists i :: OccursAt(s, sub, i) {
        var i :| OccursAt(s, sub, i);
        assert i != 0;
        assert s[1..][i - 1..i - 1 + |sub|] == s[i..i + |sub|];
        assert OccursAt(s[1..], sub, i - 1);
      }
    }
  }

  lemma EmptyIsContained(s: string)
    ensures Contains(s, "")
  {
    assert OccursAt(s, "", 0);
    ContainsIffOccurs(s, "");
  }

  function LowerChar(c: char): (r: char)
    ensures 'A' <= c <= 'Z' ==> r as int == c as int + 32
    ensures !('A' <= c <= 'Z') ==> r == c
  {
    if 'A' <= c <= 'Z' then ((c as int) + 32) as char else c
  }

  /** Lower-casing of the ASCII capitals; every other character is kept. */
  function ToLower(s: string): (r: string)
    ensures |r| == |s|
    ensures forall i :: 0 <= i < |s| ==> r[i] == LowerChar(s[i])
  {
    seq(|s|, i requires 0 <= i < |s| => LowerChar(s[i]))
  }

  lemma ToLowerIdempotent(s: string)
    ensures ToLower(ToLower(s)) == ToLower(s)
  {
  }

  /**
   * The two languages disagree on white space. JavaScript's `trim()` and
   * `Number()` remove the WhiteSpace and LineTerminator characters of
   * ECMAScript: tab, the line and form feeds, carriage return, space,
   * no-break space, the byte-order mark, the space separators and the
   * line and paragraph separators.
   */
  predicate JsSpace(c: char) {
    ('\U{0009}' <= c <= '\U{000D}') || c == ' ' || c == '\U{00A0}' || c == '\U{1680}'
    || ('\U{2000}' <= c <= '\U{200A}') || c == '\U{2028}' || c == '\U{2029}' || c == '\U{202F}'
    || c == '\U{205F}' || c == '\U{3000}' || c == '\U{FEFF}'
  }

  /**
   * Python's `str.strip()` removes the characters `str.isspace()` accepts:
   * the same set without the byte-order mark, and with the four information
   * separators (U+001C to U+001F) and the next-line character U+0085.
   */
  predicate PySpace(c: char) {
    ('\U{0009}' <= c <= '\U{000D}') || ('\U{001C}' <= c <= '\U{001F}') || c == ' ' || c == '\U{0085}'
    || c == '\U{00A0}' || c == '\U{1680}' || ('\U{2000}' <= c <= '\U{200A}') || c == '\U{2028}'
    || c == '\U{2029}' || c == '\U{202F}' || c == '\U{205F}' || c == '\U{3000}'
  }

  /** Whose white space a trim removes. */
  datatype Dialect = JavaScript | Python

  predicate IsSpace(d: Dialect, c: char) {
    match d
    case JavaScript => JsSpace(c)
    case Python => PySpace(c)
  }

  function TrimStart(d: Dialect, s: string): (r: string)
    ensures |r| <= |s| && r == s[|s| - |r|..]
    ensures |r| > 0 ==> !IsSpace(d, r[0])
    ensures forall i :: 0 <= i < |s| - |r| ==> IsSpace(d, s[i])
    decreases |s|
  {
    if |s| > 0 && IsSpace(d, s[0]) then TrimStart(d, s[1..]) else s
  }

  function TrimEnd(d: Dialect, s: string): (r: string)
    ensures |r| <= |s| && r == s[..|r|]
    ensures |r| > 0 ==> !IsSpace(d, r[|r| - 1])
    ensures forall i :: |r| <= i < |s| ==> IsSpace(d, s[i])
    decreases |s|
  {
    if |s| > 0 && IsSpace(d, s[|s| - 1]) then TrimEnd(d, s[..|s| - 1]) else s
  }

  /** Removes leading and trailing white space of the dialect. */
  function Trim(d: Dialect, s: string): string {
    TrimEnd(d, TrimStart(d, s))
  }

  /** `String.prototype.trim`. */
  function JsTrim(s: string): string {
    Trim(JavaScript, s)
  }

  /** `str.strip()` with no argument, as Django REST framework's `CharField` applies it. */
  function PyStrip(s: string): string {
    Trim(Python, s)
  }

  lemma TrimEmptyIffBlank(d: Dialect, s: string)
    ensures Trim(d, s) == "" <==> forall i :: 0 <= i < |s| ==> IsSpace(d, s[i])
  {
    var t := TrimStart(d, s);
    if Trim(d, s) == "" {
      assert |t| == 0;
    } else {
      var r := Trim(d, s);
      assert !IsSpace(d, r[0]);
      assert r[0] == s[|s| - |t|];
    }
  }

  /** Trimming only removes: every character of the result is one of the input's. */
  lemma TrimKeepsOnlyInput(d: Dialect, s: string, c: char)
    requires c in Trim(d, s)
    ensures c in s
  {
    var t := TrimStart(d, s);
    var k :| 0 <= k < |Trim(d, s)| && Trim(d, s)[k] == c;
    assert t[k] == c;
    assert s[|s| - |t| + k] == c;
  }

  /** Trimming removes only white space: a character that is not white space in the dialect survives it. */
  lemma TrimKeepsNonSpace(d: Dialect, s: string, c: char)
    requires c in s && !IsSpace(d, c)
    ensures c in Trim(d, s)
  {
    var t := TrimStart(d, s);
    var k :| 0 <= k < |s| && s[k] == c;
    assert k >= |s| - |t|;
    var j := k - (|s| - |t|);
    assert t[j] == c;
    var u := TrimEnd(d, t);
    assert j < |u|;
    assert u[j] == c;
  }

  lemma TrimIdempotent(d: Dialect, s: string)
    ensures Trim(d, Trim(d, s)) == Trim(d, s)
  {
  }

  /** A string that begins and ends with something other than white space is its own trim. */
  lemma TrimOfUnpadded(d: Dialect, s: string)
    requires |s| > 0 ==> !IsSpace(d, s[0]) && !IsSpace(d, s[|s| - 1])
    ensures Trim(d, s) == s
  {
  }

  /** The characters only Python counts as white space. */
  predicate PyOnlySpace(c: char) {
    ('\U{001C}' <= c <= '\U{001F}') || c == '\U{0085}'
  }

  lemma SpaceSetsDiffer(c: char)
    ensures PySpace(c) && !JsSpace(c) <==> PyOnlySpace(c)
    ensures JsSpace(c) && !PySpace(c) <==> c == '\U{FEFF}'
  {
  }

  /** A single character is trimmed to nothing exactly when it is white space. */
  lemma TrimSingle(d: Dialect, c: char)
    ensures Trim(d, [c]) == if IsSpace(d, c) then "" else [c]
  {
    if IsSpace(d, c) {
      TrimEmptyIffBlank(d, [c]);
    } else {
      TrimOfUnpadded(d, [c]);
    }
  }

  /** Alone, the next-line character U+0085 survives JavaScript's trim and not Python's strip. */
  lemma NextLineSeparates()
    ensures JsTrim("\U{0085}") == "\U{0085}" && PyStrip("\U{0085}") == ""
  {
    TrimSingle(JavaScript, '\U{0085}');
    TrimSingle(Python, '\U{0085}');
  }

  /** Alone, the byte-order mark U+FEFF survives Python's strip and not JavaScript's trim. */
  lemma ByteOrderMarkSeparates()
    ensures JsTrim("\U{FEFF}") == "" && PyStrip("\U{FEFF}") == "\U{FEFF}"
  {
    TrimSingle(JavaScript, '\U{FEFF}');
    TrimSingle(Python, '\U{FEFF}');
  }

  /**
   * A string without the Python-only separators, once trimmed by
   * JavaScript, is left alone by Python's strip.
   */
  lemma {:induction false} StripAfterTrim(s: string)
    requires forall i :: 0 <= i < |s| ==> !PyOnlySpace(s[i])
    ensures PyStrip(JsTrim(s)) == JsTrim(s)
  {
    var a := TrimStart(JavaScript, s);
    var t := TrimEnd(JavaScript, a);
    if |t| > 0 {
      assert t[0] == a[0] == s[|s| - |a|];
      assert t[|t| - 1] == a[|t| - 1] == s[|s| - |a| + |t| - 1];
      SpaceSetsDiffer(t[0]);
      SpaceSetsDiffer(t[|t| - 1]);
    }
    TrimOfUnpadded(Python, t);
  }

  /** Concatenation of `parts` with `sep` between neighbours, as `Array.prototype.join`. */
  function Join(parts: seq<string>, sep: string): string
    decreases |parts|
  {
    if |parts| == 0 then ""
    else if |parts| == 1 then parts[0]
    else parts[0] + sep + Join(parts[1..], sep)
  }
}

=== FILE: tracking.dfy ===
/**
 * The admin's MR tracking page (frontend/src/pages/admin/MRTracking.tsx):
 * the attendance table derived from the dashboard's `mr_tracking` lines,
 * its search and filters, the visit log and the assigned-task list.
 */
module Tracking {
  import opened Wrappers
  import opened Text
  import opened Roles
  import opened Seqs
  import opened Records
  import opened Models
  import opened Dashboard

  const NoTerritory: string := "—"
  const NoPunch: string := "-"
  const Working: string := "Working"
  const Off: string := "Off"
  const All: string := "all"

  /** A line of the attendance table. */
  datatype MRRow = MRRow(
    id: string, name: string, territory: string, status: string, visits: nat, firstPunch: string, lastPunch: string)

  /** `mr.mr_id != null`: absent and null ids both fail. */
  function Identified(t: TrackingRow): bool { t.mrId.Some? }

  /** `String(mr.mr_id)`. */
  function IdText(id: Option<nat>): string {
    match id
    case Some(n) => NatToString(n)
    case None => "undefined"
  }

  /** One tracking line as the table shows it. */
  function RowOf(t: TrackingRow): (row: MRRow)
    ensures t.mrId.Some? ==> row.id == NatToString(t.mrId.value)
    ensures row.name == t.mr && row.visits == t.visitsToday
    ensures row.territory == NoTerritory
    ensures row.status == Working <==> t.visitsToday > 0
    ensures row.status == Off <==> t.visitsToday == 0
    ensures row.firstPunch == (if t.firstPunch.None? || t.firstPunch.value == "" then NoPunch else t.firstPunch.value)
    ensures row.lastPunch == (if t.lastPunch.None? || t.lastPunch.value == "" then NoPunch else t.lastPunch.value)
  {
    MRRow(IdText(t.mrId), t.mr, NoTerritory, if t.visitsToday > 0 then Working else Off, t.visitsToday,
          OptOrElse(t.firstPunch, NoPunch), OptOrElse(t.lastPunch, NoPunch))
  }

  /** `mrData`: the identified lines, in order, as table rows. */
  function MRData(lines: seq<TrackingRow>): (r: seq<MRRow>)
    ensures |r| == Count(lines, Identified) == |Filter(lines, Identified)|
    ensures forall i :: 0 <= i < |r| ==> r[i] == RowOf(Filter(lines, Identified)[i])
    ensures forall i :: 0 <= i < |r| ==> exists t :: t in lines && t.mrId.Some? && r[i] == RowOf(t)
  {
    var kept := Filter(lines, Identified);
    CountIsFilterLength(lines, Identified);
    var r := Map(kept, RowOf);
    assert forall i :: 0 <= i < |r| ==> kept[i] in kept && r[i] == RowOf(kept[i]);
    r
  }

  /** Every identified line has its row. */
  lemma MRDataCovers(lines: seq<TrackingRow>, t: TrackingRow)
    requires t in lines && t.mrId.Some?
    ensures exists i :: 0 <= i < |MRData(lines)| && MRData(lines)[i] == RowOf(t)
  {
    var kept := Filter(lines, Identified);
    assert t in kept;
    var i :| 0 <= i < |kept| && kept[i] == t;
    assert MRData(lines)[i] == RowOf(t);
  }

  /** The three conditions of `filteredMRs`. */
  function Passes(search: string, territory: string, status: string): MRRow -> bool {
    (row: MRRow) =>
      && Contains(ToLower(row.name), ToLower(search))
      && (territory == All || row.territory == territory)
      && (status == All || row.status == status)
  }

  /** `filteredMRs`. */
  function FilteredMRs(rows: seq<MRRow>, search: string, territory: string, status: string): (r: seq<MRRow>)
    ensures |r| <= |rows|
    ensures forall row :: row in r <==>
              && row in rows
              && Contains(ToLower(row.name), ToLower(search))
              && (territory == All || row.territory == territory)
              && (status == All || row.status == status)
    ensures forall row :: multiset(r)[row] == if Passes(search, territory, status)(row) then multiset(rows)[row] else 0
  {
    FilterCount(rows, Passes(search, territory, status));
    Filter(rows, Passes(search, territory, status))
  }

  /**
   * The kept rows stay in table order: filtering a table is filtering its
   * parts one after the other, and a single row is kept exactly when it
   * passes. Together these fix the result for every table.
   */
  lemma FilteredMRsKeepsOrder(a: seq<MRRow>, b: seq<MRRow>, row: MRRow, search: string, territory: string, status: string)
    ensures FilteredMRs(a + b, search, territory, status)
            == FilteredMRs(a, search, territory, status) + FilteredMRs(b, search, territory, status)
    ensures FilteredMRs([row], search, territory, status) == if Passes(search, territory, status)(row) then [row] else []
  {
    FilterAppend(a, b, Passes(search, territory, status));
    assert [row][1..] == [];
  }

  /** With every filter at "all" and an empty search the table is unfiltered. */
  lemma NoFilterKeepsAll(rows: seq<MRRow>)
    ensures FilteredMRs(rows, "", All, All) == rows
  {
    assert ToLower("") == "";
    forall row | row in rows ensures Passes("", All, All)(row) {
      EmptyIsContained(ToLower(row.name));
    }
    FilterAll(rows, Passes("", All, All));
  }

  /** Every row's territory is the dash, so choosing a named territory empties the table. */
  lemma NamedTerritoryShowsNone(lines: seq<TrackingRow>, search: string, territory: string, status: string)
    requires territory != All && territory != NoTerritory
    ensures FilteredMRs(MRData(lines), search, territory, status) == []
  {
    FilterNone(MRData(lines), Passes(search, territory, status));
  }

  /** A status other than the two the rows can have (such as "Leave") empties the table. */
  lemma UnreachableStatusShowsNone(lines: seq<TrackingRow>, search: string, territory: string, status: string)
    requires status != All && status != Working && status != Off
    ensures FilteredMRs(MRData(lines), search, territory, status) == []
  {
    FilterNone(MRData(lines), Passes(search, territory, status));
  }

  /** All lines as the admin dashboard writes them lack the id, so the table is always empty. */
  lemma AsWrittenTrackingShowsNoMRs(db: Db, today: Date)
    ensures MRData(MRTrackingAsWritten(db, today)) == []
  {
  }

  /** With the id sent, the table has a row for each MR user and no other. */
  lemma CorrectedTrackingShowsEveryMR(db: Db, today: Date)
    ensures |MRData(MRTracking(db, today))| == Count(db.users, IsMRRow)
    ensures forall u :: u in db.users && u.role == MR ==>
              exists i :: 0 <= i < |MRData(MRTracking(db, today))|
                          && MRData(MRTracking(db, today))[i] == RowOf(TrackingRowOf(db, u, today))
  {
    var lines := MRTracking(db, today);
    forall k | 0 <= k < |lines| ensures Identified(lines[k]) {
      var u :| u in db.users && u.role == MR && lines[k] == TrackingRowOf(db, u, today);
    }
    CountSplit(lines, Identified, (t: TrackingRow) => !Identified(t));
    forall u | u in db.users && u.role == MR
      ensures exists i :: 0 <= i < |MRData(lines)| && MRData(lines)[i] == RowOf(TrackingRowOf(db, u, today))
    {
      MRTrackingCovers(db, today, u);
      var k :| 0 <= k < |lines| && lines[k] == TrackingRowOf(db, u, today);
      MRDataCovers(lines, lines[k]);
    }
  }

  /** Each row of the corrected table is an MR, shown working exactly when they have doctor visits today. */
  lemma CorrectedTrackingRow(db: Db, today: Date, i: nat)
    requires i < |MRData(MRTracking(db, today))|
    ensures var row := MRData(MRTracking(db, today))[i];
            exists u :: u in db.users && u.role == MR && row == RowOf(TrackingRowOf(db, u, today))
                        && (row.status == Working <==> Count(db.doctorVisits, ByOn(u.id, today)) > 0)
  {
    var lines := MRTracking(db, today);
    var row := MRData(lines)[i];
    var t :| t in lines && t.mrId.Some? && row == RowOf(t);
    var k :| 0 <= k < |lines| && lines[k] == t;
    var u :| u in db.users && u.role == MR && lines[k] == TrackingRowOf(db, u, today);
    assert row.status == Working <==> Count(db.doctorVisits, ByOn(u.id, today)) > 0;
  }

  /** A line of the recent-visit log, numbered from 1. */
  datatype VisitLog = VisitLog(id: nat, time: string, mr: string, doctor: string, notes: string)

  /** `visitLogs`: the recent doctor visits numbered 1..n in the order received. */
  function VisitLogs(recent: seq<VisitRow>): (r: seq<VisitLog>)
    ensures |r| == |recent|
    ensures forall i :: 0 <= i < |r| ==>
              r[i].id == i + 1 && r[i].time == recent[i].time && r[i].mr == recent[i].mr
              && r[i].doctor == recent[i].doctor && r[i].notes == recent[i].notes
    ensures forall i, j :: 0 <= i < j < |r| ==> r[i].id < r[j].id
  {
    var numbered := Numbered(recent);
    seq(|recent|, i requires 0 <= i < |recent| =>
      VisitLog(numbered[i].0, numbered[i].1.time, numbered[i].1.mr, numbered[i].1.doctor, numbered[i].1.notes))
  }

  const UnknownMR: string := "MR"
  const UnknownDoctor: string := "Doctor"
  const UnknownSpecialty: string := "—"

  /** `find(mr)?.name || find(mr)?.username || "MR"`. */
  function MRName(mrs: seq<MREntry>, id: int): (s: string)
    ensures FindMR(mrs, id).None? ==> s == UnknownMR
    ensures FindMR(mrs, id).Some? ==>
              var m := FindMR(mrs, id).value;
              && (m.name.Some? && m.name.value != "" ==> s == m.name.value)
              && (!(m.name.Some? && m.name.value != "") && m.username != "" ==> s == m.username)
              && (!(m.name.Some? && m.name.value != "") && m.username == "" ==> s == UnknownMR)
  {
    match FindMR(mrs, id)
    case None => UnknownMR
    case Some(m) => OptOrElse(m.name, OrElse(m.username, UnknownMR))
  }

  /** `find(doctor)?.name || "Doctor"`. */
  function DoctorName(doctors: seq<DoctorEntry>, id: int): (s: string)
    ensures FindDoctor(doctors, id).Some? && FindDoctor(doctors, id).value.name != "" ==> s == FindDoctor(doctors, id).value.name
    ensures FindDoctor(doctors, id).None? || FindDoctor(doctors, id).value.name == "" ==> s == UnknownDoctor
  {
    match FindDoctor(doctors, id)
    case None => UnknownDoctor
    case Some(d) => OrElse(d.name, UnknownDoctor)
  }

  /** `find(doctor)?.specialization || "—"`. */
  function DoctorSpecialty(doctors: seq<DoctorEntry>, id: int): (s: string)
    ensures FindDoctor(doctors, id).Some? && FindDoctor(doctors, id).value.specialization != "" ==>
              s == FindDoctor(doctors, id).value.specialization
    ensures FindDoctor(doctors, id).None? || FindDoctor(doctors, id).value.specialization == "" ==> s == UnknownSpecialty
  {
    match FindDoctor(doctors, id)
    case None => UnknownSpecialty
    case Some(d) => OrElse(d.specialization, UnknownSpecialty)
  }

  /** A task as the assigned-task table shows it. */
  datatype TaskView = TaskView(
    id: string, mrId: string, mrName: string, doctorName: string, doctorSpecialty: string,
    date: string, time: string, status: string, notes: string, createdAt: string)

  function TaskViewOf(mrs: seq<MREntry>, doctors: seq<DoctorEntry>, t: TaskEntry): (v: TaskView)
    ensures v.status == CompletedText <==> t.completed
    ensures v.status == PendingText <==> !t.completed
    ensures v.date == t.dueDate && v.time == t.dueTime && v.notes == t.notes && v.createdAt == t.assignedDate
  {
    TaskView(IntToString(t.id), IntToString(t.assignedTo), MRName(mrs, t.assignedTo),
             DoctorName(doctors, t.assignedDoctor), DoctorSpecialty(doctors, t.assignedDoctor),
             t.dueDate, t.dueTime, StatusText(t.completed), t.notes, t.assignedDate)
  }

  /** `assignedTasks`: one view per task, in order. */
  function AssignedTaskViews(tasks: seq<TaskEntry>, mrs: seq<MREntry>, doctors: seq<DoctorEntry>): (r: seq<TaskView>)
    ensures |r| == |tasks|
    ensures forall i :: 0 <= i < |r| ==> r[i] == TaskViewOf(mrs, doctors, tasks[i])
  {
    Map(tasks, (t: TaskEntry) => TaskViewOf(mrs, doctors, t))
  }

  function IsPendingView(v: TaskView): bool { v.status == PendingText }
  function IsOpen(t: TaskEntry): bool { !t.completed }

  /** The badge: `assignedTasks.filter(t => t.status === "pending").length`. */
  function PendingCount(views: seq<TaskView>): nat {
    |Filter(views, IsPendingView)|
  }

  /** The pending badge counts exactly the tasks not completed. */
  lemma PendingCountsOpenTasks(tasks: seq<TaskEntry>, mrs: seq<MREntry>, doctors: seq<DoctorEntry>)
    ensures PendingCount(AssignedTaskViews(tasks, mrs, doctors)) == Count(tasks, IsOpen)
  {
    var views := AssignedTaskViews(tasks, mrs, doctors);
    CountIsFilterLength(views, IsPendingView);
    CountOfViews(tasks, mrs, doctors);
  }

  lemma {:induction false} CountOfViews(tasks: seq<TaskEntry>, mrs: seq<MREntry>, doctors: seq<DoctorEntry>)
    ensures Count(AssignedTaskViews(tasks, mrs, doctors), IsPendingView) == Count(tasks, IsOpen)
    decreases |tasks|
  {
    if |tasks| > 0 {
      var views := AssignedTaskViews(tasks, mrs, doctors);
      assert views[1..] == AssignedTaskViews(tasks[1..], mrs, doctors);
      CountOfViews(tasks[1..], mrs, doctors);
    }
  }
}

=== FILE: users.dfy ===
/**
 * The authentication and user endpoints (users/api/views.py): role-gated
 * login, refresh-token logout, the admin-only MR list and the user view
 * set's self-only queryset. Password checking and token signing are the
 * framework's; here an account table and a set of issued refresh tokens
 * stand for them.
 */
module Users {
  import opened Wrappers
  import opened Text
  import opened Roles
  import opened Json
  import opened Seqs
  import opened Models

  const InvalidCredentials: string := "Invalid credentials"
  const NotAnMR: string := "User is not a Medical Representative"
  const NotAnAdmin: string := "User is not an Admin"
  const OnlyAdminsList: string := "Only admins can list MRs."

  /** A stored user with the password that authenticates them and the active flag. */
  datatype Account = Account(user: User, password: string, active: bool)

  /** The first account with this username (usernames are unique). */
  function AccountNamed(accounts: seq<Account>, username: string): (r: Option<Account>)
    ensures r.Some? ==> r.value in accounts && r.value.user.username == username
    ensures r.None? ==> forall i :: 0 <= i < |accounts| ==> accounts[i].user.username != username
    decreases |accounts|
  {
    if |accounts| == 0 then None
    else if accounts[0].user.username == username then Some(accounts[0])
    else AccountNamed(accounts[1..], username)
  }

  /** `authenticate`: the user of the named account, if it is active and the password matches. */
  function Authenticate(accounts: seq<Account>, username: string, password: string): (r: Option<User>)
    ensures r.Some? <==> AccountNamed(accounts, username).Some?
                         && AccountNamed(accounts, username).value.password == password
                         && AccountNamed(accounts, username).value.active
    ensures r.Some? ==> r.value == AccountNamed(accounts, username).value.user && r.value.username == username
  {
    match AccountNamed(accounts, username)
    case None => None
    case Some(a) => if a.password == password && a.active then Some(a.user) else None
  }

  /** The login body: both fields are required, non-blank text without null characters; the serializer trims both. */
  datatype LoginInput = LoginInput(username: Option<string>, password: Option<string>)

  function LoginFieldErrors(input: LoginInput): (errs: seq<(string, string)>)
    ensures errs == [] <==>
              && input.username.Some? && PyStrip(input.username.value) != "" && '\0' !in PyStrip(input.username.value)
              && input.password.Some? && PyStrip(input.password.value) != "" && '\0' !in PyStrip(input.password.value)
  {
    TextError("username", input.username, 0) + TextError("password", input.password, 0)
  }

  /** What a successful login returns: a fresh refresh token, its access token and the user. */
  datatype LoginPayload = LoginPayload(refresh: string, access: string, user: User)

  /** The refusal for an authenticated user of the wrong role. */
  function WrongRole(required: Role): (m: string)
    ensures required == MR ==> m == NotAnMR
    ensures required == Admin ==> m == NotAnAdmin
  {
    match required
    case MR => NotAnMR
    case Admin => NotAnAdmin
  }

  /**
   * `MRLoginView.post` (required role MR) and `AdminLoginView.post`
   * (required role admin): field validation, then the credential check,
   * then the role check. `issued` is the token pair the framework signs
   * for the user.
   */
  function RoleLogin(accounts: seq<Account>, input: LoginInput, required: Role, issued: (string, string))
    : (r: Reply<LoginPayload>)
    ensures LoginFieldErrors(input) != [] ==> r == Refused(400, FieldErrors(LoginFieldErrors(input)))
    ensures LoginFieldErrors(input) == [] ==>
              var found := Authenticate(accounts, PyStrip(input.username.value), PyStrip(input.password.value));
              && (found.None? ==> r == Refused(401, Detail(InvalidCredentials)))
              && (found.Some? && found.value.role != required ==> r == Refused(403, Detail(WrongRole(required))))
              && (r.Ok? <==> found.Some? && found.value.role == required)
              && (r.Ok? ==> r.value == LoginPayload(issued.0, issued.1, found.value))
    ensures r.Ok? ==> r.value.user.role == required
  {
    if LoginFieldErrors(input) != [] then Refused(400, FieldErrors(LoginFieldErrors(input)))
    else
      match Authenticate(accounts, PyStrip(input.username.value), PyStrip(input.password.value))
      case None => Refused(401, Detail(InvalidCredentials))
      case Some(u) =>
        if u.role != required then Refused(403, Detail(WrongRole(required)))
        else Ok(LoginPayload(issued.0, issued.1, u))
  }

  function MRLogin(accounts: seq<Account>, input: LoginInput, issued: (string, string)): Reply<LoginPayload> {
    RoleLogin(accounts, input, MR, issued)
  }

  function AdminLogin(accounts: seq<Account>, input: LoginInput, issued: (string, string)): Reply<LoginPayload> {
    RoleLogin(accounts, input, Admin, issued)
  }

  /** The credential check comes first: a password that fails is a 401 at either endpoint, never a 403. */
  lemma BadPasswordIsNeverForbidden(accounts: seq<Account>, input: LoginInput, required: Role, issued: (string, string))
    requires LoginFieldErrors(input) == []
    requires forall i :: 0 <= i < |accounts| ==> accounts[i].password != PyStrip(input.password.value)
    ensures RoleLogin(accounts, input, required, issued) == Refused(401, Detail(InvalidCredentials))
  {
  }

  /** A given user can sign in at exactly one of the two endpoints. */
  lemma LoginEndpointsExclusive(accounts: seq<Account>, input: LoginInput, issued: (string, string))
    ensures !(MRLogin(accounts, input, issued).Ok? && AdminLogin(accounts, input, issued).Ok?)
    ensures LoginFieldErrors(input) == [] && Authenticate(accounts, PyStrip(input.username.value), PyStrip(input.password.value)).Some? ==>
              MRLogin(accounts, input, issued).Ok? || AdminLogin(accounts, input, issued).Ok?
  {
  }

  /** The user as the user serializer renders it. */
  function UserJson(u: User): (j: Json)
    ensures j.JObj? && j.fields.Keys == {"id", "username", "email", "name", "role"}
    ensures j.fields["id"] == JNum(u.id) && j.fields["role"] == JStr(RoleName(u.role))
  {
    JObj(map["id" := JNum(u.id), "username" := JStr(u.username), "email" := JStr(u.email),
             "name" := JStr(u.name), "role" := JStr(RoleName(u.role))])
  }

  /** The body of a successful login. */
  function LoginJson(p: LoginPayload): (j: Json)
    ensures j.JObj? && j.fields.Keys == {"refresh", "access", "user"}
    ensures j.fields["refresh"] == JStr(p.refresh) && j.fields["access"] == JStr(p.access)
    ensures j.fields["user"] == UserJson(p.user)
  {
    JObj(map["refresh" := JStr(p.refresh), "access" := JStr(p.access), "user" := UserJson(p.user)])
  }

  /** The refresh tokens the server has signed and still accepts, and those blacklisted by a logout. */
  datatype TokenStore = TokenStore(issued: set<string>, blacklisted: set<string>)

  /**
   * `LogoutView.post`: a refresh token that is a signed, unexpired and not
   * yet blacklisted string is blacklisted and the answer is 205; anything
   * else, including a missing field, is a 400 and changes nothing.
   */
  function Logout(store: TokenStore, refresh: Option<Json>): (r: (nat, TokenStore))
    ensures r.0 == 205 || r.0 == 400
    ensures r.0 == 205 <==> refresh.Some? && refresh.value.JStr? && refresh.value.s in store.issued
                            && refresh.value.s !in store.blacklisted
    ensures r.0 == 205 ==> r.1 == store.(blacklisted := store.blacklisted + {refresh.value.s})
    ensures r.0 == 400 ==> r.1 == store
  {
    match refresh
    case Some(JStr(t)) =>
      if t in store.issued && t !in store.blacklisted then (205, store.(blacklisted := store.blacklisted + {t}))
      else (400, store)
    case _ => (400, store)
  }

  /** A refresh token logs out once: the same token a second time is refused. */
  lemma LogoutTwiceRefused(store: TokenStore, token: string)
    requires Logout(store, Some(JStr(token))).0 == 205
    ensures Logout(Logout(store, Some(JStr(token))).1, Some(JStr(token))).0 == 400
  {
  }

  /** An MR as the MR list renders one. */
  datatype MRSummary = MRSummary(id: nat, username: string, name: string)

  function Summary(u: User): MRSummary { MRSummary(u.id, u.username, u.name) }

  /** `MRListView.get`: admins only; every MR user projected to id, username and name, in table order. */
  function MRList(db: Db, req: Requester): (r: Reply<seq<MRSummary>>)
    ensures req.Anonymous? ==> r == Refused(401, Detail(NotAuthenticated))
    ensures req.Authed? && req.user.role != Admin ==> r == Refused(403, Detail(OnlyAdminsList))
    ensures r.Ok? <==> req.Authed? && req.user.role == Admin
    ensures r.Ok? ==> |r.value| == Count(db.users, IsMRRow)
    ensures r.Ok? ==> forall s :: s in r.value <==> exists u :: u in db.users && u.role == MR && s == Summary(u)
  {
    match Authenticated(req)
    case Refused(s, b) => Refused(s, b)
    case Ok(u) =>
      if u.role != Admin then Refused(403, Detail(OnlyAdminsList))
      else
        var mrs := Filter(db.users, IsMRRow);
        CountIsFilterLength(db.users, IsMRRow);
        var rows := Map(mrs, Summary);
        assert forall s :: s in rows <==> exists x :: x in mrs && s == Summary(x) by {
          forall s | s in rows ensures exists x :: x in mrs && s == Summary(x) {
            var i :| 0 <= i < |rows| && rows[i] == s;
            assert mrs[i] in mrs;
          }
          forall s | exists x :: x in mrs && s == Summary(x) ensures s in rows {
            var x :| x in mrs && s == Summary(x);
            var i :| 0 <= i < |mrs| && mrs[i] == x;
            assert rows[i] == s;
          }
        }
        Ok(rows)
  }

  /** `UserViewSet.get_queryset`: the users whose id is the requester's. */
  function UserQueryset(db: Db, u: User): (r: seq<User>)
    ensures forall x :: x in r <==> x in db.users && x.id == u.id
  {
    Filter(db.users, (x: User) => x.id == u.id)
  }

  /** With unique ids, a stored requester sees exactly their own row. */
  lemma UserQuerysetIsSelf(db: Db, u: User)
    requires UniqueKeys(db.users, UserId) && u in db.users
    ensures UserQueryset(db, u) == [u]
  {
    var r := UserQueryset(db, u);
    assert u in r;
    forall i | 0 <= i < |r| ensures r[i] == u {
      assert r[i] in db.users;
      var a :| 0 <= a < |db.users| && db.users[a] == r[i];
      var b :| 0 <= b < |db.users| && db.users[b] == u;
      assert a == b;
    }
    if |r| > 1 {
      assert Distinct(db.users) by {
        forall i, j | 0 <= i < j < |db.users| ensures db.users[i] != db.users[j] {
          assert UserId(db.users[i]) != UserId(db.users[j]);
        }
      }
      assert r[0] == r[1];
      FilterDistinct(db.users, (x: User) => x.id == u.id);
      assert false;
    }
  }
}

=== FILE: visits.dfy ===
/**
 * The doctor and visit endpoints (visits/api/views.py with the models'
 * defaults and ordering): creating a doctor, listing and creating doctor
 * and shop visits. Every endpoint requires authentication; an MR sees only
 * their own visits; lists come newest first.
 */
module Visits {
  import opened Wrappers
  import opened Text
  import opened Roles
  import opened Seqs
  import opened Models

  /** The length limit of the models' short text columns. */
  const MaxTextLength: nat := 255

  /** A doctor create request; `createdBy` is what a client may send, which the serializer does not accept. */
  datatype DoctorInput = DoctorInput(name: Option<string>, specialization: Option<string>, createdBy: Option<nat>)

  function DoctorFieldErrors(input: DoctorInput): (errs: seq<(string, string)>)
    ensures errs == [] <==>
              && input.name.Some? && PyStrip(input.name.value) != "" && |PyStrip(input.name.value)| <= MaxTextLength
              && '\0' !in PyStrip(input.name.value)
              && input.specialization.Some? && PyStrip(input.specialization.value) != ""
              && |PyStrip(input.specialization.value)| <= MaxTextLength && '\0' !in PyStrip(input.specialization.value)
  {
    TextError("name", input.name, MaxTextLength) + TextError("specialization", input.specialization, MaxTextLength)
  }

  /** `DoctorViewSet.perform_create`: the creator is the requester. */
  function CreateDoctor(db: Db, req: Requester, input: DoctorInput): (r: Reply<(Db, Doctor)>)
    ensures req.Anonymous? ==> r == Refused(401, Detail(NotAuthenticated))
    ensures req.Authed? && DoctorFieldErrors(input) != [] ==> r == Refused(400, FieldErrors(DoctorFieldErrors(input)))
    ensures r.Ok? <==> req.Authed? && DoctorFieldErrors(input) == []
    ensures r.Ok? ==>
              var (db', d) := r.value;
              && db' == db.(doctors := db.doctors + [d])
              && d.id !in Ids(db.doctors, DoctorId)
              && d.createdBy == Some(req.user.id)
              && d.name == PyStrip(input.name.value) && d.specialization == PyStrip(input.specialization.value)
  {
    match Authenticated(req)
    case Refused(s, b) => Refused(s, b)
    case Ok(u) =>
      if DoctorFieldErrors(input) != [] then Refused(400, FieldErrors(DoctorFieldErrors(input)))
      else
        var d := Doctor(FreshKey(db.doctors, DoctorId), PyStrip(input.name.value), PyStrip(input.specialization.value), Some(u.id));
        Ok((db.(doctors := db.doctors + [d]), d))
  }

  /** Names the server's strip leaves as they are, non-empty, short enough and free of null characters are stored as sent. */
  lemma StrippedDoctorIsCreated(db: Db, req: Requester, name: string, specialty: string)
    requires req.Authed?
    requires PyStrip(name) == name && PyStrip(specialty) == specialty && name != "" && specialty != ""
    requires |name| <= MaxTextLength && |specialty| <= MaxTextLength
    requires '\0' !in name && '\0' !in specialty
    ensures var r := CreateDoctor(db, req, DoctorInput(Some(name), Some(specialty), None));
            r.Ok? && r.value.1.name == name && r.value.1.specialization == specialty
  {
    assert DoctorFieldErrors(DoctorInput(Some(name), Some(specialty), None)) == [];
  }

  /** A name holding a null character, wherever it sits, is refused with that message for the name. */
  lemma NullCharacterNameIsRefused(db: Db, req: Requester, name: string, specialty: Option<string>)
    requires req.Authed? && '\0' in name
    ensures var errs := DoctorFieldErrors(DoctorInput(Some(name), specialty, None));
            && CreateDoctor(db, req, DoctorInput(Some(name), specialty, None)) == Refused(400, FieldErrors(errs))
            && ("name", NullCharacters) in errs
  {
    TrimKeepsNonSpace(Python, name, '\0');
    var nameErrs := TextError("name", Some(name), MaxTextLength);
    assert PyStrip(name) != "";
    assert ("name", NullCharacters) in nameErrs;
  }

  /** The creator a client sends makes no difference. */
  lemma CreateDoctorIgnoresCreator(db: Db, req: Requester, a: DoctorInput, b: DoctorInput)
    requires a.name == b.name && a.specialization == b.specialization
    ensures CreateDoctor(db, req, a) == CreateDoctor(db, req, b)
  {
  }

  /** Adding a doctor with a fresh key whose creator, if any, is a stored user keeps the database consistent. */
  lemma AddDoctorKeepsValid(db: Db, d: Doctor)
    requires Valid(db)
    requires d.id !in Ids(db.doctors, DoctorId)
    requires d.createdBy.Some? ==> HasUser(db, d.createdBy.value)
    ensures Valid(db.(doctors := db.doctors + [d]))
  {
    var db' := db.(doctors := db.doctors + [d]);
    AppendFreshKeepsUnique(db.doctors, DoctorId, d);
    assert forall i :: 0 <= i < |db.doctors| ==> db'.doctors[i] == db.doctors[i];
    assert db'.doctors[|db.doctors|] == d;
  }

  /** Creating a doctor keeps the database consistent, provided the requester is a stored user. */
  lemma CreateDoctorPreservesValid(db: Db, req: Requester, input: DoctorInput)
    requires Valid(db)
    requires req.Authed? ==> HasUser(db, req.user.id)
    ensures CreateDoctor(db, req, input).Ok? ==> Valid(CreateDoctor(db, req, input).value.0)
  {
    var r := CreateDoctor(db, req, input);
    if r.Ok? {
      var (db', d) := r.value;
      AddDoctorKeepsValid(db, d);
    }
  }

  /** The ordering key of both visit kinds: date, then time, compared lexicographically. */
  function DoctorVisitKey(v: DoctorVisit): seq<int> { [v.visitDate, v.visitTime] }
  function ShopVisitKey(v: ShopVisit): seq<int> { [v.visitDate, v.visitTime] }

  /** On two-element keys the lexicographic order is "earlier date, or same date and no later time". */
  lemma LexLePair(a: int, b: int, c: int, d: int)
    ensures LexLe([a, b], [c, d]) <==> a < c || (a == c && b <= d)
  {
    assert [a, b][1..] == [b] && [c, d][1..] == [d];
    assert [b][1..] == [] && [d][1..] == [];
    assert LexLe([b], [d]) <==> b < d || (b == d && LexLe([b][1..], [d][1..]));
  }

  /** `DoctorVisitViewSet.get_queryset` under the model's default ordering, newest first. */
  function DoctorVisitQueryset(db: Db, u: User): (r: seq<DoctorVisit>)
    ensures forall v :: v in r <==> v in db.doctorVisits && (u.role == MR ==> v.mr == u.id)
    ensures SortedDesc(r, DoctorVisitKey)
    ensures u.role != MR ==> multiset(r) == multiset(db.doctorVisits)
    ensures forall v :: multiset(r)[v] == if u.role != MR || v.mr == u.id then multiset(db.doctorVisits)[v] else 0
  {
    var mine := (v: DoctorVisit) => v.mr == u.id;
    FilterCount(db.doctorVisits, mine);
    var scoped := if u.role == MR then Filter(db.doctorVisits, mine) else db.doctorVisits;
    var r := SortDesc(scoped, DoctorVisitKey);
    assert forall v :: v in r <==> v in multiset(scoped);
    r
  }

  /** `ShopVisitViewSet.get_queryset` under the model's default ordering, newest first. */
  function ShopVisitQueryset(db: Db, u: User): (r: seq<ShopVisit>)
    ensures forall v :: v in r <==> v in db.shopVisits && (u.role == MR ==> v.mr == u.id)
    ensures SortedDesc(r, ShopVisitKey)
    ensures u.role != MR ==> multiset(r) == multiset(db.shopVisits)
    ensures forall v :: multiset(r)[v] == if u.role != MR || v.mr == u.id then multiset(db.shopVisits)[v] else 0
  {
    var mine := (v: ShopVisit) => v.mr == u.id;
    FilterCount(db.shopVisits, mine);
    var scoped := if u.role == MR then Filter(db.shopVisits, mine) else db.shopVisits;
    var r := SortDesc(scoped, ShopVisitKey);
    assert forall v :: v in r <==> v in multiset(scoped);
    r
  }

  /** A listed visit comes before every visit of an earlier date, and of the same date and an earlier time. */
  lemma DoctorVisitsNewestFirst(db: Db, u: User, i: nat, j: nat)
    requires i <= j < |DoctorVisitQueryset(db, u)|
    ensures var r := DoctorVisitQueryset(db, u);
            r[j].visitDate < r[i].visitDate || (r[j].visitDate == r[i].visitDate && r[j].visitTime <= r[i].visitTime)
  {
    var r := DoctorVisitQueryset(db, u);
    SortedDescPairwise(r, DoctorVisitKey, i, j);
    LexLePair(r[j].visitDate, r[j].visitTime, r[i].visitDate, r[i].visitTime);
  }

  lemma ShopVisitsNewestFirst(db: Db, u: User, i: nat, j: nat)
    requires i <= j < |ShopVisitQueryset(db, u)|
    ensures var r := ShopVisitQueryset(db, u);
            r[j].visitDate < r[i].visitDate || (r[j].visitDate == r[i].visitDate && r[j].visitTime <= r[i].visitTime)
  {
    var r := ShopVisitQueryset(db, u);
    SortedDescPairwise(r, ShopVisitKey, i, j);
    LexLePair(r[j].visitDate, r[j].visitTime, r[i].visitDate, r[i].visitTime);
  }

  /**
   * A doctor visit create request. `mr`, `visitDate` and `visitTime` are
   * what a client may send for the hidden and read-only fields.
   */
  datatype DoctorVisitInput = DoctorVisitInput(
    doctor: Option<nat>, gpsLat: Option<int>, gpsLong: Option<int>, notes: Option<string>, completed: Option<bool>,
    mr: Option<nat>, visitDate: Option<Date>, visitTime: Option<Time>)

  /** Field validation of the doctor visit serializer, in field order: a stored doctor, and notes without null characters. */
  function DoctorVisitFieldErrors(db: Db, input: DoctorVisitInput): (errs: seq<(string, string)>)
    ensures errs == [] <==>
              && input.doctor.Some? && HasDoctor(db, input.doctor.value)
              && (input.notes.None? || '\0' !in PyStrip(input.notes.value))
  {
    RelatedError("doctor_name", input.doctor, input.doctor.Some? && HasDoctor(db, input.doctor.value))
    + OptionalTextError("notes", input.notes, 0)
  }

  /**
   * `DoctorVisitViewSet.perform_create`: the visit belongs to the
   * requester and is stamped with the current date and time; `completed`
   * is false unless the client says otherwise.
   */
  function CreateDoctorVisit(db: Db, req: Requester, input: DoctorVisitInput, today: Date, now: Time)
    : (r: Reply<(Db, DoctorVisit)>)
    ensures req.Anonymous? ==> r == Refused(401, Detail(NotAuthenticated))
    ensures r.Ok? <==> req.Authed? && DoctorVisitFieldErrors(db, input) == []
    ensures req.Authed? && !r.Ok? ==> r == Refused(400, FieldErrors(DoctorVisitFieldErrors(db, input)))
    ensures r.Ok? ==>
              var (db', v) := r.value;
              && db' == db.(doctorVisits := db.doctorVisits + [v])
              && v.id !in Ids(db.doctorVisits, DoctorVisitId)
              && v.mr == req.user.id && v.doctor == input.doctor.value
              && v.gpsLat == input.gpsLat && v.gpsLong == input.gpsLong
              && v.notes == PyStrip(input.notes.GetOr(""))
              && v.visitDate == today && v.visitTime == now
              && v.completed == (input.completed == Some(true))
  {
    match Authenticated(req)
    case Refused(s, b) => Refused(s, b)
    case Ok(u) =>
      var errs := DoctorVisitFieldErrors(db, input);
      if errs != [] then Refused(400, FieldErrors(errs))
      else
        var v := DoctorVisit(FreshKey(db.doctorVisits, DoctorVisitId), u.id, input.doctor.value,
                             input.gpsLat, input.gpsLong, PyStrip(input.notes.GetOr("")), today, now,
                             input.completed.GetOr(false));
        Ok((db.(doctorVisits := db.doctorVisits + [v]), v))
  }

  /** The owner, date and time a client sends make no difference. */
  lemma CreateDoctorVisitIgnoresClientStamp(db: Db, req: Requester, a: DoctorVisitInput, b: DoctorVisitInput,
                                            today: Date, now: Time)
    requires a.(mr := b.mr, visitDate := b.visitDate, visitTime := b.visitTime) == b
    ensures CreateDoctorVisit(db, req, a, today, now) == CreateDoctorVisit(db, req, b, today, now)
  {
  }

  /** Recording a doctor visit keeps the database consistent, provided the requester is a stored user. */
  lemma CreateDoctorVisitPreservesValid(db: Db, req: Requester, input: DoctorVisitInput, today: Date, now: Time)
    requires Valid(db)
    requires req.Authed? ==> HasUser(db, req.user.id)
    ensures CreateDoctorVisit(db, req, input, today, now).Ok? ==>
              Valid(CreateDoctorVisit(db, req, input, today, now).value.0)
  {
    var r := CreateDoctorVisit(db, req, input, today, now);
    if r.Ok? {
      var (db', v) := r.value;
      AppendFreshKeepsUnique(db.doctorVisits, DoctorVisitId, v);
      assert forall i :: 0 <= i < |db.doctorVisits| ==> db'.doctorVisits[i] == db.doctorVisits[i];
      assert db'.doctorVisits[|db.doctorVisits|] == v;
    }
  }

  /** A shop visit create request, with the client-sent hidden and read-only fields last. */
  datatype ShopVisitInput = ShopVisitInput(
    shopName: Option<string>, location: Option<string>, contactPerson: Option<string>,
    notes: Option<string>, completed: Option<bool>,
    mr: Option<nat>, visitDate: Option<Date>, visitTime: Option<Time>)

  function ShopFieldErrors(input: ShopVisitInput): (errs: seq<(string, string)>)
    ensures errs == [] <==>
              && input.shopName.Some? && PyStrip(input.shopName.value) != "" && |PyStrip(input.shopName.value)| <= MaxTextLength
              && '\0' !in PyStrip(input.shopName.value)
              && (input.location.None? || (|PyStrip(input.location.value)| <= MaxTextLength
                                           && '\0' !in PyStrip(input.location.value)))
              && (input.contactPerson.None? || (|PyStrip(input.contactPerson.value)| <= MaxTextLength
                                                && '\0' !in PyStrip(input.contactPerson.value)))
              && (input.notes.None? || '\0' !in PyStrip(input.notes.value))
  {
    TextError("shop_name", input.shopName, MaxTextLength)
    + OptionalTextError("location", input.location, MaxTextLength)
    + OptionalTextError("contact_person", input.contactPerson, MaxTextLength)
    + OptionalTextError("notes", input.notes, 0)
  }

  /** `ShopVisitViewSet.perform_create`: owned by the requester, stamped now, location and contact optional. */
  function CreateShopVisit(db: Db, req: Requester, input: ShopVisitInput, today: Date, now: Time)
    : (r: Reply<(Db, ShopVisit)>)
    ensures req.Anonymous? ==> r == Refused(401, Detail(NotAuthenticated))
    ensures req.Authed? && ShopFieldErrors(input) != [] ==> r == Refused(400, FieldErrors(ShopFieldErrors(input)))
    ensures r.Ok? <==> req.Authed? && ShopFieldErrors(input) == []
    ensures r.Ok? ==>
              var (db', v) := r.value;
              && db' == db.(shopVisits := db.shopVisits + [v])
              && v.id !in Ids(db.shopVisits, ShopVisitId)
              && v.mr == req.user.id && v.shopName == PyStrip(input.shopName.value)
              && (v.location.Some? <==> input.location.Some?)
              && (input.location.Some? ==> v.location.value == PyStrip(input.location.value))
              && (v.contactPerson.Some? <==> input.contactPerson.Some?)
              && (input.contactPerson.Some? ==> v.contactPerson.value == PyStrip(input.contactPerson.value))
              && v.notes == PyStrip(input.notes.GetOr(""))
              && v.visitDate == today && v.visitTime == now
              && v.completed == (input.completed == Some(true))
  {
    match Authenticated(req)
    case Refused(s, b) => Refused(s, b)
    case Ok(u) =>
      if ShopFieldErrors(input) != [] then Refused(400, FieldErrors(ShopFieldErrors(input)))
      else
        var v := ShopVisit(FreshKey(db.shopVisits, ShopVisitId), u.id, PyStrip(input.shopName.value),
                           OptionalText(input.location), OptionalText(input.contactPerson),
                           PyStrip(input.notes.GetOr("")), today, now, input.completed.GetOr(false));
        Ok((db.(shopVisits := db.shopVisits + [v]), v))
  }

  lemma CreateShopVisitIgnoresClientStamp(db: Db, req: Requester, a: ShopVisitInput, b: ShopVisitInput,
                                          today: Date, now: Time)
    requires a.(mr := b.mr, visitDate := b.visitDate, visitTime := b.visitTime) == b
    ensures CreateShopVisit(db, req, a, today, now) == CreateShopVisit(db, req, b, today, now)
  {
  }

  /** Recording a shop visit keeps the database consistent, provided the requester is a stored user. */
  lemma CreateShopVisitPreservesValid(db: Db, req: Requester, input: ShopVisitInput, today: Date, now: Time)
    requires Valid(db)
    requires req.Authed? ==> HasUser(db, req.user.id)
    ensures CreateShopVisit(db, req, input, today, now).Ok? ==> Valid(CreateShopVisit(db, req, input, today, now).value.0)
  {
    var r := CreateShopVisit(db, req, input, today, now);
    if r.Ok? {
      AppendShopVisitKeepsValid(db, r.value.1);
    }
  }

  /** Adding a shop visit under a fresh key, owned by a stored user, keeps the database consistent. */
  lemma AppendShopVisitKeepsValid(db: Db, v: ShopVisit)
    requires Valid(db)
    requires v.id !in Ids(db.shopVisits, ShopVisitId) && HasUser(db, v.mr)
    ensures Valid(db.(shopVisits := db.shopVisits + [v]))
  {
    var db' := db.(shopVisits := db.shopVisits + [v]);
    AppendFreshKeepsUnique(db.shopVisits, ShopVisitId, v);
    assert forall i :: 0 <= i < |db.shopVisits| ==> db'.shopVisits[i] == db.shopVisits[i];
    assert db'.shopVisits[|db.shopVisits|] == v;
  }
}

=== FILE: wire.dfy ===
/**
 * The two halves of the application joined at the wire: a view's reply
 * sent as an HTTP response, and what the client's response handling and
 * session transitions make of it.
 */
module Wire {
  import opened Wrappers
  import opened Text
  import opened Json
  import opened Roles
  import opened Session
  import opened Gateway
  import opened Catalogue
  import opened Models
  import opened Users

  /** The content type of the framework's plain error page. */
  const HtmlMime: string := "text/html"

  /**
   * A reply as sent: success and the refusals the framework renders carry
   * JSON; an unhandled exception is answered with the plain error page.
   */
  function ToResponse(successStatus: nat, r: Reply<Json>): (resp: Response)
    requires 200 <= successStatus < 300
    ensures resp.ok <==> r.Ok?
    ensures r.Ok? ==> resp.status == successStatus && resp.body == Some(r.value)
    ensures r.Refused? ==> resp.status == r.status
    ensures Contains(resp.contentType, JsonMime) <==> !(r.Refused? && r.body.ServerError?)
  {
    EmptyIsContained("");
    ContainsIffOccurs(JsonMime, JsonMime);
    assert OccursAt(JsonMime, JsonMime, 0);
    ContainsIffOccurs(HtmlMime, JsonMime);
    match r
    case Ok(j) => Response(true, successStatus, JsonMime, Some(j))
    case Refused(s, ServerError) => Response(false, s, HtmlMime, None)
    case Refused(s, b) => Response(false, s, JsonMime, Some(ErrorJson(b)))
  }

  /** A refusal with a detail message reaches the caller as exactly that message. */
  lemma DetailRefusalReachesClient(status: nat, message: string)
    requires message != ""
    ensures HandleResponse(ToResponse(200, Refused(status, Detail(message)))) == Failure(message)
  {
    var resp := ToResponse(200, Refused(status, Detail(message)));
    assert ResponseData(resp) == JObj(map["detail" := JStr(message)]);
  }

  /** Field errors carry neither `detail` nor `message`, so the caller sees only the status. */
  lemma FieldErrorsReachClientAsStatus(status: nat, errs: seq<(string, string)>)
    requires "detail" !in FieldNames(errs) && "message" !in FieldNames(errs)
    ensures HandleResponse(ToResponse(200, Refused(status, FieldErrors(errs)))) == Failure(FallbackMessage(status))
  {
    var m := FieldMap(errs);
    assert "detail" !in m && "message" !in m;
    var resp := ToResponse(200, Refused(status, FieldErrors(errs)));
    assert ResponseData(resp) == JObj(m);
    ErrorMessagePrecedence(m, status);
  }

  /** An unhandled server exception reaches the caller as the status text. */
  lemma ServerErrorReachesClientAsStatus(status: nat)
    ensures HandleResponse(ToResponse(200, Refused(status, ServerError))) == Failure(FallbackMessage(status))
  {
  }

  /** The client's session user for a server user: the server always sends an email string. */
  function SessionUser(u: User): (a: AuthUser)
    ensures a.id == u.id && a.username == u.username && a.name == u.name && a.role == u.role
    ensures a.email == Some(u.email)
  {
    AuthUser(u.id, u.username, Some(u.email), u.name, u.role)
  }

  /** The client reads back every successful login body the server writes. */
  lemma LoginJsonDecodes(p: LoginPayload)
    ensures DecodeLoginData(LoginJson(p)) == Some(LoginData(AuthTokens(p.access, p.refresh), SessionUser(p.user)))
  {
    ParseRoleName(p.user.role);
    var j := LoginJson(p);
    assert StringField(j, "access") == Some(p.access);
    assert StringField(j, "refresh") == Some(p.refresh);
    var uj := UserJson(p.user);
    assert Field(uj, "id") == Some(JNum(p.user.id));
    assert StringField(uj, "username") == Some(p.user.username);
    assert Field(uj, "email") == Some(JStr(p.user.email));
    assert StringField(uj, "name") == Some(p.user.name);
    assert StringField(uj, "role") == Some(RoleName(p.user.role));
  }

  /**
   * A login the server accepts leaves the client holding the issued tokens
   * and the signed-in user.
   */
  lemma AcceptedLoginStoresSession(accounts: seq<Account>, input: LoginInput, role: Role, issued: (string, string),
                                   st: Storage, base: string, creds: Credentials)
    requires RoleLogin(accounts, input, role, issued).Ok?
    ensures var p := RoleLogin(accounts, input, role, issued).value;
            var s := Catalogue.Login(st, base, role, creds, Delivered(ToResponse(200, Ok(LoginJson(p)))));
            && s.outcome == Success(LoginData(AuthTokens(issued.1, issued.0), SessionUser(p.user)))
            && GetStoredTokens(s.storage) == Success(Some(AuthTokens(issued.1, issued.0)))
            && GetStoredUser(s.storage) == Success(Some(SessionUser(p.user)))
            && p.user.role == role
  {
    var p := RoleLogin(accounts, input, role, issued).value;
    LoginJsonDecodes(p);
  }

  /**
   * A login the server refuses leaves the client's store as it was, and the
   * caller sees the server's reason when it is a detail message.
   */
  lemma RefusedLoginKeepsStorage(accounts: seq<Account>, input: LoginInput, role: Role, issued: (string, string),
                                 st: Storage, base: string, creds: Credentials)
    requires RoleLogin(accounts, input, role, issued).Refused?
    ensures var r := RoleLogin(accounts, input, role, issued);
            var s := Catalogue.Login(st, base, role, creds, Delivered(ToResponse(200, Refused(r.status, r.body))));
            && s.storage == st
            && (r.body.Detail? ==> s.outcome == Failure(r.body.message))
  {
    var r := RoleLogin(accounts, input, role, issued);
    if r.body.Detail? {
      DetailRefusalReachesClient(r.status, r.body.message);
    }
  }
}

=== FILE: wrappers.dfy ===
/** Optional values and success/failure results shared by every module. */
module Wrappers {

  /** A value that may be absent (`null`/`undefined` in the client, `None` on the server). */
  datatype Option<+T> = None | Some(value: T) {
    function GetOr(default: T): T {
      match this
      case Some(v) => v
      case None => default
    }
  }

  /** The outcome of an operation that can fail with an error value. */
  datatype Result<+R, +E> = Success(value: R) | Failure(error: E) {
    predicate IsFailure() {
      Failure?
    }

    function PropagateFailure<U>(): Result<U, E>
      requires Failure?
    {
      Failure(error)
    }

    function Extract(): R
      requires Success?
    {
      value
    }
  }
}
